=== FILE: README.md ===
# Dynamic table manager — a Dafny model of the table state engine

This project models the state logic of a spreadsheet-like table manager.
The real logic lives in five places:

- the Redux **table slice**: rows, columns, sort, search, pagination, import and reset reducers;
- the **view pipeline** of the data table: search, then stable sort, then page slice;
- the **CSV import reconciler and exporter**: turning tokenised CSV rows into table rows, and building the export text;
- the **record cleaning** of the CSV utility module: trimming, default ids, age and e-mail checks;
- the **persisted-state migration** and a few small UI state machines: the column dialog, the editable cell and the application slice.

Everything is pure, deterministic data manipulation. It is modelled as
immutable datatypes and total functions. A row is a JavaScript object: an
association list of `Field(key, value)` with distinct keys, kept in insertion
order. A cell `Value` is a string, an integer, `null` or `undefined`. Each
reducer is a function from the old state to the new one. Each UI handler is a
function returning the actions it dispatches, and `Reduce`/`ReduceAll` apply
those actions.

Modules, one per source file or shared concept:

| module | file | models |
|---|---|---|
| `Wrappers` | wrappers.dfy | `Option`, and `Result` for notifications and errors |
| `Seqs` | seqs.dfy | `Array.prototype.filter`, subsequences, `slice` index rules |
| `JsText` | js_text.dfy | `trim`, ASCII case mapping, `includes`, `join`/`split`, `String(n)`, `parseInt`, `Number` |
| `Rows` | rows.dfy | values, rows as objects (`Get`, `Put`, `Delete`, spread merge), columns |
| `TableSlice` | table_slice.dfy | `src/store/slices/tableSlice.ts` |
| `StableSort` | stable_sort.dfy | a stable sort, as section 23.1.3.30 of ECMA-262 (2024) requires of `Array.prototype.sort` |
| `DataTable` | data_table.dfy | `src/components/table/DataTable.tsx` |
| `ImportExport` | import_export.dfy | `src/components/table/ImportExportControls.tsx` |
| `CsvLoop`, `CsvUtils` | csv_loop.dfy, csv_utils.dfy | `src/utils/csvUtils.ts` |
| `Persist` | persist.dfy | the `migrate` function of `src/store/index.ts` |
| `ColumnModal` | column_modal.dfy | `src/components/modals/ColumnManagementModal.tsx` |
| `EditableCell` | editable_cell.dfy | `src/components/EditableTableCell.tsx` |
| `AppSlice` | app_slice.dfy | `src/store/slices/appSlice.ts` |

Parameters stand in for what the program reads from its environment:

- `Date.now()` is a function `clock: nat -> nat`. It is indexed by the position of the row it stamps.
- `String.prototype.localeCompare` is a function `lc: (string, string) -> int`.
- The output of the CSV tokeniser (`string[][]`, or header-keyed records and an error list) is the input.

Behaviour of the code that a reader might not expect, and that the model keeps:

- `addRow` does not check id uniqueness, so two rows may share an id.
- `handleImport` does not validate ages or e-mails, and sends no `errors` field. Those checks exist only in `parseCSV`, which the import control does not call.
- Append mode silently becomes replace mode while nothing has been imported yet.
- `clearAllData` keeps `importErrors`.
- `migrate` drops every top-level key other than `table`.

## Model

| member | source | states |
|---|---|---|
| `TableSlice.UpdateRowData` | src/store/slices/tableSlice.ts:71-77 | the first row with the id gets the patch merged in; all other rows, and every row when no id matches, are unchanged; the length is kept |
| `TableSlice.DeleteRowData` | src/store/slices/tableSlice.ts:78-80 | exactly the rows with another id remain, every copy of them, as an order-preserving subsequence of the data |
| `TableSlice.ToggleColumn` | src/store/slices/tableSlice.ts:82-87 | only the first column with the key flips its visibility; keys, labels and sortability are kept |
| `TableSlice.ToggleTwice` | src/store/slices/tableSlice.ts:82-87 | toggling the same key twice gives back the column list |
| `TableSlice.AddColumnTo` | src/store/slices/tableSlice.ts:88-98 | a taken key changes nothing; a new key appends one visible, sortable column; distinct keys stay distinct |
| `TableSlice.RemoveColumnFrom` | src/store/slices/tableSlice.ts:99-105 | every column with the key is removed and every copy of every other column stays, in order; each row loses that property and keeps all others; row count and all other state are unchanged |
| `TableSlice.Humanize` | src/store/slices/tableSlice.ts:147 | the label is empty only for an empty key, and starts with the key's first letter upper-cased |
| `TableSlice.HumanizeRoundTrip` | src/store/slices/tableSlice.ts:147 | for a camel-case key without spaces, lower-casing the first letter of the label and removing the inserted spaces recovers the key |
| `TableSlice.SpaceBeforeCapsSpaced` | src/store/slices/tableSlice.ts:147 | every capital after the first letter is preceded by a space in the label |
| `TableSlice.HumanizeFirstName` | src/store/slices/tableSlice.ts:147 | `firstName` becomes `First Name` |
| `TableSlice.AllKeys` | src/store/slices/tableSlice.ts:137-141 | the key set of all rows, without repeats, holding exactly the keys some row has |
| `TableSlice.AllKeysPrefix` | src/store/slices/tableSlice.ts:139-141 | later rows only add keys after those already seen, so keys keep their first-appearance order |
| `TableSlice.InferColumns` | src/store/slices/tableSlice.ts:136-152 | one column per distinct non-`id` key, in first-appearance order, with distinct keys, and nothing else; each is visible, sortable and labelled with the humanised key |
| `TableSlice.ImportData` | src/store/slices/tableSlice.ts:128-175 | an empty payload only sets `importErrors`; replace mode (the default, or when nothing was imported) sets the rows, the inferred columns and the imported flag; append mode appends rows and only columns with new keys; both reset the view state and keep `rowsPerPage` |
| `TableSlice.AppendedColumnsUnique` | src/store/slices/tableSlice.ts:158-166 | the append branch never introduces a duplicate column key |
| `TableSlice.ImportReplaceColumnsMatchRows` | src/store/slices/tableSlice.ts:154-157 | after a replacing import, the column keys are exactly the non-`id` keys of the rows |
| `TableSlice.ImportAppendColumnsCoverRows` | src/store/slices/tableSlice.ts:135-166 | if every non-`id` row key had a column before an import, it still does afterwards |
| `TableSlice.ImportReplaceExample` | src/store/slices/tableSlice.ts:128-175 | importing two `name` rows over the demo table in replace mode leaves exactly those two rows, one `Name` column and the imported flag |
| `TableSlice.AppendData` | src/store/slices/tableSlice.ts:177-203 | an empty payload only sets the errors; otherwise rows are appended, existing columns are kept as a prefix, the imported flag is set, and nothing else changes (page, page size, search and sort included) |
| `TableSlice.AppendDataMatchesImportAppend` | src/store/slices/tableSlice.ts:177-203 | the columns `appendData` adds are exactly those the append branch of `importData` adds, in the same order |
| `TableSlice.ClearAllData` | src/store/slices/tableSlice.ts:209-217 | no rows, no columns, view reset, not imported; `importErrors` and `rowsPerPage` are kept |
| `TableSlice.ResetToDemo` | src/store/slices/tableSlice.ts:219-228 | the twelve sample rows and four seed columns, view reset, not imported, no import errors |
| `TableSlice.ReduceSimpleActions` | src/store/slices/tableSlice.ts:68-126 | `addRow` appends; the sort, search and page setters set only their field; `setRowsPerPage` also returns to page 0 |
| `TableSlice.ReduceColumnActions` | src/store/slices/tableSlice.ts:82-105 | the column actions change the state only through their column helpers |
| `TableSlice.ReducePreservesUniqueColumns` | src/store/slices/tableSlice.ts:61-229 | no reducer introduces a duplicate column key, given a reorder payload without one |
| `TableSlice.ReduceKeepsColumns` | src/store/slices/tableSlice.ts:65-126 | the row and view reducers leave the columns alone |
| `TableSlice.AddRowAllowsDuplicateIds` | src/store/slices/tableSlice.ts:68-70 | `addRow` accepts a row whose id is already taken |
| `TableSlice.RemoveIdColumnStripsIds` | src/store/slices/tableSlice.ts:99-105 | `removeColumn("id")` removes the id of every row |
| `TableSlice.DefaultColumnsUnique` | src/store/slices/tableSlice.ts:27-32 | the seed columns have distinct keys |
| `Rows.Put` | src/store/slices/tableSlice.ts:75 | writing a property sets it, keeps every other one, and keeps key order (appending a new key) |
| `Rows.Delete` | src/store/slices/tableSlice.ts:102 | rest-destructuring removes exactly the property, keeping the others in order |
| `Rows.Merge` | src/store/slices/tableSlice.ts:75 | in `{...row, ...patch}` the patch's properties win and no property is lost |
| `Rows.VisibleHiddenSplit` | src/store/slices/tableSlice.ts:258-259 | a column is selected iff it is visible; the selection keeps column order; the visible and hidden lists together hold each column once |
| `DataTable.SearchRows` | src/components/table/DataTable.tsx:376-381 | an empty term keeps all rows; otherwise every copy of a row is kept iff some value, `id` and `undefined` included, contains the term ignoring case; the result is a subsequence of the data |
| `DataTable.SearchFindsExactValue` | src/components/table/DataTable.tsx:376-381 | a row with a value reading exactly as the term is found |
| `DataTable.SearchIgnoresTermCase` | src/components/table/DataTable.tsx:379 | searching for a term or its lower-case form gives the same rows |
| `DataTable.CompareValues` | src/components/table/DataTable.tsx:386-396 | `===` values compare as 0; two different numbers compare by numeric order; any other pair compares as `localeCompare(String(a), String(b))` |
| `DataTable.FilteredAndSorted` | src/components/table/DataTable.tsx:373-403 | the rows the search keeps, in data order, when no sort key is set, and those rows sorted by the sort key in the given direction when one is; hence a permutation of the searched rows, and the data itself with no term and no sort key |
| `DataTable.SortRowsCorrect` | src/components/table/DataTable.tsx:384-399 | when the comparator is a strict weak order, the result is sorted, and rows with equal key values keep their input order in both directions |
| `DataTable.SortNumericOrdered` | src/components/table/DataTable.tsx:391-398 | on a numeric column, ascending order is non-decreasing and descending is non-increasing |
| `DataTable.SortNumericStable` | src/components/table/DataTable.tsx:389 | on a numeric column, equal values keep their relative order, ascending and descending |
| `DataTable.NumericStrictWeak` | src/components/table/DataTable.tsx:391-398 | on a numeric column the comparator is a strict weak order whatever `localeCompare` does |
| `DataTable.TextStrictWeak` | src/components/table/DataTable.tsx:391-398 | on a text column the comparator is a strict weak order when `localeCompare` is a strict total order on the column's strings |
| `DataTable.SortTextOrdered` | src/components/table/DataTable.tsx:391-398 | on such a text column, ascending sorting puts the strings in `localeCompare` order and descending in the reverse order, equal strings adjacent |
| `DataTable.Paginate` | src/components/table/DataTable.tsx:407-410 | at most a page of rows; empty when the start is past the end; otherwise exactly the rows from the start up to the page end or the last row, whichever comes first |
| `DataTable.PagesCover` | src/components/table/DataTable.tsx:407-410 | consecutive pages concatenate to a prefix of the rows, so none is skipped or shown twice |
| `DataTable.PageView` | src/components/table/DataTable.tsx:407-410 | the rows on screen never exceed the page size |
| `DataTable.PageViewRowsMatch` | src/components/table/DataTable.tsx:373-410 | every row on screen is stored and matches the search |
| `DataTable.HandleSort` | src/components/table/DataTable.tsx:412-419 | the current sort key flips its order; another key becomes the key in ascending order |
| `DataTable.HandleSortTwice` | src/components/table/DataTable.tsx:412-419 | two clicks on the sorted column restore the state |
| `DataTable.HandleSortNewColumnTwice` | src/components/table/DataTable.tsx:412-419 | two clicks on another column sort by it descending |
| `DataTable.HandleSearchChange` | src/components/table/DataTable.tsx:421-424 | the term is stored and the page returns to 0 |
| `DataTable.HandlePageChange` | src/components/table/DataTable.tsx:426-428 | only the page changes |
| `DataTable.HandleRowsPerPageChange` | src/components/table/DataTable.tsx:430-432 | the parsed page size is stored and the page returns to 0 |
| `DataTable.RowsPerPageOption` | src/components/table/DataTable.tsx:430-432 | choosing the option labelled `n` sets exactly page size `n` |
| `DataTable.EditCellEffect` | src/components/table/DataTable.tsx:453-455 | editing a cell sets that key on the first row with the id and changes nothing else |
| `DataTable.HandleBulkDelete` | src/components/table/DataTable.tsx:463-466 | one `deleteRow` per selected id, in order, and the selection becomes empty |
| `DataTable.BulkDeleteRemovesSelected` | src/components/table/DataTable.tsx:463-466 | after a bulk delete exactly the rows with a selected id are gone |
| `DataTable.HandleSelectAll` | src/components/table/DataTable.tsx:468-474 | checking selects the ids of the current page in order; unchecking selects nothing |
| `DataTable.HandleSelectRow` | src/components/table/DataTable.tsx:476-482 | checking appends the id at the end and keeps the earlier selection as it was; unchecking removes every occurrence of it and keeps every copy of every other id, in order |
| `DataTable.SelectThenDeselect` | src/components/table/DataTable.tsx:476-482 | checking then unchecking a row that was not selected restores the selection |
| `DataTable.MobileSplit` | src/components/table/DataTable.tsx:224-226 | primary and secondary columns concatenate to the visible columns, with at most two primary ones |
| `DataTable.ArrayMove` | src/components/table/DataTable.tsx:441 | the moved element lands at the target index, and the other elements keep their relative order |
| `DataTable.ArrayMoveInverse` | src/components/table/DataTable.tsx:441 | moving back undoes the move |
| `DataTable.ReorderPayload` | src/components/table/DataTable.tsx:441-447 | a permutation of the columns that starts with the moved visible list and has every visible column before every hidden one; its hidden part is unchanged and distinct keys stay distinct |
| `DataTable.HandleDragEnd` | src/components/table/DataTable.tsx:434-451 | a reorder is dispatched iff the drop has a target other than the dragged column and both are visible column keys; its payload moves the first visible column with the dragged key to the place of the first with the target key, and keeps the hidden columns after them |
| `DataTable.DragEndThenBack` | src/components/table/DataTable.tsx:434-451 | dropping the column back where it came from restores the visible order |
| `StableSort.SortCorrect` | src/components/table/DataTable.tsx:385 | under a strict weak order the sort returns a sorted permutation in which tied elements keep their input order |
| `ImportExport.HeaderName` | src/components/table/ImportExportControls.tsx:81-83 | a header is trimmed, and a blank one becomes `Unnamed` |
| `ImportExport.CellAt` | src/components/table/ImportExportControls.tsx:90 | a missing cell reads as `''`, a present one is trimmed |
| `ImportExport.ImportIdInjective` | src/components/table/ImportExportControls.tsx:88 | ids at different positions differ whatever the clock reads |
| `ImportExport.FillRowSpec` | src/components/table/ImportExportControls.tsx:88-93 | each property holds the cell of the last header of its name, a header `id` overwriting the id |
| `ImportExport.FillRowDistinct` | src/components/table/ImportExportControls.tsx:88-93 | with distinct headers other than `id`, the row is the id followed by every header with its own cell |
| `ImportExport.SynthesizeRows` | src/components/table/ImportExportControls.tsx:87-94 | one row per kept data row, in order, stamped with its position |
| `ImportExport.HandleImport` | src/components/table/ImportExportControls.tsx:75-104 | fewer than two raw rows, or no data row with content, is an error; otherwise one `importData` action with the replace flag, no `errors` field, and as row `i` the `i`-th data row with content built with the header names and the `i`-th clock reading |
| `ImportExport.ImportIdsDistinct` | src/components/table/ImportExportControls.tsx:87-94 | without a header named `id`, the ids of one import are pairwise distinct |
| `ImportExport.ImportedRowContents` | src/components/table/ImportExportControls.tsx:85-94 | when the header names are distinct and none is `id`: imported row `i` comes from the `i`-th data row with content, its keys are `id` then the headers, and each header holds its trimmed cell |
| `ImportExport.ImportKeepsRowsWithContent` | src/components/table/ImportExportControls.tsx:86 | a data row is imported iff some cell is not blank |
| `ImportExport.ExportCellRoundTrip` | src/components/table/ImportExportControls.tsx:145-149 | removing the added quotes gives `String(value || '')` back; falsy values, `0` included, export as empty |
| `ImportExport.ExportQuoteNotEscaped` | src/components/table/ImportExportControls.tsx:146-148 | an embedded quote is not doubled, unlike section 2 of RFC 4180 |
| `ImportExport.RowCells` | src/components/table/ImportExportControls.tsx:144-150 | one exported cell per column, in column order |
| `ImportExport.ExportLines` | src/components/table/ImportExportControls.tsx:141-151 | the label line, then one line per row in data order |
| `ImportExport.HandleExport` | src/components/table/ImportExportControls.tsx:127-153 | no rows, or no visible columns, is a warning; otherwise the lines of the visible columns joined by newlines |
| `ImportExport.ExportLinesSplit` | src/components/table/ImportExportControls.tsx:153 | without line breaks in labels and values, splitting the text at newlines gives the header line and the row lines back |
| `ImportExport.ExportRowSplit` | src/components/table/ImportExportControls.tsx:153 | without commas in a row's values, splitting its line at commas gives each visible value back |
| `CsvUtils.IsValidEmail` | src/utils/csvUtils.ts:102-105 | an accepted address has at least five characters |
| `CsvUtils.EmailMatchesPattern` | src/utils/csvUtils.ts:103 | the check accepts exactly the strings the regular expression matches: one `@`, no white space, non-empty runs around the `@` and a dot of the domain |
| `CsvUtils.EmailTwoAts` | src/utils/csvUtils.ts:103 | a second `@` is rejected |
| `CsvUtils.EmailDotFirst` | src/utils/csvUtils.ts:103 | a dot right after the `@` is rejected |
| `CsvUtils.CleanFields` | src/utils/csvUtils.ts:28-36 | each trimmed key holds the trimmed value of its last present field; only present fields are copied |
| `CsvUtils.CleanRecord` | src/utils/csvUtils.ts:25-36 | the cleaned record holds exactly the keys with a present field |
| `CsvUtils.CleanRecordEmpty` | src/utils/csvUtils.ts:26-38 | a record is kept iff its cleaned copy is not empty |
| `CsvUtils.WithDefaultId` | src/utils/csvUtils.ts:39-41 | a falsy id becomes the clock stamp; a truthy id and all other properties are kept |
| `CsvUtils.CheckAge` | src/utils/csvUtils.ts:43-50 | a present age that `parseInt` reads as 0..120 is replaced by that number; any other present age is reported and left unchanged |
| `CsvUtils.CheckEmail` | src/utils/csvUtils.ts:52-54 | a truthy e-mail the check rejects is reported |
| `CsvUtils.CheckRow` | src/utils/csvUtils.ts:43-54 | both checks: the age error iff the age fails, the e-mail error iff the e-mail fails, at most two errors |
| `CsvUtils.CheckRowOnlyErrors` | src/utils/csvUtils.ts:43-54 | the checks report no message other than the age and e-mail messages |
| `CsvUtils.ProcessRecord` | src/utils/csvUtils.ts:24-57 | a record without a present field yields nothing |
| `CsvUtils.ProcessRecordSpec` | src/utils/csvUtils.ts:24-57 | a kept record gets a truthy id or the stamp, its cleaned values, a checked or reported age, an e-mail error iff malformed, and no other error |
| `CsvUtils.TokenMessages` | src/utils/csvUtils.ts:18-22 | each tokeniser error becomes `Row <row>: <message>`, in order |
| `CsvUtils.ParseComplete` | src/utils/csvUtils.ts:14-64 | the tokeniser messages, then the kept records' messages in record order, and nothing else; the rows are the kept records' rows |
| `CsvUtils.ParseErrorsAccounted` | src/utils/csvUtils.ts:14-64 | every reported message is a tokeniser message or the age or e-mail message of a kept record |
| `CsvUtils.ParseFailed` | src/utils/csvUtils.ts:65-70 | a failed parse yields no rows and the one message |
| `CsvUtils.KeptRecordOutput` | src/utils/csvUtils.ts:24-57 | the output rows are the kept records' rows, in input order, with 1-based error rows counting every record |
| `CsvUtils.KeptRecordAppears` | src/utils/csvUtils.ts:56 | a kept record's row is in the output |
| `CsvUtils.InvalidEmailReported` | src/utils/csvUtils.ts:52-56 | a malformed e-mail is reported while its row is still output |
| `CsvUtils.AgeCheckedOrReported` | src/utils/csvUtils.ts:43-50 | a kept row's age passed the check or was reported |
| `CsvUtils.ProjectRow` | src/utils/csvUtils.ts:78-84 | an exported row has exactly the given columns, each holding `row[col] || ''` |
| `CsvUtils.ProjectRowKeys` | src/utils/csvUtils.ts:80-82 | with distinct column names the exported row's keys are the columns in order |
| `CsvUtils.ExportProjection` | src/utils/csvUtils.ts:78-84 | one projected row per row, in order |
| `CsvUtils.ProjectionBlanksFalsy` | src/utils/csvUtils.ts:81 | `0` and `null` export as an empty cell |
| `CsvLoop.GatherRows` | src/utils/csvUtils.ts:24-57 | the gathered rows are the kept records' rows in input order |
| `CsvLoop.KeptIndicesIncreasing` | src/utils/csvUtils.ts:24 | kept positions are increasing |
| `CsvLoop.GatherErrors` | src/utils/csvUtils.ts:46-54 | every error of a kept record is gathered |
| `CsvLoop.GatherErrorSource` | src/utils/csvUtils.ts:24-57 | every gathered error belongs to some kept record |
| `Persist.Migrate` | src/store/index.ts:13-22 | a state with a table but no truthy version becomes `{table}` with version 1 and `hasImportedData` false; any other state is returned unchanged |
| `Persist.MigrateIdempotent` | src/store/index.ts:13-22 | migrating twice is migrating once |
| `Persist.MigratePreservesTable` | src/store/index.ts:15-16 | every other member of the table keeps its value |
| `Persist.MigrateKeepsVersioned` | src/store/index.ts:13-22 | a state without a table, or with a versioned table, is kept |
| `Persist.MigrateExample` | src/store/index.ts:14-19 | other top-level keys are dropped, and a true `hasImportedData` is overwritten |
| `Persist.SetMember` | src/store/index.ts:15-17 | writing a member of an object literal sets it and keeps every other member |
| `ColumnModal.ReplaceSpaceRuns` | src/components/modals/ColumnManagementModal.tsx:39 | the result has no white space, is no longer than the input, and is empty only for an empty input |
| `ColumnModal.ReplaceSingleSpaced` | src/components/modals/ColumnManagementModal.tsx:39 | when no two white-space characters touch, each becomes one underscore |
| `ColumnModal.ReplaceRun` | src/components/modals/ColumnManagementModal.tsx:39 | a whole white-space run becomes a single underscore |
| `ColumnModal.ColumnKeyOf` | src/components/modals/ColumnManagementModal.tsx:39 | the key has no white space and no upper-case letter, and is empty only for an empty name |
| `ColumnModal.ColumnKeyIdempotent` | src/components/modals/ColumnManagementModal.tsx:39 | deriving the key of a key gives it back |
| `ColumnModal.ColumnKeyEdges` | src/components/modals/ColumnManagementModal.tsx:39 | a name that starts or ends with white space gives a key that starts or ends with `_`, since it is not trimmed |
| `ColumnModal.ColumnKeyExample` | src/components/modals/ColumnManagementModal.tsx:39 | ` Due  Date ` becomes `_due_date_` |
| `ColumnModal.HandleAddColumn` | src/components/modals/ColumnManagementModal.tsx:37-47 | a blank name dispatches nothing; otherwise `addColumn` with the derived key and the trimmed label, and the field is cleared |
| `ColumnModal.AddedColumnWellFormed` | src/components/modals/ColumnManagementModal.tsx:37-47 | a dispatched column has a non-empty key without white space and a trimmed, non-blank label |
| `ColumnModal.HandleKeyPress` | src/components/modals/ColumnManagementModal.tsx:57-61 | Enter adds the column; other keys do nothing |
| `ColumnModal.HandleRemoveColumn` | src/components/modals/ColumnManagementModal.tsx:49-55 | a seed key dispatches nothing; any other key dispatches its removal |
| `ColumnModal.HandleToggleColumn` | src/components/modals/ColumnManagementModal.tsx:33-35 | the toggle action for that key |
| `ColumnModal.AddColumnEffect` | src/components/modals/ColumnManagementModal.tsx:37-47 | a fresh key appends a visible, sortable column; a taken key or blank name changes nothing |
| `ColumnModal.RemoveKeepsSeeds` | src/components/modals/ColumnManagementModal.tsx:49-55 | no seed column is ever removed through the dialog; any other key is removed |
| `ColumnModal.ToggleTwiceThroughDialog` | src/components/modals/ColumnManagementModal.tsx:33-35 | toggling twice through the dialog restores the columns |
| `EditableCell.InitialCell` | src/components/EditableTableCell.tsx:20-22 | a cell starts closed, with its value as draft and no error |
| `EditableCell.Validate` | src/components/EditableTableCell.tsx:32-57 | e-mail: a non-empty text failing the pattern; number: a non-empty text that is not a number or is negative; `name` text cell: a blank text; only those are rejected |
| `EditableCell.FinalValue` | src/components/EditableTableCell.tsx:62 | a number cell saves `Number(draft)`, or 0 for `NaN`; other cells save the draft as a string |
| `EditableCell.Save` | src/components/EditableTableCell.tsx:59-66 | `onSave` is called iff validation passes, and the editor then closes; otherwise the message is shown and the editor stays open |
| `EditableCell.Cancel` | src/components/EditableTableCell.tsx:68-72 | the draft is restored, the error cleared and the editor closed, without saving |
| `EditableCell.KeyPress` | src/components/EditableTableCell.tsx:74-80 | Enter saves, Escape cancels, other keys do nothing |
| `EditableCell.DoubleClick` | src/components/EditableTableCell.tsx:82-85 | the editor opens on the cell's value |
| `EditableCell.Edit` | src/components/EditableTableCell.tsx:95 | typing replaces the draft |
| `EditableCell.SavedNumberNonNegative` | src/components/EditableTableCell.tsx:43-48 | a number cell only saves a number at least zero |
| `EditableCell.EditThenEscapeRestores` | src/components/EditableTableCell.tsx:68-80 | Escape after any edits restores the initial cell |
| `EditableCell.EditThenEnterSavesText` | src/components/EditableTableCell.tsx:50-66 | a typed text is saved as typed, unless it is a blank `name` |
| `EditableCell.EditThenEnterSavesNumber` | src/components/EditableTableCell.tsx:43-66 | a typed numeral is saved as its number iff it is not negative |
| `EditableCell.EmailCellMatchesPattern` | src/components/EditableTableCell.tsx:37-38 | a non-empty e-mail is accepted iff it matches the pattern |
| `AppSlice.InitialAppState` | src/store/slices/appSlice.ts:4-14 | light theme; name, email, age and role shown; department and location hidden |
| `AppSlice.MergeVisibility` | src/store/slices/appSlice.ts:26-28 | the patch's keys win, all other keys are kept, no key is lost |
| `AppSlice.ToggleField` | src/store/slices/appSlice.ts:29-31 | one key is negated, an absent key becoming true; the others are kept |
| `AppSlice.ReduceApp` | src/store/slices/appSlice.ts:20-31 | `toggleTheme` changes the theme; `setTheme` sets exactly it; `setColumnVisibility` merges the patch and `toggleColumnVisibilityByField` toggles one field, both keeping the theme |
| `AppSlice.ToggleThemeTwice` | src/store/slices/appSlice.ts:20-22 | toggling the theme twice restores the state |
| `AppSlice.ToggleFieldTwice` | src/store/slices/appSlice.ts:29-31 | toggling a present key twice restores the record; an absent key ends as false |
| `AppSlice.MergeVisibilityIdempotent` | src/store/slices/appSlice.ts:26-28 | merging the same patch twice is merging once |
| `JsText.Trim` | src/components/table/ImportExportControls.tsx:82 | the trimmed text sits in the input with only white space around it, and neither starts nor ends with white space |
| `JsText.BlankIffAllSpace` | src/components/table/ImportExportControls.tsx:86 | a text is blank iff every character is white space |
| `JsText.ContainsIff` | src/components/table/DataTable.tsx:379 | `includes` holds iff the term occurs at some position |
| `JsText.ParseInt` | src/utils/csvUtils.ts:44 | `NaN` iff no digit follows the white space and sign; without a minus the result is not negative |
| `JsText.ParseIntRoundTrip` | src/utils/csvUtils.ts:44 | `parseInt(String(n))` is `n` |
| `JsText.ToNumberRoundTrip` | src/components/EditableTableCell.tsx:48 | `Number(String(n))` is `n` |
| `JsText.SplitJoin` | src/components/table/ImportExportControls.tsx:153 | splitting a join on a separator that no part contains gives the parts back |
| `Seqs.FilterIsSubsequence` | src/store/slices/tableSlice.ts:79 | `filter` keeps an order-preserving subsequence |
| `Seqs.FilterMembership` | src/store/slices/tableSlice.ts:79 | an element is kept iff it satisfies the predicate |
| `Seqs.FilterCount` | src/store/slices/tableSlice.ts:79 | `filter` keeps every copy of an element satisfying the predicate and no copy of any other |
| `Seqs.JsSlice` | src/components/table/DataTable.tsx:409 | `slice` is empty past the end, the plain slice within range, and the rest of the sequence when the end lies past it |

## Left out

- Rendering: React, MUI, dialogs, snackbars, menus (including closing the row menu after a delete), the `isClient` and `isMobile` branches. These are presentation with no state logic.
- dnd-kit sensors and gesture handling. Only the list built from `arrayMove` and the hidden columns is modelled.
- CSV tokenising and un-parsing (`Papa.parse`, `Papa.unparse`). This is a foreign library, so the model starts from its output.
- File type checks, the Blob/URL/`document` download, the file name timestamp and `Date.now()`. These are I/O or depend on the clock, so timestamps are parameters.
- redux-persist storage, `persistStore`, `purge`, `clearPersistedData`, the `Promise` wrapper of `migrate` and the `setTimeout` of the full reset. These are asynchronous I/O and timing.
- The search debounce of the table controls. It is timing only.
- The theme provider, theme definitions, layout, providers, page files and the theme toggle. They are configuration and wiring.
- Floating-point numbers, `NaN` as a stored value, booleans as cell values and `localeCompare`. Numbers are integers, and `localeCompare` is the parameter `lc`. `parseInt` is base 10 without `0x` prefixes.
- JavaScript's ordering of integer-like property keys before other keys. Object keys are kept in insertion order.
- Case mapping covers ASCII letters only.
- `JsText.ToNumber`: it reads only optionally signed decimal integer numerals. JavaScript's `Number` also accepts `0x`, `0b` and `0o` prefixes, exponents such as `1e3`, fractions and `Infinity`; the model reads those as `NaN`.
- `EditableCell.Validate`: because of `JsText.ToNumber`, a number cell rejects `0x10`, `1e3`, `1.5` or `Infinity` as not a number, where the code accepts them.
- `EditableCell.FinalValue`: for the same texts the model saves 0, where the code saves the numeric value.
- `ImportExport.ImportedRowContents`: the key-by-key contents are stated only for distinct header names other than `id`. With a repeated header, the later cell overwrites the earlier one; a header named `id` overwrites the generated id. For all headers, `ImportExport.HandleImport` states that row `i` is `ImportedRow` of the `i`-th kept data row.
- `DataTable.SortRows`: it returns a stable insertion sort. When `lc` is not a consistent order, an engine may order rows differently, because ECMA-262 leaves the order implementation-defined in that case. Sortedness and stability are proved only for comparators that are strict weak orders.
- `DataTable.HandleRowsPerPageChange`: when the text has no numeral, the code dispatches `setRowsPerPage(NaN)`. The model dispatches nothing. The select only offers numeric options.
- `DataTable.HandleDragEnd`: when either key is not a visible column, the code would call `arrayMove` with index -1. The model dispatches nothing, because dnd-kit only reports the sortable visible headers.
- `TableSlice.ReducePreservesUniqueColumns`: the `reorderColumns` reducer stores any payload. Key distinctness is proved only when the payload has distinct keys, as the drag handler's payload does (`DataTable.ReorderPayload`).
- `TableSlice.AppendData`: the contract states row and column growth. That its new columns equal the `importData` append branch is the separate lemma `TableSlice.AppendDataMatchesImportAppend`.

=== FILE: app_slice.dfy ===
/** The application slice (`src/store/slices/appSlice.ts`): the colour theme
    and a record of per-field visibility flags.

    The visibility record is a `map`: the reducers only read and write
    single keys and merge records, so the order of its keys plays no part. */
module AppSlice {
  datatype Theme = Light | Dark

  datatype AppState = AppState(theme: Theme, columnVisibility: map<string, bool>)

  /** The initial state: light theme, the four seed fields shown and
      `department` and `location` hidden. */
  function InitialAppState(): (s: AppState)
    ensures s.theme == Light
    ensures s.columnVisibility.Keys == {"name", "email", "age", "role", "department", "location"}
    ensures forall k :: k in s.columnVisibility ==>
              (s.columnVisibility[k] <==> k in {"name", "email", "age", "role"})
  {
    AppState(Light, map["name" := true, "email" := true, "age" := true, "role" := true,
                        "department" := false, "location" := false])
  }

  /** `columnVisibility[k]` read as a condition: an absent key is falsy. */
  predicate Shown(m: map<string, bool>, k: string) {
    k in m && m[k]
  }

  datatype AppAction =
    | ToggleTheme
    | SetTheme(theme: Theme)
    | SetColumnVisibility(patch: map<string, bool>)
    | ToggleColumnVisibilityByField(field: string)

  function Flip(t: Theme): (r: Theme)
    ensures r != t
  {
    if t == Light then Dark else Light
  }

  /** `{ ...visibility, ...patch }`: the patch's keys win, every other key
      keeps its flag, and no key is lost. */
  function MergeVisibility(m: map<string, bool>, patch: map<string, bool>): (r: map<string, bool>)
    ensures r.Keys == m.Keys + patch.Keys
    ensures forall k :: k in patch ==> r[k] == patch[k]
    ensures forall k :: k in m && k !in patch ==> r[k] == m[k]
  {
    m + patch
  }

  /** `visibility[k] = !visibility[k]`: the flag of `k` is negated, an absent
      one becoming `true`; every other key is kept. */
  function ToggleField(m: map<string, bool>, k: string): (r: map<string, bool>)
    ensures r.Keys == m.Keys + {k}
    ensures r[k] == !Shown(m, k)
    ensures forall k' :: k' in m && k' != k ==> r[k'] == m[k']
  {
    m[k := !Shown(m, k)]
  }

  /** The reducers of the slice: the theme actions touch only the theme,
      the visibility actions only the visibility record. */
  function ReduceApp(s: AppState, a: AppAction): (r: AppState)
    ensures a.ToggleTheme? ==> r.theme != s.theme && r.columnVisibility == s.columnVisibility
    ensures a.SetTheme? ==> r == s.(theme := a.theme)
    ensures a.SetColumnVisibility? || a.ToggleColumnVisibilityByField? ==> r.theme == s.theme
    ensures a.SetColumnVisibility? ==>
              r.columnVisibility == MergeVisibility(s.columnVisibility, a.patch)
    ensures a.ToggleColumnVisibilityByField? ==>
              r.columnVisibility == ToggleField(s.columnVisibility, a.field)
  {
    match a
    case ToggleTheme => s.(theme := Flip(s.theme))
    case SetTheme(t) => s.(theme := t)
    case SetColumnVisibility(patch) => s.(columnVisibility := MergeVisibility(s.columnVisibility, patch))
    case ToggleColumnVisibilityByField(k) => s.(columnVisibility := ToggleField(s.columnVisibility, k))
  }

  /** Toggling the theme twice restores the state. */
  lemma ToggleThemeTwice(s: AppState)
    ensures ReduceApp(ReduceApp(s, ToggleTheme), ToggleTheme) == s
  {
  }

  /** Toggling a present field twice restores the record; toggling an
      absent one twice leaves it present and `false`. */
  lemma ToggleFieldTwice(m: map<string, bool>, k: string)
    ensures k in m ==> ToggleField(ToggleField(m, k), k) == m
    ensures k !in m ==> ToggleField(ToggleField(m, k), k) == m[k := false]
  {
    var r := ToggleField(ToggleField(m, k), k);
    if k in m {
      assert r.Keys == m.Keys;
    }
  }

  /** Merging a record's own flags back changes nothing, and merging is
      idempotent. */
  lemma MergeVisibilityIdempotent(m: map<string, bool>, patch: map<string, bool>)
    ensures MergeVisibility(MergeVisibility(m, patch), patch) == MergeVisibility(m, patch)
    ensures MergeVisibility(m, m) == m
  {
  }
}

=== FILE: column_modal.dfy ===
/** The column-management dialog (`src/components/modals/ColumnManagementModal.tsx`):
    how a typed name becomes a new column's key and caption, and the guard
    that keeps the four seed columns from being deleted.

    Each handler is a function from the dialog's input to the actions it
    dispatches and the text left in the name field. */
module ColumnModal {
  import opened Wrappers
  import opened JsText
  import opened Rows
  import TableSlice

  // ---------------------------------------------------------------- key

  /** `s.replace(/\s+/g, '_')`: every maximal run of white space becomes a
      single underscore. */
  function ReplaceSpaceRuns(s: string): (r: string)
    ensures NoSpace(r)
    ensures |r| <= |s|
    ensures r == [] <==> s == []
    decreases |s|
  {
    if s == [] then []
    else if IsSpace(s[0]) then
      TrimStartShortens(s);
      "_" + ReplaceSpaceRuns(TrimStart(s))
    else [s[0]] + ReplaceSpaceRuns(s[1..])
  }

  lemma TrimStartShortens(s: string)
    requires |s| > 0 && IsSpace(s[0])
    ensures |TrimStart(s)| < |s|
  {
  }

  /** No character is an upper-case ASCII letter. */
  predicate NoUpper(s: string) {
    forall i :: 0 <= i < |s| ==> !IsUpperAscii(s[i])
  }

  /** Replacing runs of white space brings in no upper-case letter. */
  lemma {:induction false} ReplaceKeepsNoUpper(s: string)
    requires NoUpper(s)
    ensures NoUpper(ReplaceSpaceRuns(s))
    decreases |s|
  {
    if s == [] {
      assert ReplaceSpaceRuns(s) == [];
    } else if IsSpace(s[0]) {
      NoUpperSpaceStep(s);
      ReplaceKeepsNoUpper(TrimStart(s));
    } else {
      NoUpperCharStep(s);
      ReplaceKeepsNoUpper(s[1..]);
    }
  }

  lemma NoUpperSpaceStep(s: string)
    requires NoUpper(s) && |s| > 0 && IsSpace(s[0])
    ensures |TrimStart(s)| < |s| && NoUpper(TrimStart(s))
    ensures NoUpper(ReplaceSpaceRuns(TrimStart(s))) ==> NoUpper(ReplaceSpaceRuns(s))
  {
    TrimStartShortens(s);
    NoUpperSuffix(s, |s| - |TrimStart(s)|);
    ReplaceSpaceHead(s);
    if NoUpper(ReplaceSpaceRuns(TrimStart(s))) {
      NoUpperConcat("_", ReplaceSpaceRuns(TrimStart(s)));
    }
  }

  /** The unfolding of `ReplaceSpaceRuns` at a leading white-space run. */
  lemma ReplaceSpaceHead(s: string)
    requires |s| > 0 && IsSpace(s[0])
    ensures ReplaceSpaceRuns(s) == "_" + ReplaceSpaceRuns(TrimStart(s))
  {
  }

  lemma NoUpperSuffix(s: string, k: nat)
    requires NoUpper(s) && k <= |s|
    ensures NoUpper(s[k..])
  {
    forall i | 0 <= i < |s| - k ensures !IsUpperAscii(s[k..][i]) {
      assert s[k..][i] == s[k + i];
    }
  }

  lemma NoUpperCharStep(s: string)
    requires NoUpper(s) && |s| > 0 && !IsSpace(s[0])
    ensures NoUpper(s[1..])
    ensures NoUpper(ReplaceSpaceRuns(s[1..])) ==> NoUpper(ReplaceSpaceRuns(s))
  {
    var t := s[1..];
    NoUpperSuffix(s, 1);
    assert ReplaceSpaceRuns(s) == [s[0]] + ReplaceSpaceRuns(t);
    if NoUpper(ReplaceSpaceRuns(t)) {
      NoUpperConcat([s[0]], ReplaceSpaceRuns(t));
    }
  }

  lemma NoUpperConcat(a: string, b: string)
    requires NoUpper(a) && NoUpper(b)
    ensures NoUpper(a + b)
  {
    forall i | 0 <= i < |a + b| ensures !IsUpperAscii((a + b)[i]) {
      if i < |a| { assert (a + b)[i] == a[i]; } else { assert (a + b)[i] == b[i - |a|]; }
    }
  }

  /** No two neighbouring characters are both white space. */
  predicate SingleSpaced(s: string) {
    forall i :: 0 <= i < |s| - 1 ==> !(IsSpace(s[i]) && IsSpace(s[i + 1]))
  }

  /** Every white-space character becomes an underscore on its own. */
  function SpacesToUnderscores(s: string): (r: string)
    ensures |r| == |s|
    ensures forall i :: 0 <= i < |s| ==> r[i] == (if IsSpace(s[i]) then '_' else s[i])
  {
    if s == [] then []
    else [if IsSpace(s[0]) then '_' else s[0]] + SpacesToUnderscores(s[1..])
  }

  /** When no two white-space characters touch, replacing runs is replacing
      characters one by one. */
  lemma {:induction false} ReplaceSingleSpaced(s: string)
    requires SingleSpaced(s)
    ensures ReplaceSpaceRuns(s) == SpacesToUnderscores(s)
    decreases |s|
  {
    if s != [] {
      var t := s[1..];
      assert SingleSpaced(t) by {
        forall i | 0 <= i < |t| - 1 ensures !(IsSpace(t[i]) && IsSpace(t[i + 1])) {
          assert t[i] == s[i + 1] && t[i + 1] == s[i + 2];
        }
      }
      ReplaceSingleSpaced(t);
      if IsSpace(s[0]) {
        assert t == [] || !IsSpace(t[0]) by {
          if t != [] { assert t[0] == s[1]; }
        }
        TrimStartOneSpace(s);
      }
    }
  }

  lemma TrimStartOneSpace(s: string)
    requires |s| > 0 && IsSpace(s[0]) && (|s| == 1 || !IsSpace(s[1]))
    ensures TrimStart(s) == s[1..]
  {
    assert TrimStart(s) == TrimStart(s[1..]);
  }

  /** A string without white space is left as it is. */
  lemma {:induction false} ReplaceNoSpace(s: string)
    requires NoSpace(s)
    ensures ReplaceSpaceRuns(s) == s
    decreases |s|
  {
    if s != [] {
      assert s[0] == s[0] && !IsSpace(s[0]);
      ReplaceNoSpace(s[1..]);
    }
  }

  /** The key derived from a typed column name: lower-cased, white-space runs
      replaced; the name is not trimmed first. */
  function ColumnKeyOf(name: string): (key: string)
    ensures NoSpace(key)
    ensures NoUpper(key)
    ensures key == [] <==> name == []
  {
    var lower := ToLower(name);
    ToLowerIdempotent(name);
    ReplaceKeepsNoUpper(lower);
    ReplaceSpaceRuns(lower)
  }

  /** Deriving the key of a key gives the key back. */
  lemma ColumnKeyIdempotent(name: string)
    ensures ColumnKeyOf(ColumnKeyOf(name)) == ColumnKeyOf(name)
  {
    var key := ColumnKeyOf(name);
    assert ToLower(key) == key;
    ReplaceNoSpace(key);
  }

  /** A word followed by white space or by nothing is copied as it is. */
  lemma {:induction false} ReplaceWord(w: string, rest: string)
    requires NoSpace(w)
    ensures ReplaceSpaceRuns(w + rest) == w + ReplaceSpaceRuns(rest)
    decreases |w|
  {
    if w == [] {
      assert w + rest == rest;
    } else {
      var s := w + rest;
      assert s[0] == w[0] && s[1..] == w[1..] + rest;
      assert !IsSpace(s[0]);
      assert ReplaceSpaceRuns(s) == [w[0]] + ReplaceSpaceRuns(w[1..] + rest);
      assert NoSpace(w[1..]) by {
        forall i | 0 <= i < |w[1..]| ensures !IsSpace(w[1..][i]) {
          assert w[1..][i] == w[i + 1];
        }
      }
      ReplaceWord(w[1..], rest);
      ConsAppend(w, ReplaceSpaceRuns(rest));
    }
  }

  lemma ConsAppend(w: string, x: string)
    requires w != []
    ensures [w[0]] + (w[1..] + x) == w + x
  {
    assert w == [w[0]] + w[1..];
  }

  /** Lower-case letters are not white space. */
  lemma LettersNoSpace(w: string)
    requires forall i :: 0 <= i < |w| ==> 'a' <= w[i] <= 'z'
    ensures NoSpace(w)
  {
  }

  /** A non-empty run of white space followed by a non-space character (or
      by nothing) becomes one underscore. */
  lemma ReplaceRun(sp: string, rest: string)
    requires sp != [] && forall i :: 0 <= i < |sp| ==> IsSpace(sp[i])
    requires rest == [] || !IsSpace(rest[0])
    ensures ReplaceSpaceRuns(sp + rest) == "_" + ReplaceSpaceRuns(rest)
  {
    TrimStartRun(sp, rest);
  }

  lemma {:induction false} TrimStartRun(sp: string, rest: string)
    requires forall i :: 0 <= i < |sp| ==> IsSpace(sp[i])
    requires rest == [] || !IsSpace(rest[0])
    ensures TrimStart(sp + rest) == rest
    decreases |sp|
  {
    if sp == [] {
      assert sp + rest == rest;
    } else {
      assert (sp + rest)[0] == sp[0] && (sp + rest)[1..] == sp[1..] + rest;
      TrimStartRun(sp[1..], rest);
    }
  }

  /** A name that starts or ends with white space gives a key that starts
      or ends with an underscore. */
  lemma ColumnKeyEdges(name: string)
    ensures |name| > 0 && IsSpace(name[0]) ==> ColumnKeyOf(name)[0] == '_'
    ensures |name| > 0 && IsSpace(name[|name| - 1]) ==> EndsUnderscore(ColumnKeyOf(name))
  {
    var lower := ToLower(name);
    if |name| > 0 && IsSpace(name[0]) {
      assert IsSpace(lower[0]);
    }
    if |name| > 0 && IsSpace(name[|name| - 1]) {
      assert IsSpace(lower[|lower| - 1]);
      ReplaceEndsWithSpace(lower);
    }
  }

  predicate EndsUnderscore(r: string) {
    |r| > 0 && r[|r| - 1] == '_'
  }

  lemma {:induction false} ReplaceEndsWithSpace(s: string)
    requires |s| > 0 && IsSpace(s[|s| - 1])
    ensures EndsUnderscore(ReplaceSpaceRuns(s))
    decreases |s|
  {
    if IsSpace(s[0]) {
      EndsSpaceStep(s);
      if TrimStart(s) != [] {
        ReplaceEndsWithSpace(TrimStart(s));
      }
    } else {
      EndsCharStep(s);
      ReplaceEndsWithSpace(s[1..]);
    }
  }

  lemma EndsSpaceStep(s: string)
    requires |s| > 0 && IsSpace(s[0])
    ensures |TrimStart(s)| < |s|
    ensures TrimStart(s) == [] ==> EndsUnderscore(ReplaceSpaceRuns(s))
    ensures TrimStart(s) != [] ==>
              && TrimStart(s)[|TrimStart(s)| - 1] == s[|s| - 1]
              && (EndsUnderscore(ReplaceSpaceRuns(TrimStart(s))) ==> EndsUnderscore(ReplaceSpaceRuns(s)))
  {
    TrimStartShortens(s);
    ReplaceSpaceHead(s);
    if TrimStart(s) == [] {
      assert ReplaceSpaceRuns(s) == "_" + ReplaceSpaceRuns([]);
    } else {
      TrimStartLast(s);
      EndsUnderscoreConcat("_", ReplaceSpaceRuns(TrimStart(s)));
    }
  }

  lemma TrimStartLast(s: string)
    requires TrimStart(s) != []
    ensures TrimStart(s)[|TrimStart(s)| - 1] == s[|s| - 1]
  {
    var t := TrimStart(s);
    assert t[|t| - 1] == s[|s| - |t| + |t| - 1];
  }

  lemma EndsCharStep(s: string)
    requires |s| > 0 && !IsSpace(s[0]) && IsSpace(s[|s| - 1])
    ensures |s[1..]| > 0 && IsSpace(s[1..][|s[1..]| - 1])
    ensures EndsUnderscore(ReplaceSpaceRuns(s[1..])) ==> EndsUnderscore(ReplaceSpaceRuns(s))
  {
    var t := s[1..];
    assert t[|t| - 1] == s[|s| - 1];
    assert ReplaceSpaceRuns(s) == [s[0]] + ReplaceSpaceRuns(t);
    EndsUnderscoreConcat([s[0]], ReplaceSpaceRuns(t));
  }

  lemma EndsUnderscoreConcat(a: string, b: string)
    ensures EndsUnderscore(b) ==> EndsUnderscore(a + b)
  {
    if EndsUnderscore(b) {
      assert (a + b)[|a + b| - 1] == b[|b| - 1];
    }
  }

  /** Leading and trailing spaces survive as underscores, and an inner run
      collapses to one. */
  lemma ColumnKeyExample()
    ensures ColumnKeyOf(" Due  Date ") == "_due_date_"
  {
    LowerExample();
    ReplaceExample();
  }

  lemma LowerExample()
    ensures ToLower(" Due  Date ") == " due  date "
  {
  }

  lemma ReplaceExample()
    ensures ReplaceSpaceRuns(" due  date ") == "_due_date_"
  {
    assert " due  date " == " " + "due  date ";
    KeyLiteral();
    ReplaceRun(" ", "due  date ");
    ReplaceExampleWord();
  }

  lemma KeyLiteral()
    ensures "_" + "due_date_" == "_due_date_"
  {
  }

  lemma ReplaceExampleWord()
    ensures ReplaceSpaceRuns("due  date ") == "due_date_"
  {
    assert "due  date " == "due" + "  date ";
    assert "due" + "_date_" == "due_date_";
    LettersNoSpace("due");
    ReplaceWord("due", "  date ");
    ReplaceExampleRun();
  }

  lemma ReplaceExampleRun()
    ensures ReplaceSpaceRuns("  date ") == "_date_"
  {
    assert "  date " == "  " + "date ";
    assert "_" + "date_" == "_date_";
    ReplaceRun("  ", "date ");
    ReplaceExampleTail();
  }

  lemma ReplaceExampleTail()
    ensures ReplaceSpaceRuns("date ") == "date_"
  {
    assert "date " == "date" + " ";
    assert "date" + "_" == "date_";
    LettersNoSpace("date");
    ReplaceWord("date", " ");
    ReplaceOneSpace();
  }

  lemma ReplaceOneSpace()
    ensures ReplaceSpaceRuns(" ") == "_"
  {
    assert " " == " " + "";
    ReplaceRun(" ", "");
  }

  // ---------------------------------------------------------------- handlers

  /** What a handler does: the action it dispatches, if any, and the text
      left in the new-column field. */
  datatype Outcome = Outcome(dispatched: Option<TableSlice.Action>, nameField: string)

  /** `handleAddColumn`: a blank name does nothing; otherwise a column keyed
      by the derived key and captioned by the trimmed name is added and the
      field is cleared. */
  function HandleAddColumn(name: string): (r: Outcome)
    ensures IsBlank(name) <==> r.dispatched.None?
    ensures IsBlank(name) ==> r.nameField == name
    ensures !IsBlank(name) ==> r.nameField == "" && r.dispatched.value.AddColumn?
    ensures r.dispatched.Some? ==>
              && r.dispatched.value.key == ColumnKeyOf(name)
              && r.dispatched.value.caption == Trim(name)
  {
    if IsBlank(name) then Outcome(None, name)
    else Outcome(Some(TableSlice.AddColumn(ColumnKeyOf(name), Trim(name))), "")
  }

  /** A dispatched column has a non-empty key without white space and a
      caption that is non-blank and already trimmed. */
  lemma AddedColumnWellFormed(name: string)
    requires HandleAddColumn(name).dispatched.Some?
    ensures var a := HandleAddColumn(name).dispatched.value;
            && a.key != "" && NoSpace(a.key)
            && !IsBlank(a.caption) && Trim(a.caption) == a.caption
  {
    var t := Trim(name);
    TrimNoSpace(t);
    assert name != [];
  }

  /** `handleKeyPress`: Enter adds the column; any other key leaves the
      field alone. */
  function HandleKeyPress(key: string, name: string): (r: Outcome)
    ensures key == "Enter" ==> r == HandleAddColumn(name)
    ensures key != "Enter" ==> r == Outcome(None, name)
  {
    if key == "Enter" then HandleAddColumn(name) else Outcome(None, name)
  }

  /** The columns the application starts with, which may not be deleted. */
  const SeedKeys: seq<string> := ["name", "email", "age", "role"]

  /** The delete button is shown only for a column that is not a seed. */
  predicate CanDelete(key: string) {
    key !in SeedKeys
  }

  /** `handleRemoveColumn`: a seed key dispatches nothing, any other key
      removes that column. */
  function HandleRemoveColumn(key: string): (r: Option<TableSlice.Action>)
    ensures r.Some? <==> CanDelete(key)
    ensures r.Some? ==> r.value == TableSlice.RemoveColumn(key)
  {
    if key in SeedKeys then None else Some(TableSlice.RemoveColumn(key))
  }

  /** `handleToggleColumn`: the column's visibility is toggled. */
  function HandleToggleColumn(key: string): (r: TableSlice.Action)
    ensures r.ToggleColumnVisibility? && r.toggleKey == key
  {
    TableSlice.ToggleColumnVisibility(key)
  }

  /** Applies what a handler dispatched to the table state. */
  function Apply(s: TableSlice.TableState, a: Option<TableSlice.Action>): TableSlice.TableState {
    if a.Some? then TableSlice.Reduce(s, a.value) else s
  }

  // ---------------------------------------------------------------- effects

  /** Adding a column by name: a fresh key gets a new visible, sortable
      column at the end captioned by the trimmed name; a taken key, or a
      blank name, changes nothing. */
  lemma AddColumnEffect(s: TableSlice.TableState, name: string)
    ensures var r := Apply(s, HandleAddColumn(name).dispatched);
            && (IsBlank(name) || ColumnKeyOf(name) in ColumnKeys(s.columns) ==> r == s)
            && (!IsBlank(name) && ColumnKeyOf(name) !in ColumnKeys(s.columns) ==>
                  r == s.(columns := s.columns + [Column(ColumnKeyOf(name), Trim(name), true, true)]))
  {
    if !IsBlank(name) {
      var a := TableSlice.AddColumn(ColumnKeyOf(name), Trim(name));
      assert HandleAddColumn(name).dispatched == Some(a);
      TableSlice.ReduceColumnActions(s, a);
    }
  }

  /** Whatever key is clicked, no seed column is ever removed, and every
      column of another key is removed. */
  lemma RemoveKeepsSeeds(s: TableSlice.TableState, key: string)
    ensures var r := Apply(s, HandleRemoveColumn(key));
            && (forall c :: c in s.columns && c.key in SeedKeys ==> c in r.columns)
            && (CanDelete(key) ==> key !in ColumnKeys(r.columns))
  {
    if CanDelete(key) {
      TableSlice.ReduceColumnActions(s, TableSlice.RemoveColumn(key));
    }
  }

  /** Toggling the same column twice through the dialog restores the columns. */
  lemma ToggleTwiceThroughDialog(s: TableSlice.TableState, key: string)
    ensures Apply(Apply(s, Some(HandleToggleColumn(key))), Some(HandleToggleColumn(key))).columns
            == s.columns
  {
    var a := HandleToggleColumn(key);
    TableSlice.ReduceColumnActions(s, a);
    TableSlice.ReduceColumnActions(TableSlice.Reduce(s, a), a);
    TableSlice.ToggleTwice(s.columns, key);
  }
}

=== FILE: csv_loop.dfy ===
/** The accumulation loop of the `complete` callback of `parseCSV`
    (`src/utils/csvUtils.ts`), over what each record turned into: the rows
    of the kept records are collected in order and their errors appended.
    The row type is a parameter: the loop never looks inside a row. */
module CsvLoop {
  import opened Wrappers

  /** A row and the errors found while checking it. */
  datatype Checked<R> = Checked(row: R, errors: seq<string>)

  /** What `parseCSV` resolves with. */
  datatype ParseResult<R> = ParseResult(data: seq<R>, errors: seq<string>)

  /** The loop's accumulation, in order: the row of every kept record is
      collected and its errors appended. */
  function Gather<R>(outs: seq<Option<Checked<R>>>): ParseResult<R>
    decreases |outs|
  {
    if outs == [] then ParseResult([], [])
    else
      var rest := Gather(outs[1..]);
      match outs[0]
      case Some(c) => ParseResult([c.row] + rest.data, c.errors + rest.errors)
      case None => rest
  }

  /** The positions, from `base` on, of the kept records, in increasing
      order. */
  function KeptIndices<R>(outs: seq<Option<Checked<R>>>, base: nat): (idx: seq<nat>)
    ensures forall k :: 0 <= k < |idx| ==> base <= idx[k] < base + |outs| && outs[idx[k] - base].Some?
    decreases |outs|
  {
    if outs == [] then []
    else
      var rest := KeptIndices(outs[1..], base + 1);
      if outs[0].Some? then [base] + rest else rest
  }

  predicate Increasing(idx: seq<nat>) {
    forall k, l :: 0 <= k < l < |idx| ==> idx[k] < idx[l]
  }

  /** The positions are listed in increasing order. */
  lemma {:induction false} KeptIndicesIncreasing<R>(outs: seq<Option<Checked<R>>>, base: nat)
    ensures Increasing(KeptIndices(outs, base))
    decreases |outs|
  {
    if outs != [] {
      var rest := KeptIndices(outs[1..], base + 1);
      KeptIndicesIncreasing(outs[1..], base + 1);
      assert forall k :: 0 <= k < |rest| ==> base < rest[k];
      if outs[0].Some? {
        ConsIncreasing(base, rest);
      }
    }
  }

  lemma ConsIncreasing(x: nat, s: seq<nat>)
    requires Increasing(s) && forall k :: 0 <= k < |s| ==> x < s[k]
    ensures Increasing([x] + s)
  {
    var t := [x] + s;
    forall k, l | 0 <= k < l < |t| ensures t[k] < t[l] {
      assert t[l] == s[l - 1];
      if k > 0 {
        assert t[k] == s[k - 1];
      }
    }
  }

  /** Every kept record's position is listed. */
  lemma {:induction false} KeptIndicesComplete<R>(outs: seq<Option<Checked<R>>>, base: nat, i: nat)
    requires i < |outs| && outs[i].Some?
    ensures base + i in KeptIndices(outs, base)
    decreases |outs|
  {
    if i > 0 {
      assert outs[1..][i - 1] == outs[i];
      KeptIndicesComplete(outs[1..], base + 1, i - 1);
    }
  }

  /** One row is gathered per kept record. */
  lemma {:induction false} GatherLength<R>(outs: seq<Option<Checked<R>>>, base: nat)
    ensures |Gather(outs).data| == |KeptIndices(outs, base)|
    decreases |outs|
  {
    if outs != [] {
      GatherLength(outs[1..], base + 1);
    }
  }

  /** The `k`-th gathered row is the row of the `k`-th kept record. */
  lemma {:induction false} GatherRowAt<R>(outs: seq<Option<Checked<R>>>, base: nat, k: nat)
    requires k < |KeptIndices(outs, base)|
    ensures RowAt(outs, base, k)
    decreases |outs|
  {
    GatherLength(outs, base);
    NonEmptyWhenKept(outs, base);
    if outs[0].Some? && k == 0 {
      GatherFirst(outs, base);
    } else if outs[0].Some? {
      GatherKeptStep(outs, base, k);
      GatherRowAt(outs[1..], base + 1, k - 1);
    } else {
      GatherDroppedStep(outs, base, k);
      GatherRowAt(outs[1..], base + 1, k);
    }
  }

  lemma NonEmptyWhenKept<R>(outs: seq<Option<Checked<R>>>, base: nat)
    requires |KeptIndices(outs, base)| > 0
    ensures outs != []
  {
  }

  lemma GatherFirst<R>(outs: seq<Option<Checked<R>>>, base: nat)
    requires outs != [] && outs[0].Some?
    ensures Gather(outs).data[0] == outs[0].value.row
    ensures KeptIndices(outs, base)[0] == base
  {
  }

  /** The `k`-th row of the gathered list is where the tail's `k`-th row
      lands. */
  ghost predicate RowAt<R>(outs: seq<Option<Checked<R>>>, base: nat, k: nat) {
    && k < |KeptIndices(outs, base)|
    && k < |Gather(outs).data|
    && Gather(outs).data[k] == outs[KeptIndices(outs, base)[k] - base].value.row
  }

  lemma GatherKeptStep<R>(outs: seq<Option<Checked<R>>>, base: nat, k: nat)
    requires outs != [] && outs[0].Some? && 0 < k < |KeptIndices(outs, base)|
    ensures k - 1 < |KeptIndices(outs[1..], base + 1)|
    ensures RowAt(outs[1..], base + 1, k - 1) ==> RowAt(outs, base, k)
  {
    var tail := outs[1..];
    assert KeptIndices(outs, base) == [base] + KeptIndices(tail, base + 1);
    assert Gather(outs).data == [outs[0].value.row] + Gather(tail).data;
    if RowAt(tail, base + 1, k - 1) {
      var i := KeptIndices(outs, base)[k];
      assert i == KeptIndices(tail, base + 1)[k - 1];
      assert tail[i - (base + 1)] == outs[i - base];
    }
  }

  lemma GatherDroppedStep<R>(outs: seq<Option<Checked<R>>>, base: nat, k: nat)
    requires outs != [] && outs[0].None? && k < |KeptIndices(outs, base)|
    ensures k < |KeptIndices(outs[1..], base + 1)|
    ensures RowAt(outs[1..], base + 1, k) ==> RowAt(outs, base, k)
  {
    var tail := outs[1..];
    assert KeptIndices(outs, base) == KeptIndices(tail, base + 1);
    assert Gather(outs) == Gather(tail);
    var i := KeptIndices(outs, base)[k];
    assert tail[i - (base + 1)] == outs[i - base];
  }

  /** The gathered rows are the kept records' rows, in input order. */
  lemma GatherRows<R>(outs: seq<Option<Checked<R>>>, base: nat)
    ensures |Gather(outs).data| == |KeptIndices(outs, base)|
    ensures forall k :: 0 <= k < |KeptIndices(outs, base)| ==>
              Gather(outs).data[k] == outs[KeptIndices(outs, base)[k] - base].value.row
  {
    GatherLength(outs, base);
    forall k | 0 <= k < |KeptIndices(outs, base)|
      ensures Gather(outs).data[k] == outs[KeptIndices(outs, base)[k] - base].value.row
    {
      GatherRowAt(outs, base, k);
    }
  }

  /** A kept record's row is among the gathered rows. */
  lemma KeptRowGathered<R>(outs: seq<Option<Checked<R>>>, i: nat)
    requires i < |outs| && outs[i].Some?
    ensures outs[i].value.row in Gather(outs).data
  {
    var idx := KeptIndices(outs, 0);
    KeptIndicesComplete(outs, 0, i);
    var k :| 0 <= k < |idx| && idx[k] == i;
    GatherRowAt(outs, 0, k);
  }

  /** Every gathered error comes from a kept record. */
  lemma {:induction false} GatherErrorSource<R>(outs: seq<Option<Checked<R>>>, e: string)
    requires e in Gather(outs).errors
    ensures exists i :: 0 <= i < |outs| && outs[i].Some? && e in outs[i].value.errors
    decreases |outs|
  {
    var rest := Gather(outs[1..]);
    if outs[0].Some? && e in outs[0].value.errors {
    } else {
      GatherErrorSource(outs[1..], e);
      var i :| 0 <= i < |outs[1..]| && outs[1..][i].Some? && e in outs[1..][i].value.errors;
      assert outs[i + 1] == outs[1..][i];
    }
  }

  /** Every error a kept record reports is among the gathered errors. */
  lemma {:induction false} GatherErrors<R>(outs: seq<Option<Checked<R>>>, i: nat)
    requires i < |outs| && outs[i].Some?
    ensures forall e :: e in outs[i].value.errors ==> e in Gather(outs).errors
    decreases |outs|
  {
    if i > 0 {
      assert outs[1..][i - 1] == outs[i];
      GatherErrors(outs[1..], i - 1);
    }
  }
}

=== FILE: csv_utils.dfy ===
/** The record cleaning and validation that `parseCSV` applies after the CSV
    tokeniser has produced header-keyed records (`src/utils/csvUtils.ts`),
    the row projection of `exportToCSV`, and `isValidEmail`.

    Tokenising and un-parsing CSV text is left to the library; the model
    starts from its records and error list. `Date.now()` is the parameter
    `clock`, read once per record. */
module CsvUtils {
  import opened Wrappers
  import opened JsText
  import opened Seqs
  import opened Rows
  import opened CsvLoop

  // ---------------------------------------------------------------- email

  /** A character the class `[^\s@]` accepts. */
  predicate EmailChar(c: char) {
    !IsSpace(c) && c != '@'
  }

  predicate AllEmailChars(s: string) {
    forall k :: 0 <= k < |s| ==> EmailChar(s[k])
  }

  /** `s` matches `[^\s@]+`. */
  predicate EmailRun(s: string) {
    |s| > 0 && AllEmailChars(s)
  }

  /** How `^[^\s@]+@[^\s@]+\.[^\s@]+$` matches `s`: the `@` at `i`, the
      escaped dot at `j`, and three non-empty runs around them. */
  predicate EmailSplitAt(s: string, i: int, j: int) {
    && 0 <= i < j < |s|
    && s[i] == '@' && s[j] == '.'
    && EmailRun(s[..i]) && EmailRun(s[i + 1..j]) && EmailRun(s[j + 1..])
  }

  /** The domain after the `@`: no white space or `@`, and a dot that is
      neither its first nor its last character. */
  predicate ValidDomain(d: string) {
    AllEmailChars(d) && |d| >= 3 && '.' in d[1..|d| - 1]
  }

  /** `isValidEmail`: the part before the first `@` is a non-empty run and
      the rest is a valid domain. */
  function IsValidEmail(s: string): (ok: bool)
    ensures ok ==> |s| >= 5
  {
    match IndexOf(s, '@')
    case None => false
    case Some(i) => i > 0 && AllEmailChars(s[..i]) && ValidDomain(s[i + 1..])
  }

  lemma IndexOfFirst(s: string, c: char, i: int)
    requires 0 <= i < |s| && s[i] == c && c !in s[..i]
    ensures IndexOf(s, c) == Some(i)
  {
    assert c in s;
  }

  /** `isValidEmail` accepts exactly the strings the regular expression
      matches. */
  lemma EmailMatchesPattern(s: string)
    ensures IsValidEmail(s) <==> exists i, j :: EmailSplitAt(s, i, j)
  {
    if IsValidEmail(s) {
      ValidEmailSplits(s);
    }
    if exists i, j :: EmailSplitAt(s, i, j) {
      var i, j :| EmailSplitAt(s, i, j);
      SplitEmailValid(s, i, j);
    }
  }

  /** An accepted address splits at its first `@` and a dot of the domain. */
  lemma ValidEmailSplits(s: string)
    requires IsValidEmail(s)
    ensures exists i, j :: EmailSplitAt(s, i, j)
  {
    var i := IndexOf(s, '@').value;
    var d := s[i + 1..];
    var k :| 0 <= k < |d[1..|d| - 1]| && d[1..|d| - 1][k] == '.';
    var j := i + 2 + k;
    assert s[j] == '.';
    assert s[i + 1..j] == d[..k + 1];
    assert s[j + 1..] == d[k + 2..];
    assert EmailSplitAt(s, i, j);
  }

  /** A string the pattern matches is accepted: its `@` is the first one,
      and the dot sits strictly inside the domain. */
  lemma SplitEmailValid(s: string, i: int, j: int)
    requires EmailSplitAt(s, i, j)
    ensures IsValidEmail(s)
  {
    assert '@' !in s[..i];
    IndexOfFirst(s, '@', i);
    DomainValid(s[i + 1..j], s[j + 1..]);
    assert s[i + 1..] == s[i + 1..j] + ['.'] + s[j + 1..];
  }

  /** Two runs around a dot make a valid domain. */
  lemma DomainValid(a: string, b: string)
    requires EmailRun(a) && EmailRun(b)
    ensures ValidDomain(a + ['.'] + b)
  {
    var d := a + ['.'] + b;
    assert d[1..|d| - 1][|a| - 1] == '.';
  }

  /** A plain address is accepted. */
  lemma EmailAccepted()
    ensures IsValidEmail("jo@ab.io")
  {
    var s := "jo@ab.io";
    assert EmailSplitAt(s, 2, 5) by {
      assert s[..2] == "jo" && s[3..5] == "ab" && s[6..] == "io";
    }
    EmailMatchesPattern(s);
  }

  /** A second `@` is rejected. */
  lemma EmailTwoAts()
    ensures !IsValidEmail("a@b@c.d")
  {
    IndexOfFirst("a@b@c.d", '@', 1);
    assert "a@b@c.d"[2..][1] == '@';
  }

  /** A dot right after the `@` is rejected. */
  lemma EmailDotFirst()
    ensures !IsValidEmail("a@.cd")
  {
    IndexOfFirst("a@.cd", '@', 1);
    assert "a@.cd"[2..][1..2] == "c";
  }

  // ---------------------------------------------------------------- cleaning

  /** `value !== null && value !== undefined && value !== ''`. */
  predicate IsPresent(v: Value) {
    v != Null && v != Undef && v != Str("")
  }

  /** Strings are trimmed, other values kept. */
  function TrimValue(v: Value): Value {
    if v.Str? then Str(Trim(v.s)) else v
  }

  /** The cleaned value the last present field with trimmed key `k` gives,
      if any: a later field overwrites an earlier one. */
  function LastPresentValue(fs: seq<Field>, k: string): Option<Value> {
    if fs == [] then None
    else match LastPresentValue(fs[1..], k)
      case Some(v) => Some(v)
      case None =>
        if IsPresent(fs[0].value) && Trim(fs[0].key) == k then Some(TrimValue(fs[0].value)) else None
  }

  /** The copy loop of the cleaning step, from the accumulated row `acc`. */
  function CleanFields(acc: Row, fs: seq<Field>): (r: Row)
    ensures forall k :: Get(r, k) == if LastPresentValue(fs, k).Some? then LastPresentValue(fs, k).value else Get(acc, k)
    ensures forall k :: k in KeysOf(r) <==> k in KeysOf(acc) || LastPresentValue(fs, k).Some?
    decreases |fs|
  {
    if fs == [] then acc
    else
      var acc' := if IsPresent(fs[0].value) then Put(acc, Trim(fs[0].key), TrimValue(fs[0].value)) else acc;
      CleanFields(acc', fs[1..])
  }

  /** Some field of the record is present (`hasValidData`). */
  predicate AnyPresent(fs: seq<Field>) {
    fs != [] && (IsPresent(fs[0].value) || AnyPresent(fs[1..]))
  }

  lemma {:induction false} AnyPresentIff(fs: seq<Field>)
    ensures AnyPresent(fs) <==> exists k :: LastPresentValue(fs, k).Some?
  {
    if fs != [] {
      AnyPresentIff(fs[1..]);
      if IsPresent(fs[0].value) {
        var k := Trim(fs[0].key);
        assert LastPresentValue(fs, k).Some?;
      } else if AnyPresent(fs[1..]) {
        var k :| LastPresentValue(fs[1..], k).Some?;
        assert LastPresentValue(fs, k).Some?;
      }
      if exists k :: LastPresentValue(fs, k).Some? {
        var k :| LastPresentValue(fs, k).Some?;
        if LastPresentValue(fs[1..], k).None? {
          assert IsPresent(fs[0].value);
        } else {
          assert exists k' :: LastPresentValue(fs[1..], k').Some?;
        }
        assert AnyPresent(fs);
      }
    }
  }

  /** A record's cleaned copy: the value of a key is the one its last
      present field gives, and nothing else is copied. */
  function CleanRecord(rec: Row): (r: Row)
    ensures forall k :: Get(r, k) == if LastPresentValue(rec, k).Some? then LastPresentValue(rec, k).value else Undef
    ensures forall k :: k in KeysOf(r) <==> LastPresentValue(rec, k).Some?
  {
    CleanFields([], rec)
  }

  /** A record is kept exactly when its cleaned copy is not empty. */
  lemma CleanRecordEmpty(rec: Row)
    ensures AnyPresent(rec) <==> CleanRecord(rec) != []
  {
    var r := CleanRecord(rec);
    AnyPresentIff(rec);
    if AnyPresent(rec) {
      var k :| LastPresentValue(rec, k).Some?;
      assert k in KeysOf(r);
    }
    if r != [] {
      assert LastPresentValue(rec, r[0].key).Some?;
    }
  }

  /** The error texts, with the 1-based record position. */
  function AgeError(index: nat, age: Value): string {
    "Row " + IntToString(index + 1) + ": Invalid age value \"" + ToStr(age) + "\""
  }

  function EmailError(index: nat, email: Value): string {
    "Row " + IntToString(index + 1) + ": Invalid email format \"" + ToStr(email) + "\""
  }

  /** An age message is never an email message. */
  lemma ErrorsDiffer(index: nat, age: Value, email: Value)
    ensures AgeError(index, age) != EmailError(index, email)
  {
    var p := "Row " + IntToString(index + 1) + ": Invalid ";
    assert AgeError(index, age)[|p|] == 'a';
    assert EmailError(index, email)[|p|] == 'e';
  }

  /** `if (!cleanRow.id) cleanRow.id = Date.now() + index`. */
  function WithDefaultId(clean: Row, stamp: nat): (r: Row)
    ensures Get(r, "id") == if Truthy(Get(clean, "id")) then Get(clean, "id") else Num(stamp)
    ensures forall k :: k != "id" ==> Get(r, k) == Get(clean, k)
  {
    if !Truthy(Get(clean, "id")) then Put(clean, "id", Num(stamp)) else clean
  }

  /** An age that passed the check, or one the check skips. */
  predicate AgeAccepted(v: Value) {
    v == Undef || v == Str("") || (v.Num? && 0 <= v.n <= 120)
  }

  /** `parseInt(age)` succeeds with a value in 0..120. */
  predicate AgeParses(v: Value) {
    ParseInt(ToStr(v)).Some? && 0 <= ParseInt(ToStr(v)).value <= 120
  }

  /** The age check: a present age that `parseInt` reads as 0..120 is
      replaced by that number; any other present age is reported and left
      as it was. */
  function CheckAge(row: Row, index: nat): (r: Checked<Row>)
    ensures forall k :: k != "age" ==> Get(r.row, k) == Get(row, k)
    ensures r.errors == [] || r.errors == [AgeError(index, Get(row, "age"))]
    ensures r.errors != [] <==> Get(row, "age") != Undef && Get(row, "age") != Str("") && !AgeParses(Get(row, "age"))
    ensures r.errors == [] ==> AgeAccepted(Get(r.row, "age"))
    ensures r.errors != [] ==> r.row == row
  {
    var age := Get(row, "age");
    if age != Undef && age != Str("") then
      match ParseInt(ToStr(age))
      case Some(n) =>
        if n < 0 || n > 120 then Checked(row, [AgeError(index, age)]) else Checked(Put(row, "age", Num(n)), [])
      case None => Checked(row, [AgeError(index, age)])
    else Checked(row, [])
  }

  /** The email check reports a truthy email that `isValidEmail` rejects. */
  function CheckEmail(row: Row, index: nat): (errs: seq<string>)
    ensures errs == [] || errs == [EmailError(index, Get(row, "email"))]
    ensures errs != [] <==> Truthy(Get(row, "email")) && !IsValidEmail(ToStr(Get(row, "email")))
  {
    var email := Get(row, "email");
    if Truthy(email) && !IsValidEmail(ToStr(email)) then [EmailError(index, email)] else []
  }

  /** Both checks on a row: the age check, then the email check on its
      result. */
  function CheckRow(row: Row, index: nat): (r: Checked<Row>)
    ensures forall k :: k != "age" ==> Get(r.row, k) == Get(row, k)
    ensures AgeError(index, Get(row, "age")) in r.errors <==>
              Get(row, "age") != Undef && Get(row, "age") != Str("") && !AgeParses(Get(row, "age"))
    ensures AgeAccepted(Get(r.row, "age")) || AgeError(index, Get(row, "age")) in r.errors
    ensures EmailError(index, Get(row, "email")) in r.errors <==>
              Truthy(Get(row, "email")) && !IsValidEmail(ToStr(Get(row, "email")))
    ensures |r.errors| <= 2
  {
    var aged := CheckAge(row, index);
    var emailErrs := CheckEmail(aged.row, index);
    ErrorsDiffer(index, Get(row, "age"), Get(row, "email"));
    assert Get(aged.row, "email") == Get(row, "email");
    Checked(aged.row, aged.errors + emailErrs)
  }

  /** The checks report nothing but their two messages. */
  lemma CheckRowOnlyErrors(row: Row, index: nat)
    ensures forall e :: e in CheckRow(row, index).errors ==>
              e == AgeError(index, Get(row, "age")) || e == EmailError(index, Get(row, "email"))
  {
    var aged := CheckAge(row, index);
    assert Get(aged.row, "email") == Get(row, "email");
    var emailErrs := CheckEmail(aged.row, index);
    assert CheckRow(row, index).errors == aged.errors + emailErrs;
  }

  /** The per-record body of the `complete` callback for the record at
      `index`, with `now` the clock reading: nothing for a record without a
      present field, otherwise the cleaned row and the errors it adds. */
  function ProcessRecord(rec: Row, index: nat, now: nat): (r: Option<Checked<Row>>)
    ensures r.None? <==> !AnyPresent(rec)
  {
    CleanRecordEmpty(rec);
    var clean := CleanRecord(rec);
    if clean == [] then None else Some(CheckRow(WithDefaultId(clean, now + index), index))
  }

  /** What a kept record turns into: a truthy id or the clock stamp, the
      cleaned values, an age that passed or was reported, and an email
      message exactly when the email is truthy and malformed; the row is
      kept either way. */
  lemma ProcessRecordSpec(rec: Row, index: nat, now: nat)
    requires AnyPresent(rec)
    ensures var r := ProcessRecord(rec, index, now).value;
            var clean := CleanRecord(rec);
            && Get(r.row, "id") == (if Truthy(Get(clean, "id")) then Get(clean, "id") else Num(now + index))
            && (forall k :: k != "id" && k != "age" ==> Get(r.row, k) == Get(clean, k))
            && (AgeError(index, Get(clean, "age")) in r.errors <==>
                  Get(clean, "age") != Undef && Get(clean, "age") != Str("") && !AgeParses(Get(clean, "age")))
            && (AgeAccepted(Get(r.row, "age")) || AgeError(index, Get(clean, "age")) in r.errors)
            && (EmailError(index, Get(clean, "email")) in r.errors <==>
                  Truthy(Get(clean, "email")) && !IsValidEmail(ToStr(Get(clean, "email"))))
            && (forall e :: e in r.errors ==>
                  e == AgeError(index, Get(clean, "age")) || e == EmailError(index, Get(clean, "email")))
            && |r.errors| <= 2
  {
    var clean := CleanRecord(rec);
    CleanRecordEmpty(rec);
    var withId := WithDefaultId(clean, now + index);
    assert Get(withId, "age") == Get(clean, "age");
    assert Get(withId, "email") == Get(clean, "email");
    assert ProcessRecord(rec, index, now).value == CheckRow(withId, index);
    CheckRowOnlyErrors(withId, index);
  }

  /** A tokeniser error: the row it refers to (possibly `undefined`) and its
      message. */
  datatype TokenError = TokenError(row: Value, message: string)

  function TokenMessage(e: TokenError): string {
    "Row " + ToStr(e.row) + ": " + e.message
  }

  function TokenMessages(errs: seq<TokenError>): (ms: seq<string>)
    ensures |ms| == |errs|
    ensures forall i :: 0 <= i < |errs| ==> ms[i] == TokenMessage(errs[i])
  {
    seq(|errs|, i requires 0 <= i < |errs| => TokenMessage(errs[i]))
  }

  /** What the loop makes of each record: the record at position `i` is
      processed with the clock read at `i`. */
  function Outcomes(records: seq<Row>, clock: nat -> nat): (outs: seq<Option<Checked<Row>>>)
    ensures |outs| == |records|
    ensures forall i :: 0 <= i < |records| ==> outs[i] == ProcessRecord(records[i], i, clock(i))
  {
    seq(|records|, i requires 0 <= i < |records| => ProcessRecord(records[i], i, clock(i)))
  }

  /** The `complete` callback: every tokeniser error as `Row <row>: <message>`,
      then the kept records, cleaned and checked, in input order, and their
      errors. */
  function ParseComplete(tokenErrors: seq<TokenError>, records: seq<Row>, clock: nat -> nat): (r: ParseResult<Row>)
    ensures TokenMessages(tokenErrors) <= r.errors
    ensures r.errors == TokenMessages(tokenErrors) + Gather(Outcomes(records, clock)).errors
    ensures forall e :: e in Gather(Outcomes(records, clock)).errors ==> e in r.errors
    ensures r.data == Gather(Outcomes(records, clock)).data
  {
    var processed := Gather(Outcomes(records, clock));
    ParseResult(processed.data, TokenMessages(tokenErrors) + processed.errors)
  }

  /** The `error` callback: no rows and the one message. */
  function ParseFailed(message: string): (r: ParseResult<Row>)
    ensures r.data == [] && r.errors == [message]
  {
    ParseResult([], [message])
  }

  /** The output rows are exactly the kept records' rows: one per record
      with a present field, in input order. */
  lemma KeptRecordOutput(tokenErrors: seq<TokenError>, records: seq<Row>, clock: nat -> nat)
    ensures var data := ParseComplete(tokenErrors, records, clock).data;
            var idx := KeptIndices(Outcomes(records, clock), 0);
            && |data| == |idx|
            && Increasing(idx)
            && forall k :: 0 <= k < |idx| ==>
                 idx[k] < |records| && AnyPresent(records[idx[k]])
                 && data[k] == ProcessRecord(records[idx[k]], idx[k], clock(idx[k])).value.row
  {
    var outs := Outcomes(records, clock);
    var idx := KeptIndices(outs, 0);
    GatherRows(outs, 0);
    KeptIndicesIncreasing(outs, 0);
    forall k | 0 <= k < |idx|
      ensures idx[k] < |records| && AnyPresent(records[idx[k]])
      ensures Gather(outs).data[k] == ProcessRecord(records[idx[k]], idx[k], clock(idx[k])).value.row
    {
      KeptOutcome(records, clock, idx[k]);
    }
  }

  /** A kept outcome comes from a record with a present field. */
  lemma KeptOutcome(records: seq<Row>, clock: nat -> nat, i: nat)
    requires i < |Outcomes(records, clock)| && Outcomes(records, clock)[i].Some?
    ensures i < |records| && AnyPresent(records[i])
    ensures Outcomes(records, clock)[i] == ProcessRecord(records[i], i, clock(i))
  {
  }

  /** A kept record's row is among the output rows. */
  lemma KeptRecordAppears(tokenErrors: seq<TokenError>, records: seq<Row>, clock: nat -> nat, i: nat)
    requires i < |records| && AnyPresent(records[i])
    ensures ProcessRecord(records[i], i, clock(i)).value.row in ParseComplete(tokenErrors, records, clock).data
  {
    var outs := Outcomes(records, clock);
    KeptRowGathered(outs, i);
    assert outs[i] == ProcessRecord(records[i], i, clock(i));
  }

  /** A record with a malformed email is reported; like every kept record
      it still yields its row (`KeptRecordAppears`). */
  lemma InvalidEmailReported(tokenErrors: seq<TokenError>, records: seq<Row>, clock: nat -> nat, i: nat)
    requires i < |records| && AnyPresent(records[i])
    requires var email := Get(CleanRecord(records[i]), "email");
             Truthy(email) && !IsValidEmail(ToStr(email))
    ensures EmailError(i, Get(CleanRecord(records[i]), "email")) in ParseComplete(tokenErrors, records, clock).errors
  {
    ProcessRecordSpec(records[i], i, clock(i));
    GatherErrors(Outcomes(records, clock), i);
  }

  /** Nothing else is reported: every message is a tokeniser message or the
      age or e-mail message of a kept record. */
  lemma ParseErrorsAccounted(tokenErrors: seq<TokenError>, records: seq<Row>, clock: nat -> nat, e: string)
    requires e in ParseComplete(tokenErrors, records, clock).errors
    ensures || e in TokenMessages(tokenErrors)
            || exists i :: && 0 <= i < |records| && AnyPresent(records[i])
                           && (|| e == AgeError(i, Get(CleanRecord(records[i]), "age"))
                               || e == EmailError(i, Get(CleanRecord(records[i]), "email")))
  {
    var outs := Outcomes(records, clock);
    if e !in TokenMessages(tokenErrors) {
      GatherErrorSource(outs, e);
      var i :| 0 <= i < |outs| && outs[i].Some? && e in outs[i].value.errors;
      ProcessRecordSpec(records[i], i, clock(i));
    }
  }

  /** A kept row's age either passed the check or the check reported it. */
  lemma AgeCheckedOrReported(tokenErrors: seq<TokenError>, records: seq<Row>, clock: nat -> nat, i: nat)
    requires i < |records| && AnyPresent(records[i])
    ensures var row := ProcessRecord(records[i], i, clock(i)).value.row;
            AgeAccepted(Get(row, "age"))
            || AgeError(i, Get(CleanRecord(records[i]), "age")) in ParseComplete(tokenErrors, records, clock).errors
  {
    ProcessRecordSpec(records[i], i, clock(i));
    GatherErrors(Outcomes(records, clock), i);
  }

  // ---------------------------------------------------------------- export

  /** One row of `exportToCSV`: exactly the requested columns, each holding
      `row[col] || ''`. */
  function ProjectRow(row: Row, cols: seq<string>): (r: Row)
    ensures forall c :: c in cols ==> Get(r, c) == OrEmpty(Get(row, c))
    ensures forall k :: k in KeysOf(r) <==> k in cols
    decreases |cols|
  {
    if cols == [] then []
    else
      var rest := ProjectRow(row, cols[..|cols| - 1]);
      var c := cols[|cols| - 1];
      assert forall x :: x in cols <==> x in cols[..|cols| - 1] || x == c;
      Put(rest, c, OrEmpty(Get(row, c)))
  }

  /** With distinct column names the projected row has them as its keys, in
      order. */
  lemma {:induction false} ProjectRowKeys(row: Row, cols: seq<string>)
    requires forall i, j :: 0 <= i < j < |cols| ==> cols[i] != cols[j]
    ensures KeysOf(ProjectRow(row, cols)) == cols
    decreases |cols|
  {
    if cols != [] {
      var init := cols[..|cols| - 1];
      assert forall i, j :: 0 <= i < j < |init| ==> init[i] != init[j] by {
        assert forall i :: 0 <= i < |init| ==> init[i] == cols[i];
      }
      ProjectRowKeys(row, init);
      ProjectRowLast(row, cols);
    }
  }

  /** The step of `ProjectRowKeys`: the last column is new, so it is
      appended after the keys of the shorter projection. */
  lemma ProjectRowLast(row: Row, cols: seq<string>)
    requires cols != []
    requires forall i, j :: 0 <= i < j < |cols| ==> cols[i] != cols[j]
    requires KeysOf(ProjectRow(row, cols[..|cols| - 1])) == cols[..|cols| - 1]
    ensures KeysOf(ProjectRow(row, cols)) == cols
  {
    var init := cols[..|cols| - 1];
    var c := cols[|cols| - 1];
    LastNotInInit(cols);
    ProjectRowUnfold(row, cols);
    assert cols == init + [c];
  }

  lemma ProjectRowUnfold(row: Row, cols: seq<string>)
    requires cols != []
    ensures ProjectRow(row, cols)
            == Put(ProjectRow(row, cols[..|cols| - 1]), cols[|cols| - 1], OrEmpty(Get(row, cols[|cols| - 1])))
  {
  }

  function ExportProjection(data: seq<Row>, cols: seq<string>): (r: seq<Row>)
    ensures |r| == |data|
    ensures forall i :: 0 <= i < |data| ==> r[i] == ProjectRow(data[i], cols)
  {
    seq(|data|, i requires 0 <= i < |data| => ProjectRow(data[i], cols))
  }

  /** A zero or a `null` exports as an empty cell. */
  lemma ProjectionBlanksFalsy(row: Row, c: string)
    requires Get(row, c) == Num(0) || Get(row, c) == Null
    ensures Get(ProjectRow(row, [c]), c) == Str("")
  {
  }
}

=== FILE: data_table.dfy ===
/** The table view (`src/components/table/DataTable.tsx`): the search, sort
    and pagination pipeline that decides which rows are shown, and the event
    handlers, each modelled by the actions it dispatches to the table store.

    `String.prototype.localeCompare` depends on the runtime's locale data, so
    the sort takes it as a parameter `lc`. */
module DataTable {
  import opened Wrappers
  import opened JsText
  import opened Seqs
  import opened Rows
  import opened StableSort
  import opened TableSlice

  // ---------------------------------------------------------------- search

  /** `String(value).toLowerCase().includes(t)`, for an already lower-cased `t`. */
  predicate ValueMatches(v: Value, t: string) {
    Contains(ToLower(ToStr(v)), t)
  }

  /** `Object.values(row).some(...)`, scanning the properties in order. */
  predicate AnyValueMatches(fs: seq<Field>, t: string) {
    fs != [] && (ValueMatches(fs[0].value, t) || AnyValueMatches(fs[1..], t))
  }

  lemma {:induction false} AnyValueMatchesIff(fs: seq<Field>, t: string)
    ensures AnyValueMatches(fs, t) <==> exists i :: 0 <= i < |fs| && ValueMatches(fs[i].value, t)
  {
    if fs != [] {
      AnyValueMatchesIff(fs[1..], t);
      if exists i :: 0 <= i < |fs| && ValueMatches(fs[i].value, t) {
        var i :| 0 <= i < |fs| && ValueMatches(fs[i].value, t);
        if i > 0 {
          assert fs[1..][i - 1] == fs[i];
        }
      }
    }
  }

  /** The search predicate: some property value contains the term, ignoring
      case. */
  predicate RowMatches(row: Row, term: string) {
    AnyValueMatches(row, ToLower(term))
  }

  function MatchesTerm(term: string): Row -> bool {
    (row: Row) => RowMatches(row, term)
  }

  /** The search step: every row when the term is empty, otherwise the rows
      with a matching value, in their original order. */
  function SearchRows(data: seq<Row>, term: string): (r: seq<Row>)
    ensures forall row :: row in r <==> row in data && (term == "" || RowMatches(row, term))
    ensures IsSubsequence(r, data)
    ensures forall row :: multiset(r)[row] ==
              if term == "" || RowMatches(row, term) then multiset(data)[row] else 0
    ensures term == "" ==> r == data
  {
    if term != "" then
      FilterIsSubsequence(data, MatchesTerm(term));
      forall row ensures multiset(Filter(data, MatchesTerm(term)))[row] ==
                         if RowMatches(row, term) then multiset(data)[row] else 0 {
        FilterCount(data, MatchesTerm(term), row);
      }
      forall row ensures row in Filter(data, MatchesTerm(term)) <==> row in data && RowMatches(row, term) {
        FilterMembership(data, MatchesTerm(term), row);
      }
      Filter(data, MatchesTerm(term))
    else
      SubsequenceRefl(data);
      data
  }

  lemma {:induction false} SubsequenceRefl<T>(s: seq<T>)
    ensures IsSubsequence(s, s)
  {
    if s != [] {
      SubsequenceRefl(s[1..]);
    }
  }

  /** A row one of whose values reads exactly as the term is always found. */
  lemma SearchFindsExactValue(row: Row, term: string, i: int)
    requires 0 <= i < |row| && ToStr(row[i].value) == term
    ensures RowMatches(row, term)
  {
    AnyValueMatchesIff(row, ToLower(term));
    assert StartsWith(ToLower(term), ToLower(term));
    assert ValueMatches(row[i].value, ToLower(term));
  }

  /** The search ignores the case of the term. */
  lemma SearchIgnoresTermCase(data: seq<Row>, term: string)
    ensures SearchRows(data, ToLower(term)) == SearchRows(data, term)
  {
    ToLowerIdempotent(term);
    if term != "" {
      FilterCongruent(data, MatchesTerm(ToLower(term)), MatchesTerm(term));
    }
  }

  // ---------------------------------------------------------------- sort

  /** The sort comparator on two cell values: 0 when strictly equal, the
      difference for two numbers, otherwise `localeCompare` of their strings. */
  function CompareValues(a: Value, b: Value, lc: (string, string) -> int): (c: int)
    ensures a == b ==> c == 0
    ensures a != b && a.Num? && b.Num? ==> (c < 0 <==> a.n < b.n) && (c > 0 <==> a.n > b.n)
    ensures a != b && !(a.Num? && b.Num?) ==> c == lc(ToStr(a), ToStr(b))
  {
    if a == b then 0
    else if a.Num? && b.Num? then a.n - b.n
    else lc(ToStr(a), ToStr(b))
  }

  /** The comparison `Array.prototype.sort` sees: negated for `desc`. */
  function Directed(c: int, order: SortOrder): int {
    if order == Desc then -c else c
  }

  /** `a` must come before `b`: the directed comparator is negative. */
  function RowLt(key: string, order: SortOrder, lc: (string, string) -> int): (Row, Row) -> bool {
    (a: Row, b: Row) => Directed(CompareValues(Get(a, key), Get(b, key), lc), order) < 0
  }

  function SortRows(rows: seq<Row>, key: string, order: SortOrder, lc: (string, string) -> int): (r: seq<Row>)
    ensures multiset(r) == multiset(rows)
  {
    Sort(rows, RowLt(key, order, lc))
  }

  /** The memoised pipeline: search, then sort when a sort key is set (an
      empty key is falsy and leaves the order alone). */
  function FilteredAndSorted(data: seq<Row>, term: string, sortBy: Option<string>, order: SortOrder,
                             lc: (string, string) -> int): (r: seq<Row>)
    ensures multiset(r) == multiset(SearchRows(data, term))
    ensures forall row :: row in r <==> row in data && (term == "" || RowMatches(row, term))
    ensures term == "" && (sortBy.None? || sortBy.value == "") ==> r == data
    ensures !(sortBy.Some? && sortBy.value != "") ==> r == SearchRows(data, term)
    ensures sortBy.Some? && sortBy.value != "" ==> r == SortRows(SearchRows(data, term), sortBy.value, order, lc)
  {
    var filtered := SearchRows(data, term);
    var r := if sortBy.Some? && sortBy.value != "" then SortRows(filtered, sortBy.value, order, lc) else filtered;
    assert forall row :: row in r <==> row in multiset(r);
    r
  }

  predicate NumericAt(rows: seq<Row>, key: string) {
    forall row :: row in rows ==> Get(row, key).Num?
  }

  lemma NumericLt(a: Row, b: Row, key: string, order: SortOrder, lc: (string, string) -> int)
    requires Get(a, key).Num? && Get(b, key).Num?
    ensures RowLt(key, order, lc)(a, b) <==>
              if order == Asc then Get(a, key).n < Get(b, key).n else Get(a, key).n > Get(b, key).n
  {
  }

  /** On a column holding only numbers the comparator is a strict weak order
      whatever `localeCompare` does. */
  lemma NumericStrictWeak(rows: seq<Row>, key: string, order: SortOrder, lc: (string, string) -> int)
    requires NumericAt(rows, key)
    ensures StrictWeakOn(rows, RowLt(key, order, lc))
  {
    var lt := RowLt(key, order, lc);
    forall a, b | a in rows && b in rows ensures Asymmetric(lt, a, b) {
      NumericLt(a, b, key, order, lc);
      NumericLt(b, a, key, order, lc);
    }
    forall a, b, c | a in rows && b in rows && c in rows ensures NotBeforeChains(lt, a, b, c) {
      NumericLt(a, b, key, order, lc);
      NumericLt(b, c, key, order, lc);
      NumericLt(a, c, key, order, lc);
    }
  }

  /** Both values are numbers and the first is at most the second. */
  predicate NumLe(a: Value, b: Value) {
    a.Num? && b.Num? && a.n <= b.n
  }

  /** Sorting a numeric column ascending puts the numbers in non-decreasing
      order, descending in non-increasing order. */
  lemma SortNumericOrdered(rows: seq<Row>, key: string, order: SortOrder, lc: (string, string) -> int)
    requires NumericAt(rows, key)
    ensures var r := SortRows(rows, key, order, lc);
            forall i, j :: 0 <= i < j < |r| ==>
              if order == Asc then NumLe(Get(r[i], key), Get(r[j], key))
              else NumLe(Get(r[j], key), Get(r[i], key))
  {
    var lt := RowLt(key, order, lc);
    var r := SortRows(rows, key, order, lc);
    NumericStrictWeak(rows, key, order, lc);
    SortCorrect(rows, lt);
    forall i, j | 0 <= i < j < |r|
      ensures if order == Asc then NumLe(Get(r[i], key), Get(r[j], key))
              else NumLe(Get(r[j], key), Get(r[i], key))
    {
      assert r[i] in multiset(r) && r[j] in multiset(r);
      assert !lt(r[j], r[i]);
      NumericLt(r[j], r[i], key, order, lc);
    }
  }

  predicate TextAt(rows: seq<Row>, key: string) {
    forall row :: row in rows ==> Get(row, key).Str?
  }

  /** `localeCompare` never ties two different strings, and swapping its
      arguments swaps the sign of the result. */
  predicate LcAntisymmetric(lc: (string, string) -> int, x: string, y: string) {
    x != y ==> lc(x, y) != 0 && (lc(x, y) < 0 <==> lc(y, x) > 0) && (lc(x, y) > 0 <==> lc(y, x) < 0)
  }

  predicate LcTransitive(lc: (string, string) -> int, x: string, y: string, z: string) {
    lc(x, y) < 0 && lc(y, z) < 0 ==> lc(x, z) < 0
  }

  /** `localeCompare` is a strict total order on the strings of the column,
      as a collator's comparison is. */
  ghost predicate LocaleTotalOn(rows: seq<Row>, key: string, lc: (string, string) -> int) {
    && (forall a, b {:trigger LcAntisymmetric(lc, Get(a, key).s, Get(b, key).s)} ::
          a in rows && b in rows && Get(a, key).Str? && Get(b, key).Str? ==>
            LcAntisymmetric(lc, Get(a, key).s, Get(b, key).s))
    && (forall a, b, c {:trigger LcTransitive(lc, Get(a, key).s, Get(b, key).s, Get(c, key).s)} ::
          a in rows && b in rows && c in rows && Get(a, key).Str? && Get(b, key).Str? && Get(c, key).Str? ==>
            LcTransitive(lc, Get(a, key).s, Get(b, key).s, Get(c, key).s))
  }

  lemma TextLt(a: Row, b: Row, key: string, order: SortOrder, lc: (string, string) -> int)
    requires Get(a, key).Str? && Get(b, key).Str?
    ensures LcAntisymmetric(lc, Get(a, key).s, Get(b, key).s) ==>
              (RowLt(key, order, lc)(a, b) <==>
                 Get(a, key).s != Get(b, key).s
                 && if order == Asc then lc(Get(a, key).s, Get(b, key).s) < 0
                    else lc(Get(b, key).s, Get(a, key).s) < 0)
  {
    var x, y := Get(a, key).s, Get(b, key).s;
    assert ToStr(Get(a, key)) == x && ToStr(Get(b, key)) == y;
    assert Get(a, key) == Get(b, key) <==> x == y;
    assert RowLt(key, order, lc)(a, b) <==> Directed(CompareValues(Get(a, key), Get(b, key), lc), order) < 0;
  }

  /** On a column holding only strings the comparator is a strict weak order
      whenever `localeCompare` is a strict total order on those strings. */
  lemma TextStrictWeak(rows: seq<Row>, key: string, order: SortOrder, lc: (string, string) -> int)
    requires TextAt(rows, key) && LocaleTotalOn(rows, key, lc)
    ensures StrictWeakOn(rows, RowLt(key, order, lc))
  {
    var lt := RowLt(key, order, lc);
    forall a, b | a in rows && b in rows ensures Asymmetric(lt, a, b) {
      assert LcAntisymmetric(lc, Get(a, key).s, Get(b, key).s);
      assert LcAntisymmetric(lc, Get(b, key).s, Get(a, key).s);
      TextLt(a, b, key, order, lc);
      TextLt(b, a, key, order, lc);
    }
    forall a, b, c | a in rows && b in rows && c in rows ensures NotBeforeChains(lt, a, b, c) {
      var x, y, z := Get(a, key).s, Get(b, key).s, Get(c, key).s;
      assert LcAntisymmetric(lc, x, y) && LcAntisymmetric(lc, y, z) && LcAntisymmetric(lc, x, z);
      assert LcAntisymmetric(lc, y, x) && LcAntisymmetric(lc, z, y) && LcAntisymmetric(lc, z, x);
      assert LcTransitive(lc, z, y, x) && LcTransitive(lc, x, y, z);
      TextLt(a, b, key, order, lc);
      TextLt(b, c, key, order, lc);
      TextLt(a, c, key, order, lc);
    }
  }

  /** Sorting a text column puts its strings in `localeCompare` order,
      ascending or descending. */
  lemma SortTextOrdered(rows: seq<Row>, key: string, order: SortOrder, lc: (string, string) -> int)
    requires TextAt(rows, key) && LocaleTotalOn(rows, key, lc)
    ensures var r := SortRows(rows, key, order, lc);
            forall i, j :: 0 <= i < j < |r| ==>
              Get(r[i], key).Str? && Get(r[j], key).Str? &&
              (Get(r[i], key).s == Get(r[j], key).s
               || if order == Asc then lc(Get(r[i], key).s, Get(r[j], key).s) < 0
                  else lc(Get(r[j], key).s, Get(r[i], key).s) < 0)
  {
    var lt := RowLt(key, order, lc);
    var r := SortRows(rows, key, order, lc);
    TextStrictWeak(rows, key, order, lc);
    SortCorrect(rows, lt);
    forall i, j | 0 <= i < j < |r|
      ensures Get(r[i], key).Str? && Get(r[j], key).Str? &&
              (Get(r[i], key).s == Get(r[j], key).s
               || if order == Asc then lc(Get(r[i], key).s, Get(r[j], key).s) < 0
                  else lc(Get(r[j], key).s, Get(r[i], key).s) < 0)
    {
      assert r[i] in multiset(r) && r[j] in multiset(r);
      assert r[i] in rows && r[j] in rows;
      assert !lt(r[j], r[i]);
      assert LcAntisymmetric(lc, Get(r[j], key).s, Get(r[i], key).s);
      assert LcAntisymmetric(lc, Get(r[i], key).s, Get(r[j], key).s);
      TextLt(r[j], r[i], key, order, lc);
    }
  }

  function SameValueAt(key: string, v: Value): Row -> bool {
    row => Get(row, key) == v
  }

  /** Rows whose numeric sort values are equal keep their relative order. */
  lemma SortNumericStable(rows: seq<Row>, key: string, order: SortOrder, lc: (string, string) -> int)
    requires NumericAt(rows, key)
    ensures var r := SortRows(rows, key, order, lc);
            forall e :: e in rows ==>
              Filter(r, SameValueAt(key, Get(e, key))) == Filter(rows, SameValueAt(key, Get(e, key)))
  {
    forall e | e in rows
      ensures Filter(SortRows(rows, key, order, lc), SameValueAt(key, Get(e, key)))
              == Filter(rows, SameValueAt(key, Get(e, key)))
    {
      SortNumericStableAt(rows, key, order, lc, e);
    }
  }

  lemma SortNumericStableAt(rows: seq<Row>, key: string, order: SortOrder, lc: (string, string) -> int, e: Row)
    requires NumericAt(rows, key) && e in rows
    ensures Filter(SortRows(rows, key, order, lc), SameValueAt(key, Get(e, key)))
            == Filter(rows, SameValueAt(key, Get(e, key)))
  {
    var lt := RowLt(key, order, lc);
    var r := Sort(rows, lt);
    var same := SameValueAt(key, Get(e, key));
    var tied := TiedWith(e, lt);
    NumericStrictWeak(rows, key, order, lc);
    SortStableIn(rows, lt, rows, e);
    forall i | 0 <= i < |rows| ensures tied(rows[i]) == same(rows[i]) {
      TiedIsSameValue(rows[i], e, key, order, lc);
    }
    forall i | 0 <= i < |r| ensures tied(r[i]) == same(r[i]) {
      assert r[i] in multiset(rows);
      TiedIsSameValue(r[i], e, key, order, lc);
    }
    FilterCongruent(rows, tied, same);
    FilterCongruent(r, tied, same);
  }

  /** Whenever the comparator is a strict weak order on the rows (always so
      for a numeric column, and for text when `localeCompare` is consistent),
      no sorted row is placed after one the comparator puts behind it, and
      rows holding the same value under the key keep their input order. */
  lemma SortRowsCorrect(rows: seq<Row>, key: string, order: SortOrder, lc: (string, string) -> int, e: Row)
    requires StrictWeakOn(rows, RowLt(key, order, lc))
    requires e in rows
    ensures Sorted(SortRows(rows, key, order, lc), RowLt(key, order, lc))
    ensures Filter(SortRows(rows, key, order, lc), SameValueAt(key, Get(e, key)))
            == Filter(rows, SameValueAt(key, Get(e, key)))
  {
    SortSortedIn(rows, RowLt(key, order, lc), rows);
    SortEqualValuesStable(rows, key, order, lc, e);
  }

  lemma SortEqualValuesStable(rows: seq<Row>, key: string, order: SortOrder, lc: (string, string) -> int, e: Row)
    requires StrictWeakOn(rows, RowLt(key, order, lc))
    requires e in rows
    ensures Filter(SortRows(rows, key, order, lc), SameValueAt(key, Get(e, key)))
            == Filter(rows, SameValueAt(key, Get(e, key)))
  {
    var lt := RowLt(key, order, lc);
    var r := Sort(rows, lt);
    var same := SameValueAt(key, Get(e, key));
    var tied := TiedWith(e, lt);
    SortStableIn(rows, lt, rows, e);
    SameValueIsTied(key, order, lc, e);
    FilterFilter(r, tied, same);
    FilterFilter(rows, tied, same);
  }

  /** Rows with the same value as `e` compare as 0 against it. */
  lemma SameValueIsTied(key: string, order: SortOrder, lc: (string, string) -> int, e: Row)
    ensures forall x :: SameValueAt(key, Get(e, key))(x) ==> TiedWith(e, RowLt(key, order, lc))(x)
  {
  }

  /** On numbers, being tied under the comparator is having the same value. */
  lemma TiedIsSameValue(a: Row, e: Row, key: string, order: SortOrder, lc: (string, string) -> int)
    requires Get(a, key).Num? && Get(e, key).Num?
    ensures TiedWith(e, RowLt(key, order, lc))(a) == SameValueAt(key, Get(e, key))(a)
  {
    NumericLt(a, e, key, order, lc);
    NumericLt(e, a, key, order, lc);
  }

  // ---------------------------------------------------------------- pagination

  /** `rows.slice(page * perPage, page * perPage + perPage)`. */
  function Paginate<T>(rows: seq<T>, page: int, perPage: int): (r: seq<T>)
    ensures 0 <= page && 0 <= perPage ==> |r| <= perPage
    ensures 0 <= page && 0 <= perPage && page * perPage >= |rows| ==> r == []
    ensures 0 <= page && 0 <= perPage && page * perPage + perPage <= |rows| ==>
              r == rows[page * perPage..page * perPage + perPage]
    ensures 0 <= page && 0 <= perPage && page * perPage < |rows| ==>
              r == rows[page * perPage..Min(page * perPage + perPage, |rows|)]
  {
    JsSlice(rows, page * perPage, page * perPage + perPage)
  }

  /** Pages `0 .. n - 1`, one after another. */
  function PagesUpTo<T>(rows: seq<T>, perPage: int, n: nat): seq<T> {
    if n == 0 then [] else PagesUpTo(rows, perPage, n - 1) + Paginate(rows, n - 1, perPage)
  }

  function Min(a: int, b: int): int {
    if a <= b then a else b
  }

  /** The rows before `start` followed by the page starting there are the
      rows before the page's end. */
  lemma SliceStep<T>(rows: seq<T>, start: int, perPage: int)
    requires 0 <= start && 0 < perPage
    ensures rows[..Min(start, |rows|)] + JsSlice(rows, start, start + perPage)
            == rows[..Min(start + perPage, |rows|)]
  {
    if start >= |rows| {
    } else if start + perPage <= |rows| {
      assert rows[..start] + rows[start..start + perPage] == rows[..start + perPage];
    } else {
      assert rows[..start] + rows[start..] == rows;
    }
  }

  /** The first `n` pages are the first `n * perPage` rows: no row is shown
      twice or skipped. */
  lemma {:induction false} PagesCover<T>(rows: seq<T>, perPage: int, n: nat)
    requires perPage > 0
    ensures PagesUpTo(rows, perPage, n) == rows[..Min(n * perPage, |rows|)]
  {
    if n > 0 {
      PagesCover(rows, perPage, n - 1);
      NextPageStart(n, perPage);
      SliceStep(rows, (n - 1) * perPage, perPage);
    }
  }

  lemma NextPageStart(n: nat, perPage: int)
    requires n > 0 && perPage > 0
    ensures 0 <= (n - 1) * perPage
    ensures (n - 1) * perPage + perPage == n * perPage
  {
  }

  /** The rows on screen for the store's state. */
  function PageView(s: TableState, lc: (string, string) -> int): (r: seq<Row>)
    ensures 0 <= s.currentPage && 0 <= s.rowsPerPage ==> |r| <= s.rowsPerPage
  {
    Paginate(FilteredAndSorted(s.data, s.searchTerm, s.sortBy, s.sortOrder, lc), s.currentPage, s.rowsPerPage)
  }

  /** Every row on screen is stored and matches the search. */
  lemma PageViewRowsMatch(s: TableState, lc: (string, string) -> int, row: Row)
    requires row in PageView(s, lc)
    ensures row in s.data && (s.searchTerm == "" || RowMatches(row, s.searchTerm))
  {
  }

  // ---------------------------------------------------------------- handlers

  function Flip(order: SortOrder): SortOrder {
    if order == Asc then Desc else Asc
  }

  /** Clicking a column header: the sorted column flips its order, another
      column becomes the sort key in ascending order. */
  function HandleSort(s: TableState, key: string): (acts: seq<Action>)
    ensures var r := ReduceAll(s, acts);
            r == s.(sortBy := Some(key), sortOrder := if s.sortBy == Some(key) then Flip(s.sortOrder) else Asc)
  {
    if s.sortBy == Some(key) then
      ReduceAllOne(SetSortOrder(Flip(s.sortOrder)));
      [SetSortOrder(Flip(s.sortOrder))]
    else
      ReduceAllPair(SetSortBy(key), SetSortOrder(Asc));
      [SetSortBy(key), SetSortOrder(Asc)]
  }

  /** Two clicks on the column already sorted by restore the state. */
  lemma HandleSortTwice(s: TableState, key: string)
    requires s.sortBy == Some(key)
    ensures var once := ReduceAll(s, HandleSort(s, key));
            ReduceAll(once, HandleSort(once, key)) == s
  {
  }

  /** Two clicks on another column sort by it descending. */
  lemma HandleSortNewColumnTwice(s: TableState, key: string)
    requires s.sortBy != Some(key)
    ensures var once := ReduceAll(s, HandleSort(s, key));
            ReduceAll(once, HandleSort(once, key)) == s.(sortBy := Some(key), sortOrder := Desc)
  {
  }

  /** Typing in the search box stores the term and returns to the first page. */
  function HandleSearchChange(term: string): (acts: seq<Action>)
    ensures forall s :: ReduceAll(s, acts) == s.(searchTerm := term, currentPage := 0)
  {
    ReduceAllPair(SetSearchTerm(term), SetPage(0));
    [SetSearchTerm(term), SetPage(0)]
  }

  function HandlePageChange(page: int): (acts: seq<Action>)
    ensures forall s :: ReduceAll(s, acts) == s.(currentPage := page)
  {
    ReduceAllOne(SetPage(page));
    [SetPage(page)]
  }

  /** The rows-per-page select: its value is parsed as a decimal integer;
      a text with no leading numeral dispatches nothing. */
  function HandleRowsPerPageChange(text: string): (acts: seq<Action>)
    ensures ParseInt(text).None? ==> acts == []
    ensures ParseInt(text).Some? ==>
              forall s :: ReduceAll(s, acts) == s.(rowsPerPage := ParseInt(text).value, currentPage := 0)
  {
    match ParseInt(text)
    case None => []
    case Some(n) => RowsPerPageActions(n)
  }

  function RowsPerPageActions(n: int): (acts: seq<Action>)
    ensures forall s :: ReduceAll(s, acts) == s.(rowsPerPage := n, currentPage := 0)
  {
    ReduceAllOne(SetRowsPerPage(n));
    [SetRowsPerPage(n)]
  }

  /** Choosing the option labelled with a number sets exactly that page size. */
  lemma RowsPerPageOption(s: TableState, n: int)
    ensures ReduceAll(s, HandleRowsPerPageChange(IntToString(n))) == s.(rowsPerPage := n, currentPage := 0)
  {
    ParseIntRoundTrip(n);
  }

  /** Editing a cell merges `{ [key]: value }` into the row with that id. */
  function HandleEditCell(rowId: Value, key: string, value: Value): Action {
    UpdateRow(rowId, [Field(key, value)])
  }

  /** After an edit the first row with the id holds the new value under the
      key and keeps its other properties; all other rows are untouched. */
  lemma EditCellEffect(s: TableState, rowId: Value, key: string, value: Value)
    ensures var r := Reduce(s, HandleEditCell(rowId, key, value));
            && |r.data| == |s.data| && r.columns == s.columns
            && forall j :: 0 <= j < |s.data| ==>
                 if IsFirstWithId(s.data, rowId, j) then
                   Get(r.data[j], key) == value
                   && forall k :: k != key ==> Get(r.data[j], k) == Get(s.data[j], k)
                 else r.data[j] == s.data[j]
  {
    var patch: Row := [Field(key, value)];
    assert KeysOf(patch) == [key];
  }

  function HandleDeleteRow(rowId: Value): Action {
    DeleteRow(rowId)
  }

  /** Bulk delete dispatches one `deleteRow` per selected id and then clears
      the selection: the result is the actions and the new selection. */
  function HandleBulkDelete(ids: seq<Value>): (r: (seq<Action>, seq<Value>))
    ensures |r.0| == |ids|
    ensures forall i :: 0 <= i < |ids| ==> r.0[i] == HandleDeleteRow(ids[i])
    ensures r.1 == []
  {
    (seq(|ids|, i requires 0 <= i < |ids| => HandleDeleteRow(ids[i])), [])
  }

  function IdNotIn(ids: seq<Value>): Row -> bool {
    (row: Row) => RowId(row) !in ids
  }

  /** Deleting one id and then the others removes every listed id. */
  lemma DeleteFirstThenRest(data: seq<Row>, ids: seq<Value>)
    requires ids != []
    ensures Filter(Filter(data, HasIdOtherThan(ids[0])), IdNotIn(ids[1..])) == Filter(data, IdNotIn(ids))
  {
    var p := HasIdOtherThan(ids[0]);
    var q := IdNotIn(ids[1..]);
    assert ids == [ids[0]] + ids[1..];
    assert forall v :: v in ids <==> v == ids[0] || v in ids[1..];
    FilterAnd(data, p, q, IdNotIn(ids));
  }

  /** After a bulk delete exactly the rows whose id was selected are gone. */
  lemma {:induction false} BulkDeleteRemovesSelected(s: TableState, ids: seq<Value>)
    ensures ReduceAll(s, HandleBulkDelete(ids).0) == s.(data := Filter(s.data, IdNotIn(ids)))
    decreases |ids|
  {
    var acts := HandleBulkDelete(ids).0;
    if ids == [] {
      assert acts == [];
      FilterAll(s.data, IdNotIn(ids));
      assert s.(data := Filter(s.data, IdNotIn(ids))) == s;
    } else {
      var s1 := s.(data := Filter(s.data, HasIdOtherThan(ids[0])));
      assert Reduce(s, acts[0]) == s1;
      assert acts[1..] == HandleBulkDelete(ids[1..]).0;
      BulkDeleteRemovesSelected(s1, ids[1..]);
      DeleteFirstThenRest(s.data, ids);
    }
  }

  /** The select-all checkbox: the ids of the rows on the current page, or
      nothing. */
  function HandleSelectAll(checked: bool, page: seq<Row>): (sel: seq<Value>)
    ensures checked ==> |sel| == |page| && forall i :: 0 <= i < |page| ==> sel[i] == RowId(page[i])
    ensures !checked ==> sel == []
  {
    if checked then seq(|page|, i requires 0 <= i < |page| => RowId(page[i])) else []
  }

  function IsNot(id: Value): Value -> bool {
    v => v != id
  }

  /** A row checkbox: checking appends the id, unchecking removes every
      occurrence of it and keeps the rest in order. */
  function HandleSelectRow(sel: seq<Value>, id: Value, checked: bool): (r: seq<Value>)
    ensures checked ==> id in r && sel <= r && |r| == |sel| + 1 && r[|sel|] == id
    ensures !checked ==> id !in r && IsSubsequence(r, sel)
    ensures !checked ==> forall v :: v != id ==> (v in r <==> v in sel)
    ensures !checked ==> forall v :: multiset(r)[v] == if v != id then multiset(sel)[v] else 0
  {
    if checked then sel + [id]
    else
      FilterIsSubsequence(sel, IsNot(id));
      forall v ensures multiset(Filter(sel, IsNot(id)))[v] == if v != id then multiset(sel)[v] else 0 {
        FilterCount(sel, IsNot(id), v);
      }
      forall v ensures v in Filter(sel, IsNot(id)) <==> v in sel && v != id {
        FilterMembership(sel, IsNot(id), v);
      }
      Filter(sel, IsNot(id))
  }

  /** Checking then unchecking a row that was not selected restores the
      selection. */
  lemma SelectThenDeselect(sel: seq<Value>, id: Value)
    requires id !in sel
    ensures HandleSelectRow(HandleSelectRow(sel, id, true), id, false) == sel
  {
    FilterConcat(sel, [id], IsNot(id));
    FilterAll(sel, IsNot(id));
  }

  // ---------------------------------------------------------------- columns

  /** The mobile card: the first two visible columns are always shown, the
      remaining visible ones only when expanded. */
  function MobileSplit(cols: seq<Column>): (r: (seq<Column>, seq<Column>))
    ensures r.0 + r.1 == VisibleColumns(cols)
    ensures |r.0| == if |VisibleColumns(cols)| < 2 then |VisibleColumns(cols)| else 2
  {
    var vis := VisibleColumns(cols);
    var primary := JsSlice(vis, 0, 2);
    var secondary := JsSlice(vis, 2, |vis|);
    if |vis| >= 2 then
      assert vis[..2] + vis[2..] == vis;
      (primary, secondary)
    else
      (primary, secondary)
  }

  /** `arrayMove`: takes the element at `from` out and inserts it at `to`. */
  function ArrayMove<T>(s: seq<T>, from: int, to: int): (r: seq<T>)
    requires 0 <= from < |s| && 0 <= to < |s|
    ensures |r| == |s| && r[to] == s[from]
    ensures multiset(r) == multiset(s)
    ensures r[..to] + r[to + 1..] == s[..from] + s[from + 1..]
  {
    var rest := s[..from] + s[from + 1..];
    assert s == s[..from] + [s[from]] + s[from + 1..];
    assert multiset(s) == multiset(s[..from]) + multiset{s[from]} + multiset(s[from + 1..]);
    assert rest == rest[..to] + rest[to..];
    var r := rest[..to] + [s[from]] + rest[to..];
    assert multiset(r) == multiset(rest[..to]) + multiset{s[from]} + multiset(rest[to..]);
    assert multiset(rest) == multiset(rest[..to]) + multiset(rest[to..]);
    assert multiset(rest) == multiset(s[..from]) + multiset(s[from + 1..]);
    assert multiset(r) == multiset(rest) + multiset{s[from]};
    assert multiset(s) == multiset(rest) + multiset{s[from]};
    assert r[..to] + r[to + 1..] == rest;
    r
  }

  /** Moving an element back to where it came from undoes the move. */
  lemma ArrayMoveInverse<T>(s: seq<T>, from: int, to: int)
    requires 0 <= from < |s| && 0 <= to < |s|
    ensures ArrayMove(ArrayMove(s, from, to), to, from) == s
  {
    var rest := s[..from] + s[from + 1..];
    var r := ArrayMove(s, from, to);
    assert r[..to] + r[to + 1..] == rest;
    assert rest[..from] + [s[from]] + rest[from..] == s;
  }

  lemma {:induction false} TwoIndicesCount<T>(s: seq<T>, i: int, j: int)
    requires 0 <= i < j < |s| && s[i] == s[j]
    ensures multiset(s)[s[i]] >= 2
  {
    assert s == s[..j] + s[j..];
    assert s[i] in s[..j] && s[j] in s[j..];
    assert multiset(s) == multiset(s[..j]) + multiset(s[j..]);
  }

  lemma {:induction false} CountTwoIndices<T>(s: seq<T>, x: T)
    requires multiset(s)[x] >= 2
    ensures exists i, j :: 0 <= i < j < |s| && s[i] == x && s[j] == x
  {
    assert s == [s[0]] + s[1..];
    if s[0] == x {
      assert x in multiset(s[1..]);
      var j :| 0 <= j < |s[1..]| && s[1..][j] == x;
      assert s[j + 1] == x;
    } else {
      CountTwoIndices(s[1..], x);
      var i, j :| 0 <= i < j < |s[1..]| && s[1..][i] == x && s[1..][j] == x;
      assert s[i + 1] == x && s[j + 1] == x;
    }
  }

  /** Two places of a rearrangement sharing a key come from two places of
      the original sharing that key. */
  lemma SameKeyInPermutation(a: seq<Column>, b: seq<Column>, i: int, j: int)
    requires multiset(a) == multiset(b)
    requires 0 <= i < j < |b| && b[i].key == b[j].key
    ensures exists p, q :: 0 <= p < q < |a| && a[p].key == a[q].key
  {
    if b[i] == b[j] {
      TwoIndicesCount(b, i, j);
      CountTwoIndices(a, b[i]);
    } else {
      assert b[i] in multiset(a) && b[j] in multiset(a);
      var p :| 0 <= p < |a| && a[p] == b[i];
      var q :| 0 <= q < |a| && a[q] == b[j];
      if p < q {
        assert a[p].key == a[q].key;
      } else {
        assert a[q].key == a[p].key;
      }
    }
  }

  /** A rearrangement of columns with distinct keys has distinct keys. */
  lemma UniqueKeysPermutation(a: seq<Column>, b: seq<Column>)
    requires multiset(a) == multiset(b)
    ensures UniqueColumnKeys(a) ==> UniqueColumnKeys(b)
  {
    if UniqueColumnKeys(a) {
      forall i, j | 0 <= i < j < |b| ensures b[i].key != b[j].key {
        if b[i].key == b[j].key {
          SameKeyInPermutation(a, b, i, j);
        }
      }
    }
  }

  /** The `reorderColumns` payload of a drop: the moved visible list followed
      by the hidden columns. It is a permutation of the columns that keeps
      the hidden ones as they were, and it keeps keys distinct. */
  function ReorderPayload(cols: seq<Column>, from: int, to: int): (r: seq<Column>)
    requires 0 <= from < |VisibleColumns(cols)| && 0 <= to < |VisibleColumns(cols)|
    ensures multiset(r) == multiset(cols)
    ensures VisibleColumns(r) == ArrayMove(VisibleColumns(cols), from, to)
    ensures HiddenColumns(r) == HiddenColumns(cols)
    ensures UniqueColumnKeys(cols) ==> UniqueColumnKeys(r)
    ensures forall i, j :: 0 <= i < j < |r| && r[j].visible ==> r[i].visible
    ensures r[..|VisibleColumns(cols)|] == ArrayMove(VisibleColumns(cols), from, to)
  {
    var moved := ArrayMove(VisibleColumns(cols), from, to);
    MovedAllVisible(VisibleColumns(cols), from, to);
    PayloadParts(cols, moved);
    UniqueKeysPermutation(cols, moved + HiddenColumns(cols));
    VisibleBeforeHidden(moved, HiddenColumns(cols));
    moved + HiddenColumns(cols)
  }

  /** Visible columns followed by hidden ones: no visible column comes after
      a hidden one, and the visible part is the prefix. */
  lemma VisibleBeforeHidden(moved: seq<Column>, hidden: seq<Column>)
    requires forall i :: 0 <= i < |moved| ==> moved[i].visible
    requires forall i :: 0 <= i < |hidden| ==> !hidden[i].visible
    ensures var r := moved + hidden;
            forall i, j :: 0 <= i < j < |r| && r[j].visible ==> r[i].visible
    ensures (moved + hidden)[..|moved|] == moved
  {
    var r := moved + hidden;
    assert forall k :: |moved| <= k < |r| ==> r[k] == hidden[k - |moved|];
    assert forall k :: 0 <= k < |moved| ==> r[k] == moved[k];
  }

  /** Visible columns followed by the hidden ones: filtering gives each part
      back, and the whole is a permutation when the visible part is one of the
      visible columns. */
  lemma PayloadParts(cols: seq<Column>, moved: seq<Column>)
    requires forall i :: 0 <= i < |moved| ==> moved[i].visible
    requires multiset(moved) == multiset(VisibleColumns(cols))
    ensures VisibleColumns(moved + HiddenColumns(cols)) == moved
    ensures HiddenColumns(moved + HiddenColumns(cols)) == HiddenColumns(cols)
    ensures multiset(moved + HiddenColumns(cols)) == multiset(cols)
  {
    var hidden := HiddenColumns(cols);
    assert VisibleColumns(moved + hidden) == moved by {
      FilterAll(moved, IsVisible);
      FilterNone(hidden, IsVisible);
      FilterConcat(moved, hidden, IsVisible);
    }
    assert HiddenColumns(moved + hidden) == hidden by {
      FilterNone(moved, IsHidden);
      FilterAll(hidden, IsHidden);
      FilterConcat(moved, hidden, IsHidden);
    }
    FilterPartition(cols, IsVisible, IsHidden);
  }

  lemma MovedAllVisible(vis: seq<Column>, from: int, to: int)
    requires forall i :: 0 <= i < |vis| ==> vis[i].visible
    requires 0 <= from < |vis| && 0 <= to < |vis|
    ensures forall i :: 0 <= i < |vis| ==> ArrayMove(vis, from, to)[i].visible
  {
    var moved := ArrayMove(vis, from, to);
    forall i | 0 <= i < |moved| ensures moved[i].visible {
      assert moved[i] in multiset(vis);
    }
  }

  /** `findIndex` of a key: `i` is the first place holding it. */
  predicate FirstKeyAt(cols: seq<Column>, key: string, i: int) {
    0 <= i < |cols| && cols[i].key == key && forall k :: 0 <= k < i ==> cols[k].key != key
  }

  /** Dropping the dragged header `active` on `over`: the visible columns are
      reordered and the hidden ones follow them. Nothing is dispatched when
      the drop lands nowhere or on the dragged column itself, or when either
      key is not a visible column. */
  function HandleDragEnd(cols: seq<Column>, active: string, over: Option<string>): (a: Option<Action>)
    ensures over.None? || over.value == active ==> a.None?
    ensures a.Some? <==> && over.Some? && over.value != active
                         && active in ColumnKeys(VisibleColumns(cols))
                         && over.value in ColumnKeys(VisibleColumns(cols))
    ensures a.Some? ==> && a.value.ReorderColumns?
                        && multiset(a.value.columns) == multiset(cols)
                        && HiddenColumns(a.value.columns) == HiddenColumns(cols)
                        && (UniqueColumnKeys(cols) ==> UniqueColumnKeys(a.value.columns))
    ensures a.Some? ==> exists from, to ::
              && FirstKeyAt(VisibleColumns(cols), active, from)
              && FirstKeyAt(VisibleColumns(cols), over.value, to)
              && a.value == ReorderColumns(ReorderPayload(cols, from, to))
              && VisibleColumns(a.value.columns) == ArrayMove(VisibleColumns(cols), from, to)
  {
    if over.Some? && active != over.value then
      var vis := VisibleColumns(cols);
      ColumnKeysMembership(vis, active);
      ColumnKeysMembership(vis, over.value);
      match (FindColumnIndex(vis, active), FindColumnIndex(vis, over.value))
      case (Some(oldIndex), Some(newIndex)) =>
        assert FirstKeyAt(vis, active, oldIndex) && FirstKeyAt(vis, over.value, newIndex);
        Some(ReorderColumns(ReorderPayload(cols, oldIndex, newIndex)))
      case _ => None
    else None
  }

  /** A drop moves the dragged column to the drop target's place; dropping it
      back where it came from restores the visible order. */
  lemma DragEndThenBack(cols: seq<Column>, from: int, to: int)
    requires 0 <= from < |VisibleColumns(cols)| && 0 <= to < |VisibleColumns(cols)|
    ensures var r := ReorderPayload(cols, from, to);
            VisibleColumns(r)[to] == VisibleColumns(cols)[from]
            && VisibleColumns(ReorderPayload(r, to, from)) == VisibleColumns(cols)
  {
    ArrayMoveInverse(VisibleColumns(cols), from, to);
  }
}

=== FILE: editable_cell.dfy ===
/** The in-place cell editor (`src/components/EditableTableCell.tsx`) as a
    small state machine: a double click opens the editor on the cell's
    value, typing replaces the draft, Enter or the check button validates
    and saves, Escape or the close button cancels.

    The component's props are a `CellProps` value; `onSave` is not called
    but returned, as the `SaveCall` a step produces. */
module EditableCell {
  import opened Wrappers
  import opened JsText
  import opened Rows
  import CsvUtils

  datatype CellType = TextCell | NumberCell | EmailCell

  datatype CellProps = CellProps(value: Value, columnKey: string, rowId: string, cellType: CellType)

  /** The component state: whether the editor is open, the draft value and
      the error text shown under the field (`""` for none). */
  datatype CellState = CellState(editing: bool, editValue: Value, error: string)

  /** The state a freshly mounted cell starts in. */
  function InitialCell(p: CellProps): (s: CellState)
    ensures !s.editing && s.editValue == p.value && s.error == ""
  {
    CellState(false, p.value, "")
  }

  datatype SaveCall = SaveCall(rowId: string, columnKey: string, value: Value)

  /** The state after an event, and the `onSave` call it made, if any. */
  datatype Step = Step(state: CellState, saved: Option<SaveCall>)

  // ---------------------------------------------------------------- validation

  const InvalidEmail := "Invalid email format"
  const NotPositive := "Must be a positive number"
  const NameRequired := "Name is required"

  /** `validateValue`: `None` when the text passes, otherwise the message
      it shows. An empty text passes the email and number checks; only the
      `name` column of a text cell must be non-blank. */
  function Validate(t: CellType, columnKey: string, text: string): (r: Option<string>)
    ensures t == EmailCell ==> (r.Some? <==> text != "" && !CsvUtils.IsValidEmail(text))
    ensures t == NumberCell ==>
              (r.Some? <==> text != "" && (ToNumber(text).None? || ToNumber(text).value < 0))
    ensures t == TextCell ==> (r.Some? <==> columnKey == "name" && IsBlank(text))
    ensures r.Some? ==> r.value in {InvalidEmail, NotPositive, NameRequired}
  {
    match t
    case EmailCell =>
      if text != "" && !CsvUtils.IsValidEmail(text) then Some(InvalidEmail) else None
    case NumberCell =>
      if text != "" && (ToNumber(text).None? || ToNumber(text).value < 0) then Some(NotPositive) else None
    case TextCell =>
      if columnKey == "name" && IsBlank(text) then Some(NameRequired) else None
  }

  /** `Number(v)` for a cell value; `None` stands for `NaN`. */
  function NumberOf(v: Value): (r: Option<int>)
    ensures v.Num? ==> r == Some(v.n)
    ensures v.Str? ==> r == ToNumber(v.s)
  {
    match v
    case Str(s) => ToNumber(s)
    case Num(n) => Some(n)
    case Null => Some(0)
    case Undef => None
  }

  /** The value handed to `onSave`: a number cell saves `Number(draft) || 0`,
      any other cell the draft as a string. */
  function FinalValue(t: CellType, draft: Value): (r: Value)
    ensures t == NumberCell ==> r.Num? && (NumberOf(draft).Some? ==> r.n == NumberOf(draft).value)
    ensures t == NumberCell && NumberOf(draft).None? ==> r == Num(0)
    ensures t != NumberCell ==> r == Str(ToStr(draft))
  {
    if t == NumberCell then Num(NumberOf(draft).GetOr(0)) else Str(ToStr(draft))
  }

  // ---------------------------------------------------------------- events

  /** `handleSave`: a draft that passes validation is saved and the editor
      closes with no error; otherwise the message is shown and the editor
      stays as it was. */
  function Save(p: CellProps, s: CellState): (r: Step)
    ensures r.saved.Some? <==> Validate(p.cellType, p.columnKey, ToStr(s.editValue)).None?
    ensures r.saved.Some? ==>
              && r.state == s.(editing := false, error := "")
              && r.saved.value == SaveCall(p.rowId, p.columnKey, FinalValue(p.cellType, s.editValue))
    ensures r.saved.None? ==>
              r.state == s.(error := Validate(p.cellType, p.columnKey, ToStr(s.editValue)).value)
  {
    var text := ToStr(s.editValue);
    match Validate(p.cellType, p.columnKey, text)
    case None =>
      Step(s.(editing := false, error := ""),
           Some(SaveCall(p.rowId, p.columnKey, FinalValue(p.cellType, s.editValue))))
    case Some(message) => Step(s.(error := message), None)
  }

  /** `handleCancel`: the draft goes back to the cell's value, the error is
      cleared and the editor closes, without saving. */
  function Cancel(p: CellProps, s: CellState): (r: Step)
    ensures r.saved.None?
    ensures r.state == CellState(false, p.value, "")
  {
    Step(CellState(false, p.value, ""), None)
  }

  /** `handleKeyPress`: Enter saves, Escape cancels, other keys do nothing. */
  function KeyPress(p: CellProps, s: CellState, key: string): (r: Step)
    ensures key == "Enter" ==> r == Save(p, s)
    ensures key == "Escape" ==> r == Cancel(p, s)
    ensures key != "Enter" && key != "Escape" ==> r == Step(s, None)
  {
    if key == "Enter" then Save(p, s)
    else if key == "Escape" then Cancel(p, s)
    else Step(s, None)
  }

  /** `handleDoubleClick`: the editor opens on the cell's current value;
      an error shown before stays. */
  function DoubleClick(p: CellProps, s: CellState): (r: CellState)
    ensures r.editing && r.editValue == p.value && r.error == s.error
  {
    s.(editing := true, editValue := p.value)
  }

  /** Typing into the field: the draft becomes the typed text. */
  function Edit(s: CellState, text: string): (r: CellState)
    ensures r.editValue == Str(text)
    ensures r.editing == s.editing && r.error == s.error
  {
    s.(editValue := Str(text))
  }

  // ---------------------------------------------------------------- properties

  /** A number cell only ever saves a number that is at least zero. */
  lemma SavedNumberNonNegative(p: CellProps, s: CellState)
    requires p.cellType == NumberCell
    requires Save(p, s).saved.Some?
    ensures var v := Save(p, s).saved.value.value; v.Num? && v.n >= 0
  {
    var text := ToStr(s.editValue);
    match s.editValue
    case Str(t) =>
    case Num(n) =>
      ToNumberRoundTrip(n);
    case Null =>
      assert text == "null";
    case Undef =>
  }

  /** Escape after any edits gives back the original value and the
      closed editor, whatever was typed. */
  lemma EditThenEscapeRestores(p: CellProps, s: CellState, text: string)
    ensures KeyPress(p, Edit(DoubleClick(p, s), text), "Escape") == Step(InitialCell(p), None)
  {
  }

  /** Typing a text and pressing Enter in a text cell saves exactly that
      text, unless the cell is the `name` column and the text is blank. */
  lemma EditThenEnterSavesText(p: CellProps, s: CellState, text: string)
    requires p.cellType == TextCell
    ensures var r := KeyPress(p, Edit(DoubleClick(p, s), text), "Enter");
            && (r.saved.Some? <==> !(p.columnKey == "name" && IsBlank(text)))
            && (r.saved.Some? ==> r.saved.value == SaveCall(p.rowId, p.columnKey, Str(text))
                                   && !r.state.editing)
            && (r.saved.None? ==> r.state.editing && r.state.error == NameRequired)
  {
  }

  /** A saved number cell stores the number that was typed. */
  lemma EditThenEnterSavesNumber(p: CellProps, s: CellState, n: int)
    requires p.cellType == NumberCell
    ensures var r := KeyPress(p, Edit(DoubleClick(p, s), IntToString(n)), "Enter");
            && (r.saved.Some? <==> n >= 0)
            && (r.saved.Some? ==> r.saved.value.value == Num(n))
  {
    ToNumberRoundTrip(n);
    assert IntToString(n) != "" by {
      if n < 0 {
      } else {
        assert NatToString(n) != "";
      }
    }
  }

  /** An email cell accepts a non-empty text exactly when it matches
      `^[^\s@]+@[^\s@]+\.[^\s@]+$`. */
  lemma EmailCellMatchesPattern(columnKey: string, text: string)
    requires text != ""
    ensures Validate(EmailCell, columnKey, text).None? <==>
              exists i, j :: CsvUtils.EmailSplitAt(text, i, j)
  {
    CsvUtils.EmailMatchesPattern(text);
  }
}

=== FILE: import_export.dfy ===
/** The pure parts of the import and export controls
    (`src/components/table/ImportExportControls.tsx`): turning tokenised CSV
    rows into table rows and an `importData` action, and building the CSV
    text of the visible columns.

    The tokeniser's output (`string[][]`) is the input, and `Date.now()` is
    the parameter `clock`, read for each kept row at its position. The
    notification texts are the error messages of a `Failure`. */
module ImportExport {
  import opened Wrappers
  import opened JsText
  import opened Seqs
  import opened Rows
  import opened TableSlice

  // ---------------------------------------------------------------- import

  /** `header?.toString().trim() || 'Unnamed'`: a header is never blank and
      never starts or ends with white space. */
  function HeaderName(h: string): (name: string)
    ensures name != "" && !IsSpace(name[0]) && !IsSpace(name[|name| - 1])
    ensures !IsBlank(h) ==> name == Trim(h)
    ensures IsBlank(h) ==> name == "Unnamed"
  {
    if IsBlank(h) then "Unnamed" else Trim(h)
  }

  function HeaderNames(raw: seq<string>): (names: seq<string>)
    ensures |names| == |raw|
    ensures forall j :: 0 <= j < |raw| ==> names[j] == HeaderName(raw[j])
  {
    seq(|raw|, j requires 0 <= j < |raw| => HeaderName(raw[j]))
  }

  /** `row.some(cell => cell && cell.toString().trim())`. */
  predicate HasContent(row: seq<string>) {
    exists j :: 0 <= j < |row| && !IsBlank(row[j])
  }

  /** `row[colIndex]?.toString().trim() || ''`: a missing cell reads as `''`. */
  function CellAt(row: seq<string>, j: nat): (cell: string)
    ensures j >= |row| ==> cell == ""
    ensures j < |row| ==> cell == Trim(row[j])
  {
    if j < |row| then Trim(row[j]) else ""
  }

  /** `imported-${Date.now()}-${index}`. */
  function ImportId(stamp: nat, i: nat): string {
    "imported-" + NatToString(stamp) + "-" + NatToString(i)
  }

  /** The text after the last `-` of a string ending in `-` and a dash-free
      suffix is that suffix. */
  lemma DashSuffix(x: string, d1: string, y: string, d2: string)
    requires '-' !in d1 && '-' !in d2
    requires x + "-" + d1 == y + "-" + d2
    ensures d1 == d2
  {
    var s := x + "-" + d1;
    if |d1| < |d2| {
      DashInLonger(x, d1, y, d2);
    } else if |d2| < |d1| {
      DashInLonger(y, d2, x, d1);
    } else {
      assert d1 == s[|s| - |d1|..];
    }
  }

  /** Of two such decompositions of one string, the longer suffix holds the
      shorter one's dash. */
  lemma DashInLonger(x: string, d1: string, y: string, d2: string)
    requires x + "-" + d1 == y + "-" + d2 && |d1| < |d2|
    ensures '-' in d2
  {
    var s := x + "-" + d1;
    assert s[|s| - |d1| - 1] == '-';
    assert d2[|d2| - |d1| - 1] == s[|s| - |d1| - 1];
  }

  lemma DigitsNoDash(n: nat)
    ensures '-' !in NatToString(n)
  {
  }

  /** Rows at different positions get different ids, whatever the clock
      reads. */
  lemma ImportIdInjective(a: nat, i: nat, b: nat, j: nat)
    requires ImportId(a, i) == ImportId(b, j)
    ensures i == j
  {
    DigitsNoDash(i);
    DigitsNoDash(j);
    DashSuffix("imported-" + NatToString(a), NatToString(i), "imported-" + NatToString(b), NatToString(j));
    NatToStringInjective(i, j);
  }

  /** The value property `k` takes after assigning the cells of `headers`
      in order: the cell of the last header named `k`, else the id for
      `id`, else nothing. */
  function AssignedValue(id: string, headers: seq<string>, row: seq<string>, k: string): Value {
    if headers == [] then (if k == "id" then Str(id) else Undef)
    else if headers[|headers| - 1] == k then Str(CellAt(row, |headers| - 1))
    else AssignedValue(id, headers[..|headers| - 1], row, k)
  }

  /** The row object built from `{ id }` by `rowData[header] = cellValue`
      for each header in order. */
  function FillRow(id: string, headers: seq<string>, row: seq<string>): Row {
    if headers == [] then [Field("id", Str(id))]
    else Put(FillRow(id, headers[..|headers| - 1], row), headers[|headers| - 1], Str(CellAt(row, |headers| - 1)))
  }

  /** Each property holds the cell of the last header of its name, a later
      duplicate header overwriting an earlier one and a header `id`
      overwriting the id; the properties are the id and the headers. */
  lemma FillRowSpec(id: string, headers: seq<string>, row: seq<string>)
    ensures forall k :: Get(FillRow(id, headers, row), k) == AssignedValue(id, headers, row, k)
    ensures forall k :: k in KeysOf(FillRow(id, headers, row)) <==> k == "id" || k in headers
  {
    FillRowGet(id, headers, row);
    FillRowKeys(id, headers, row);
  }

  lemma {:induction false} FillRowGet(id: string, headers: seq<string>, row: seq<string>)
    ensures forall k :: Get(FillRow(id, headers, row), k) == AssignedValue(id, headers, row, k)
  {
    if headers != [] {
      FillRowGet(id, headers[..|headers| - 1], row);
    }
  }

  lemma {:induction false} FillRowKeys(id: string, headers: seq<string>, row: seq<string>)
    ensures forall k :: k in KeysOf(FillRow(id, headers, row)) <==> k == "id" || k in headers
  {
    if headers != [] {
      var init := headers[..|headers| - 1];
      var h := headers[|headers| - 1];
      assert headers == init + [h];
      assert forall k :: k in headers <==> k in init || k == h;
      FillRowKeys(id, init, row);
      var prev := FillRow(id, init, row);
      var keys := KeysOf(FillRow(id, headers, row));
      assert keys == KeysOf(prev) || keys == KeysOf(prev) + [h];
    }
  }

  /** With pairwise distinct headers none of which is `id`, the row holds the
      id first and then every header in order, each with its own trimmed
      cell. */
  lemma {:induction false} FillRowDistinct(id: string, headers: seq<string>, row: seq<string>)
    requires forall j, j' :: 0 <= j < j' < |headers| ==> headers[j] != headers[j']
    requires "id" !in headers
    ensures KeysOf(FillRow(id, headers, row)) == ["id"] + headers
    ensures Get(FillRow(id, headers, row), "id") == Str(id)
    ensures forall j :: 0 <= j < |headers| ==> Get(FillRow(id, headers, row), headers[j]) == Str(CellAt(row, j))
  {
    if headers != [] {
      var init := headers[..|headers| - 1];
      DistinctPrefix(headers);
      FillRowDistinct(id, init, row);
      LastNotInInit(headers);
      FillRowUnfold(id, headers, row);
      PutFreshHeader(FillRow(id, init, row), FillRow(id, headers, row), id, init, headers[|headers| - 1], row);
      assert headers == init + [headers[|headers| - 1]];
    }
  }

  lemma DistinctPrefix<T>(s: seq<T>)
    requires s != []
    requires forall j, j' :: 0 <= j < j' < |s| ==> s[j] != s[j']
    ensures var init := s[..|s| - 1];
            forall j, j' :: 0 <= j < j' < |init| ==> init[j] != init[j']
  {
  }

  lemma FillRowUnfold(id: string, headers: seq<string>, row: seq<string>)
    requires headers != []
    ensures FillRow(id, headers, row)
            == Put(FillRow(id, headers[..|headers| - 1], row), headers[|headers| - 1], Str(CellAt(row, |headers| - 1)))
  {
  }

  /** One header, new to the row, appended to a row that already holds the
      id and the earlier headers in order. */
  lemma PutFreshHeader(prev: Row, r: Row, id: string, init: seq<string>, last: string, row: seq<string>)
    requires r == Put(prev, last, Str(CellAt(row, |init|)))
    requires last != "id" && last !in init
    requires KeysOf(prev) == ["id"] + init
    requires Get(prev, "id") == Str(id)
    requires forall j :: 0 <= j < |init| ==> Get(prev, init[j]) == Str(CellAt(row, j))
    ensures KeysOf(r) == ["id"] + (init + [last])
    ensures Get(r, "id") == Str(id)
    ensures forall j :: 0 <= j < |init| + 1 ==> Get(r, (init + [last])[j]) == Str(CellAt(row, j))
  {
    assert last !in KeysOf(prev);
    forall j | 0 <= j < |init| + 1 ensures Get(r, (init + [last])[j]) == Str(CellAt(row, j)) {
      if j < |init| {
        assert (init + [last])[j] == init[j] != last;
      }
    }
  }

  /** Kept row `i`, stamped with the clock reading `stamp`. */
  function ImportedRow(headers: seq<string>, cells: seq<string>, stamp: nat, i: nat): Row {
    FillRow(ImportId(stamp, i), headers, cells)
  }

  /** The `map` over the kept rows: row `i` gets an id from the clock
      reading at `i` and one property per header. */
  function SynthesizeRows(headers: seq<string>, kept: seq<seq<string>>, clock: nat -> nat): (r: seq<Row>)
    ensures |r| == |kept|
    ensures forall i :: 0 <= i < |r| ==> r[i] == ImportedRow(headers, kept[i], clock(i), i)
  {
    if kept == [] then []
    else
      var n := |kept| - 1;
      SynthesizeRows(headers, kept[..n], clock) + [ImportedRow(headers, kept[n], clock(n), n)]
  }

  /** The part of `handleImport` after tokenising: an error when there is no
      data row or no row with content, otherwise the `importData` action with
      the replace switch and no `errors` field. */
  function HandleImport(raw: seq<seq<string>>, replaceMode: bool, clock: nat -> nat): (r: Result<Action>)
    ensures |raw| < 2 ==> r == Failure("CSV file must have at least a header row and one data row")
    ensures |raw| >= 2 && Filter(raw[1..], HasContent) == [] ==> r == Failure("No valid data rows found in CSV")
    ensures r.Success? <==> |raw| >= 2 && Filter(raw[1..], HasContent) != []
    ensures r.Success? ==>
              && r.value.ImportDataAction?
              && r.value.errors == None
              && r.value.replaceExisting == Some(replaceMode)
              && |r.value.importRows| == |Filter(raw[1..], HasContent)|
    ensures r.Success? ==>
              forall i :: 0 <= i < |r.value.importRows| ==>
                r.value.importRows[i] == ImportedRow(HeaderNames(raw[0]), Filter(raw[1..], HasContent)[i], clock(i), i)
  {
    if |raw| < 2 then Failure("CSV file must have at least a header row and one data row")
    else
      var rows := SynthesizeRows(HeaderNames(raw[0]), Filter(raw[1..], HasContent), clock);
      if |rows| == 0 then Failure("No valid data rows found in CSV")
      else Success(ImportDataAction(rows, None, Some(replaceMode)))
  }

  /** Ids are distinct within one import unless a column is named `id`. */
  lemma ImportIdsDistinct(raw: seq<seq<string>>, replaceMode: bool, clock: nat -> nat)
    requires HandleImport(raw, replaceMode, clock).Success?
    requires "id" !in HeaderNames(raw[0])
    ensures var rows := HandleImport(raw, replaceMode, clock).value.importRows;
            forall i, j :: 0 <= i < j < |rows| ==> Get(rows[i], "id") != Get(rows[j], "id")
  {
    var headers := HeaderNames(raw[0]);
    var kept := Filter(raw[1..], HasContent);
    var rows := HandleImport(raw, replaceMode, clock).value.importRows;
    assert rows == SynthesizeRows(headers, kept, clock);
    forall i, j | 0 <= i < j < |rows| ensures Get(rows[i], "id") != Get(rows[j], "id") {
      ImportedRowId(headers, kept[i], clock(i), i);
      ImportedRowId(headers, kept[j], clock(j), j);
      if ImportId(clock(i), i) == ImportId(clock(j), j) {
        ImportIdInjective(clock(i), i, clock(j), j);
      }
    }
  }

  lemma ImportedRowId(headers: seq<string>, cells: seq<string>, stamp: nat, i: nat)
    requires "id" !in headers
    ensures Get(ImportedRow(headers, cells, stamp, i), "id") == Str(ImportId(stamp, i))
  {
    IdAssignedOnce(ImportId(stamp, i), headers, cells);
    FillRowGet(ImportId(stamp, i), headers, cells);
  }

  /** Without a header named `id`, the id is the one the row started with. */
  lemma {:induction false} IdAssignedOnce(id: string, headers: seq<string>, row: seq<string>)
    requires "id" !in headers
    ensures AssignedValue(id, headers, row, "id") == Str(id)
  {
    if headers != [] {
      var init := headers[..|headers| - 1];
      assert headers[|headers| - 1] in headers;
      assert forall x :: x in init ==> x in headers;
      IdAssignedOnce(id, init, row);
    }
  }

  /** With distinct header names other than `id`, imported row `i` comes
      from the `i`-th data row with content: the id, then every header with
      its trimmed cell (`''` when the row is short). */
  lemma ImportedRowContents(raw: seq<seq<string>>, replaceMode: bool, clock: nat -> nat, i: nat)
    requires HandleImport(raw, replaceMode, clock).Success?
    requires var h := HeaderNames(raw[0]);
             "id" !in h && forall j, j' :: 0 <= j < j' < |h| ==> h[j] != h[j']
    requires i < |HandleImport(raw, replaceMode, clock).value.importRows|
    ensures var h := HeaderNames(raw[0]);
            var row := HandleImport(raw, replaceMode, clock).value.importRows[i];
            var src := Filter(raw[1..], HasContent)[i];
            && HasContent(src) && src in raw[1..]
            && KeysOf(row) == ["id"] + h
            && Get(row, "id") == Str(ImportId(clock(i), i))
            && forall j :: 0 <= j < |h| ==> Get(row, h[j]) == Str(CellAt(src, j))
  {
    var h := HeaderNames(raw[0]);
    var src := Filter(raw[1..], HasContent)[i];
    FillRowDistinct(ImportId(clock(i), i), h, src);
    FilterMembership(raw[1..], HasContent, src);
  }

  /** A data row is imported exactly when it has a non-blank cell. */
  lemma ImportKeepsRowsWithContent(raw: seq<seq<string>>, row: seq<string>)
    requires |raw| >= 2 && row in raw[1..]
    ensures row in Filter(raw[1..], HasContent) <==> HasContent(row)
  {
    FilterMembership(raw[1..], HasContent, row);
  }

  // ---------------------------------------------------------------- export

  /** One exported cell: `row[col.key] || ''`, wrapped in quotes when it is a
      string containing a comma; `join` writes numbers in decimal. */
  function ExportCell(v: Value): string {
    var w := OrEmpty(v);
    if w.Str? && ',' in w.s then "\"" + w.s + "\"" else ToStr(w)
  }

  /** Undoes the quoting of a cell that holds a comma. */
  function UnquoteCell(c: string): string {
    if |c| >= 2 && c[0] == '"' && c[|c| - 1] == '"' && ',' in c then c[1..|c| - 1] else c
  }

  /** Unquoting an exported cell gives back `String(row[col.key] || '')`:
      the quotes are the only change, and falsy values, `0` included, export
      as the empty cell. */
  lemma ExportCellRoundTrip(v: Value)
    ensures UnquoteCell(ExportCell(v)) == ToStr(OrEmpty(v))
    ensures !Truthy(v) ==> ExportCell(v) == ""
  {
    var w := OrEmpty(v);
    if w.Str? && ',' in w.s {
      var c := "\"" + w.s + "\"";
      assert c[1..|c| - 1] == w.s;
      var k :| 0 <= k < |w.s| && w.s[k] == ',';
      assert c[k + 1] == ',';
    }
  }

  /** A quoted cell keeps an inner `"` as it is; section 2 of RFC 4180 would
      double it, so the field no longer reads back as one value. */
  lemma ExportQuoteNotEscaped()
    ensures ExportCell(Str("a\",b")) == "\"a\",b\""
  {
  }

  function Captions(cols: seq<Column>): (cs: seq<string>)
    ensures |cs| == |cols|
    ensures forall j :: 0 <= j < |cols| ==> cs[j] == cols[j].caption
  {
    seq(|cols|, j requires 0 <= j < |cols| => cols[j].caption)
  }

  /** The cells of one row, one per column in column order. */
  function RowCells(row: Row, cols: seq<Column>): (cells: seq<string>)
    ensures |cells| == |cols|
    ensures forall j :: 0 <= j < |cols| ==> cells[j] == ExportCell(Get(row, cols[j].key))
  {
    seq(|cols|, j requires 0 <= j < |cols| => ExportCell(Get(row, cols[j].key)))
  }

  /** The header line: the captions joined by commas. */
  function HeaderLine(cols: seq<Column>): string {
    Join(Captions(cols), ",")
  }

  /** The line of one row: its cells joined by commas. */
  function RowLine(row: Row, cols: seq<Column>): string {
    Join(RowCells(row, cols), ",")
  }

  /** The lines of the file: the captions, then one line per row. */
  function ExportLines(data: seq<Row>, cols: seq<Column>): (lines: seq<string>)
    ensures |lines| == |data| + 1
    ensures lines[0] == HeaderLine(cols)
    ensures forall i :: 0 <= i < |data| ==> lines[i + 1] == RowLine(data[i], cols)
  {
    [HeaderLine(cols)] + seq(|data|, i requires 0 <= i < |data| => RowLine(data[i], cols))
  }

  /** The CSV-text part of `handleExport`: a warning when there is nothing
      to export, otherwise the lines of the visible columns joined by
      newlines. */
  function HandleExport(data: seq<Row>, cols: seq<Column>): (r: Result<string>)
    ensures data == [] ==> r == Failure("No data to export")
    ensures data != [] && VisibleColumns(cols) == [] ==> r == Failure("No visible columns to export")
    ensures r.Success? <==> data != [] && VisibleColumns(cols) != []
    ensures r.Success? ==> r.value == Join(ExportLines(data, VisibleColumns(cols)), "\n")
  {
    if |data| == 0 then Failure("No data to export")
    else
      var visible := VisibleColumns(cols);
      if |visible| == 0 then Failure("No visible columns to export")
      else Success(Join(ExportLines(data, visible), "\n"))
  }

  /** No caption or exported cell text holds a line break. */
  predicate NoLineBreaks(data: seq<Row>, cols: seq<Column>) {
    && (forall j :: 0 <= j < |cols| ==> '\n' !in cols[j].caption)
    && (forall i, j :: 0 <= i < |data| && 0 <= j < |cols| ==> '\n' !in ToStr(Get(data[i], cols[j].key)))
  }

  lemma {:induction false} JoinAvoids(parts: seq<string>, sep: string, c: char)
    requires c !in sep && forall i :: 0 <= i < |parts| ==> c !in parts[i]
    ensures c !in Join(parts, sep)
  {
    if |parts| > 1 {
      JoinAvoids(parts[1..], sep, c);
    }
  }

  lemma CellAvoidsNewline(v: Value)
    requires '\n' !in ToStr(v)
    ensures '\n' !in ExportCell(v)
  {
  }

  /** Without line breaks in captions and values, splitting the file at
      newlines gives the header line and then one line per row, in order. */
  lemma ExportLinesSplit(data: seq<Row>, cols: seq<Column>)
    requires HandleExport(data, cols).Success?
    requires NoLineBreaks(data, VisibleColumns(cols))
    ensures Split(HandleExport(data, cols).value, '\n') == ExportLines(data, VisibleColumns(cols))
    ensures |Split(HandleExport(data, cols).value, '\n')| == |data| + 1
  {
    var visible := VisibleColumns(cols);
    var lines := ExportLines(data, visible);
    JoinAvoids(Captions(visible), ",", '\n');
    forall l | 1 <= l < |lines| ensures '\n' !in lines[l] {
      var row := data[l - 1];
      forall j | 0 <= j < |visible| ensures '\n' !in RowCells(row, visible)[j] {
        CellAvoidsNewline(Get(row, visible[j].key));
      }
      JoinAvoids(RowCells(row, visible), ",", '\n');
      assert lines[l] == RowLine(row, visible);
    }
    SplitJoin(lines, '\n');
  }

  /** Without commas in a row's values, splitting its line at commas gives
      `String(row[key] || '')` for each visible column, in column order. */
  lemma ExportRowSplit(row: Row, cols: seq<Column>)
    requires cols != []
    requires forall j :: 0 <= j < |cols| ==> ',' !in ToStr(Get(row, cols[j].key))
    ensures Split(RowLine(row, cols), ',') ==
              seq(|cols|, j requires 0 <= j < |cols| => ToStr(OrEmpty(Get(row, cols[j].key))))
  {
    var cells := RowCells(row, cols);
    forall j | 0 <= j < |cols| ensures cells[j] == ToStr(OrEmpty(Get(row, cols[j].key))) && ',' !in cells[j] {
      var v := Get(row, cols[j].key);
      if !Truthy(v) {
        assert OrEmpty(v) == Str("");
      }
    }
    SplitJoin(cells, ',');
  }
}

=== FILE: js_text.dfy ===
/** The JavaScript string built-ins the application relies on: `trim`,
    `toLowerCase`, `includes`, `join`, splitting on a character, `String(n)`
    for integers, `parseInt(s)` and `Number(s)`.
    Case mapping covers ASCII letters only; numbers are integers. */
module JsText {
  import opened Wrappers

  /** ECMA-262 WhiteSpace and LineTerminator code points: the characters
      `String.prototype.trim` removes and the regular-expression class `\s`
      matches. */
  predicate IsSpace(c: char) {
    || c == '\t' || c == '\n' || c == '\U{000B}' || c == '\U{000C}' || c == '\r'
    || c == ' ' || c == '\U{00A0}' || c == '\U{1680}'
    || ('\U{2000}' <= c <= '\U{200A}')
    || c == '\U{2028}' || c == '\U{2029}' || c == '\U{202F}' || c == '\U{205F}'
    || c == '\U{3000}' || c == '\U{FEFF}'
  }

  predicate NoSpace(s: string) {
    forall i :: 0 <= i < |s| ==> !IsSpace(s[i])
  }

  // ---------------------------------------------------------------- trim

  /** `s.trimStart()`: the suffix of `s` left after its leading white space. */
  function TrimStart(s: string): (r: string)
    ensures |r| <= |s| && r == s[|s| - |r|..]
    ensures r == [] || !IsSpace(r[0])
    ensures forall i :: 0 <= i < |s| - |r| ==> IsSpace(s[i])
  {
    if |s| > 0 && IsSpace(s[0]) then TrimStart(s[1..]) else s
  }

  /** `s.trimEnd()`: the prefix of `s` left before its trailing white space. */
  function TrimEnd(s: string): (r: string)
    ensures |r| <= |s| && r == s[..|r|]
    ensures r == [] || !IsSpace(r[|r| - 1])
    ensures forall i :: |r| <= i < |s| ==> IsSpace(s[i])
  {
    if |s| > 0 && IsSpace(s[|s| - 1]) then TrimEnd(s[..|s| - 1]) else s
  }

  /** `r` sits in `s` at offset `a`, with only white space around it. */
  predicate TrimmedAt(s: string, r: string, a: int) {
    && 0 <= a && a + |r| <= |s| && r == s[a..a + |r|]
    && (forall i :: 0 <= i < a ==> IsSpace(s[i]))
    && (forall i :: a + |r| <= i < |s| ==> IsSpace(s[i]))
  }

  /** `s.trim()`: a contiguous piece of `s` that neither starts nor ends with
      white space, everything cut off around it being white space. */
  function Trim(s: string): (r: string)
    ensures exists a :: TrimmedAt(s, r, a)
    ensures r == [] || (!IsSpace(r[0]) && !IsSpace(r[|r| - 1]))
  {
    var t := TrimStart(s);
    var r := TrimEnd(t);
    var a := |s| - |t|;
    assert r == s[a..a + |r|];
    assert TrimmedAt(s, r, a);
    r
  }

  /** `s.trim() === ''`, i.e. a falsy trimmed string. */
  predicate IsBlank(s: string) {
    Trim(s) == ""
  }

  /** A string is blank exactly when every character of it is white space. */
  lemma BlankIffAllSpace(s: string)
    ensures IsBlank(s) <==> forall i :: 0 <= i < |s| ==> IsSpace(s[i])
  {
    var r := Trim(s);
    var a :| TrimmedAt(s, r, a);
    if r != "" {
      assert s[a] == r[0];
    }
  }

  /** Trimming a string without surrounding white space changes nothing. */
  lemma TrimNoSpace(s: string)
    requires s == [] || (!IsSpace(s[0]) && !IsSpace(s[|s| - 1]))
    ensures Trim(s) == s
  {
  }

  // ---------------------------------------------------------------- case

  predicate IsUpperAscii(c: char) {
    'A' <= c <= 'Z'
  }

  function LowerChar(c: char): (r: char)
    ensures !IsUpperAscii(r)
    ensures IsUpperAscii(c) ==> r as int == c as int + 32
    ensures !IsUpperAscii(c) ==> r == c
  {
    if IsUpperAscii(c) then (c as int + 32) as char else c
  }

  function UpperChar(c: char): (r: char)
    ensures 'a' <= c <= 'z' ==> IsUpperAscii(r) && r as int == c as int - 32
    ensures !('a' <= c <= 'z') ==> r == c
  {
    if 'a' <= c <= 'z' then (c as int - 32) as char else c
  }

  /** `s.toLowerCase()` on ASCII letters. */
  function ToLower(s: string): (r: string)
    ensures |r| == |s|
    ensures forall i :: 0 <= i < |s| ==> r[i] == LowerChar(s[i])
  {
    seq(|s|, i requires 0 <= i < |s| => LowerChar(s[i]))
  }

  /** Lower-casing leaves no upper-case letter and lower-casing again is a no-op. */
  lemma ToLowerIdempotent(s: string)
    ensures forall i :: 0 <= i < |ToLower(s)| ==> !IsUpperAscii(ToLower(s)[i])
    ensures ToLower(ToLower(s)) == ToLower(s)
  {
  }

  // ---------------------------------------------------------------- search

  predicate StartsWith(s: string, t: string) {
    |t| <= |s| && s[..|t|] == t
  }

  /** `s.includes(t)`, computed by trying every start position. */
  predicate Contains(s: string, t: string)
    decreases |s|
  {
    StartsWith(s, t) || (|s| > 0 && Contains(s[1..], t))
  }

  /** `t` occurs in `s` starting at index `i`. */
  predicate OccursAt(s: string, t: string, i: int) {
    0 <= i <= |s| - |t| && s[i..i + |t|] == t
  }

  /** `Contains` holds exactly when `t` occurs in `s` at some position. */
  lemma {:induction false} ContainsIff(s: string, t: string)
    ensures Contains(s, t) <==> exists i :: OccursAt(s, t, i)
    decreases |s|
  {
    if StartsWith(s, t) {
      assert OccursAt(s, t, 0);
    }
    if |s| > 0 {
      ContainsIff(s[1..], t);
      if Contains(s[1..], t) {
        var i :| OccursAt(s[1..], t, i);
        assert s[i + 1..i + 1 + |t|] == s[1..][i..i + |t|];
        assert OccursAt(s, t, i + 1);
      }
      if exists i :: OccursAt(s, t, i) {
        var i :| OccursAt(s, t, i);
        if i > 0 {
          assert s[1..][i - 1..i - 1 + |t|] == s[i..i + |t|];
          assert OccursAt(s[1..], t, i - 1);
        }
      }
    } else if exists i :: OccursAt(s, t, i) {
      var i :| OccursAt(s, t, i);
      assert StartsWith(s, t);
    }
  }

  lemma ContainsEmpty(s: string)
    ensures Contains(s, "")
  {
    assert StartsWith(s, "");
  }

  function IndexOf(s: string, c: char): (r: Option<nat>)
    ensures r.None? <==> c !in s
    ensures r.Some? ==> r.value < |s| && s[r.value] == c && c !in s[..r.value]
  {
    if |s| == 0 then None
    else if s[0] == c then Some(0)
    else match IndexOf(s[1..], c)
      case None => None
      case Some(i) => assert s[..i + 1] == [s[0]] + s[1..][..i]; Some(i + 1)
  }

  // ---------------------------------------------------------------- join / split

  /** `parts.join(sep)`. */
  function Join(parts: seq<string>, sep: string): (r: string)
    ensures |parts| == 1 ==> r == parts[0]
    ensures |parts| == 0 ==> r == ""
  {
    if |parts| == 0 then ""
    else if |parts| == 1 then parts[0]
    else parts[0] + sep + Join(parts[1..], sep)
  }

  /** `s.split(c)` for a one-character separator: the pieces between
      occurrences of `c`, none of which contains `c`. */
  function Split(s: string, c: char): (r: seq<string>)
    ensures |r| >= 1
    ensures forall i :: 0 <= i < |r| ==> c !in r[i]
  {
    if s == [] then [""]
    else
      var rest := Split(s[1..], c);
      if s[0] == c then [""] + rest else [[s[0]] + rest[0]] + rest[1..]
  }

  lemma {:induction false} SplitNoSeparator(a: string, c: char)
    requires c !in a
    ensures Split(a, c) == [a]
  {
    if a != [] {
      SplitNoSeparator(a[1..], c);
      assert [a[0]] + a[1..] == a;
    }
  }

  lemma {:induction false} SplitAfterPiece(a: string, b: string, c: char)
    requires c !in a
    ensures Split(a + [c] + b, c) == [a] + Split(b, c)
  {
    if a == [] {
      assert a + [c] + b == [c] + b;
      assert ([c] + b)[1..] == b;
    } else {
      var s := a + [c] + b;
      assert s[0] == a[0];
      assert s[1..] == a[1..] + [c] + b;
      SplitAfterPiece(a[1..], b, c);
      assert [a[0]] + a[1..] == a;
    }
  }

  /** Splitting a join on a separator that no part contains gives the parts back. */
  lemma {:induction false} SplitJoin(parts: seq<string>, c: char)
    requires |parts| >= 1
    requires forall i :: 0 <= i < |parts| ==> c !in parts[i]
    ensures Split(Join(parts, [c]), c) == parts
  {
    if |parts| == 1 {
      SplitNoSeparator(parts[0], c);
    } else {
      SplitJoin(parts[1..], c);
      assert Join(parts, [c]) == parts[0] + [c] + Join(parts[1..], [c]);
      SplitAfterPiece(parts[0], Join(parts[1..], [c]), c);
      assert parts == [parts[0]] + parts[1..];
    }
  }

  // ---------------------------------------------------------------- numbers

  predicate IsDigit(c: char) {
    '0' <= c <= '9'
  }

  predicate AllDigits(s: string) {
    forall i :: 0 <= i < |s| ==> IsDigit(s[i])
  }

  function DigitChar(d: nat): (c: char)
    requires d < 10
    ensures IsDigit(c)
  {
    ('0' as int + d) as char
  }

  function DigitOf(c: char): (d: nat)
    requires IsDigit(c)
    ensures d < 10 && DigitChar(d) == c
  {
    c as int - '0' as int
  }

  /** The decimal numeral of a natural number, as `String(n)` writes it. */
  function NatToString(n: nat): (r: string)
    ensures |r| >= 1 && AllDigits(r)
    ensures r[0] == '0' ==> n == 0
  {
    if n < 10 then [DigitChar(n)] else NatToString(n / 10) + [DigitChar(n % 10)]
  }

  /** `String(n)` for an integer `n`. */
  function IntToString(n: int): (r: string)
    ensures |r| >= 1
    ensures n >= 0 ==> AllDigits(r)
    ensures n < 0 ==> r[0] == '-' && AllDigits(r[1..])
  {
    if n < 0 then "-" + NatToString(-n) else NatToString(n)
  }

  /** The value of a decimal numeral. */
  function DigitsValue(s: string): nat
    requires AllDigits(s)
  {
    if s == [] then 0 else DigitsValue(s[..|s| - 1]) * 10 + DigitOf(s[|s| - 1])
  }

  /** Reading back the numeral of `n` gives `n`, so `NatToString` is injective. */
  lemma {:induction false} NatToStringRoundTrip(n: nat)
    ensures DigitsValue(NatToString(n)) == n
  {
    if n >= 10 {
      NatToStringRoundTrip(n / 10);
      var s := NatToString(n);
      assert s[..|s| - 1] == NatToString(n / 10);
    }
  }

  lemma NatToStringInjective(a: nat, b: nat)
    requires NatToString(a) == NatToString(b)
    ensures a == b
  {
    NatToStringRoundTrip(a);
    NatToStringRoundTrip(b);
  }

  /** The longest prefix of `s` made of decimal digits. */
  function LeadingDigits(s: string): (r: string)
    ensures |r| <= |s| && r == s[..|r|] && AllDigits(r)
    ensures |r| < |s| ==> !IsDigit(s[|r|])
  {
    if |s| > 0 && IsDigit(s[0]) then
      var rest := LeadingDigits(s[1..]);
      assert [s[0]] + rest == s[..1 + |rest|];
      [s[0]] + rest
    else []
  }

  lemma LeadingDigitsAll(s: string)
    requires AllDigits(s)
    ensures LeadingDigits(s) == s
  {
  }

  /** Splits an optional leading `-` or `+` off `t`. */
  function SignAndBody(t: string): (bool, string) {
    if |t| > 0 && t[0] == '-' then (true, t[1..])
    else if |t| > 0 && t[0] == '+' then (false, t[1..])
    else (false, t)
  }

  /** `parseInt(s)` in base 10: leading white space is skipped, an optional sign
      is read, then the longest run of digits; `None` stands for `NaN`. */
  function ParseInt(s: string): (r: Option<int>)
    ensures r.None? <==> LeadingDigits(SignAndBody(TrimStart(s)).1) == []
    ensures r.Some? && !SignAndBody(TrimStart(s)).0 ==> r.value >= 0
  {
    var (neg, body) := SignAndBody(TrimStart(s));
    var ds := LeadingDigits(body);
    if ds == [] then None
    else
      var v: int := DigitsValue(ds);
      Some(if neg then -v else v)
  }

  lemma NumeralStartNotSpace(n: int)
    ensures !IsSpace(IntToString(n)[0])
  {
    var s := IntToString(n);
    if n >= 0 {
      assert IsDigit(s[0]);
    }
  }

  lemma NumeralEndNotSpace(n: int)
    ensures !IsSpace(IntToString(n)[|IntToString(n)| - 1])
  {
    var s := IntToString(n);
    if n >= 0 {
      assert IsDigit(s[|s| - 1]);
    } else {
      assert s[|s| - 1] == s[1..][|s| - 2];
    }
  }

  lemma TrimStartNoLeadingSpace(s: string)
    requires s == [] || !IsSpace(s[0])
    ensures TrimStart(s) == s
  {
  }

  /** The sign and digits of `String(n)`. */
  lemma NumeralSignAndBody(n: int)
    ensures SignAndBody(IntToString(n)) == (n < 0, NatToString(if n < 0 then -n else n))
  {
    if n >= 0 {
      var s := NatToString(n);
      assert IsDigit(s[0]);
    }
  }

  /** `parseInt(String(n)) === n`. */
  lemma ParseIntRoundTrip(n: int)
    ensures ParseInt(IntToString(n)) == Some(n)
  {
    var s := IntToString(n);
    NumeralStartNotSpace(n);
    TrimStartNoLeadingSpace(s);
    NumeralSignAndBody(n);
    var m: nat := if n < 0 then -n else n;
    LeadingDigitsAll(NatToString(m));
    NatToStringRoundTrip(m);
  }

  /** `Number(s)` for strings: surrounding white space is ignored, the empty
      string is 0, otherwise the whole rest must be an optionally signed run of
      decimal digits; `None` stands for `NaN`. */
  function ToNumber(s: string): (r: Option<int>)
    ensures IsBlank(s) ==> r == Some(0)
    ensures r.Some? && !IsBlank(s) ==> AllDigits(SignAndBody(Trim(s)).1)
  {
    var t := Trim(s);
    if t == [] then Some(0)
    else
      var (neg, body) := SignAndBody(t);
      if body != [] && AllDigits(body) then
        var v: int := DigitsValue(body);
        Some(if neg then -v else v)
      else None
  }

  /** `Number(String(n)) === n`. */
  lemma ToNumberRoundTrip(n: int)
    ensures ToNumber(IntToString(n)) == Some(n)
  {
    var s := IntToString(n);
    NumeralStartNotSpace(n);
    NumeralEndNotSpace(n);
    TrimNoSpace(s);
    NumeralSignAndBody(n);
    var m: nat := if n < 0 then -n else n;
    NatToStringRoundTrip(m);
  }
}

=== FILE: persist.dfy ===
/** The `migrate` step of the persisted store (`src/store/index.ts`): a
    stored state whose table has no version is rewritten to version 1 with
    `hasImportedData` cleared; any other state is kept as it is.

    The stored state is an arbitrary JSON-like JavaScript value. Objects are
    lists of members in insertion order; reading a member takes the first
    one with that key, and writing one overwrites it in place or appends it,
    as an object literal does. */
module Persist {
  import opened JsText

  datatype Json =
    | Null
    | Undefined
    | Bool(b: bool)
    | Num(n: int)
    | Str(s: string)
    | Arr(items: seq<Json>)
    | Obj(members: seq<Member>)

  datatype Member = Member(key: string, value: Json)

  /** JavaScript truthiness: objects and arrays are always truthy. */
  predicate Truthy(v: Json) {
    match v
    case Null => false
    case Undefined => false
    case Bool(b) => b
    case Num(n) => n != 0
    case Str(s) => s != ""
    case Arr(_) => true
    case Obj(_) => true
  }

  /** The value of the first member named `k`, or `undefined`. */
  function Lookup(ms: seq<Member>, k: string): (v: Json)
    ensures (forall i :: 0 <= i < |ms| ==> ms[i].key != k) ==> v == Undefined
  {
    if ms == [] then Undefined
    else if ms[0].key == k then ms[0].value
    else Lookup(ms[1..], k)
  }

  /** `v[k]` for a key that is neither an array index nor a built-in
      property name (`table`, `version`): only objects have it. */
  function Prop(v: Json, k: string): Json {
    if v.Obj? then Lookup(v.members, k) else Undefined
  }

  /** `{ ...ms, [k]: v }`: the first member named `k` is overwritten in place,
      or a member is appended. */
  function SetMember(ms: seq<Member>, k: string, v: Json): (r: seq<Member>)
    ensures Lookup(r, k) == v
    ensures forall k' :: k' != k ==> Lookup(r, k') == Lookup(ms, k')
    ensures |r| == |ms| || |r| == |ms| + 1
  {
    if ms == [] then [Member(k, v)]
    else if ms[0].key == k then [Member(k, v)] + ms[1..]
    else [ms[0]] + SetMember(ms[1..], k, v)
  }

  /** The own enumerable members spread by `{ ...v }`: an object's members,
      a string's characters and an array's items under their indices, and
      nothing for other values. */
  function Spread(v: Json): (ms: seq<Member>)
    ensures v.Obj? ==> ms == v.members
  {
    match v
    case Obj(members) => members
    case Str(s) => seq(|s|, i requires 0 <= i < |s| => Member(NatToString(i), Str([s[i]])))
    case Arr(items) => seq(|items|, i requires 0 <= i < |items| => Member(NatToString(i), items[i]))
    case _ => []
  }

  /** The state needs migrating: it holds a table without a truthy version. */
  predicate NeedsMigration(state: Json) {
    Truthy(state) && Truthy(Prop(state, "table")) && !Truthy(Prop(Prop(state, "table"), "version"))
  }

  /** The table after migration: its members, then version 1 and
      `hasImportedData: false`. */
  function MigratedTable(table: Json): seq<Member> {
    SetMember(SetMember(Spread(table), "version", Num(1)), "hasImportedData", Bool(false))
  }

  /** `migrate`: a state to migrate becomes an object with the one key
      `table`, whose version is 1 and whose `hasImportedData` is false
      whatever it was, every other member of the table kept; other top-level
      keys are dropped. Any other state is returned unchanged. */
  function Migrate(state: Json): (r: Json)
    ensures !NeedsMigration(state) ==> r == state
    ensures NeedsMigration(state) ==>
              && r.Obj? && |r.members| == 1 && r.members[0].key == "table"
              && Prop(Prop(r, "table"), "version") == Num(1)
              && Prop(Prop(r, "table"), "hasImportedData") == Bool(false)
  {
    if NeedsMigration(state) then Obj([Member("table", Obj(MigratedTable(Prop(state, "table"))))])
    else state
  }

  /** Migrating twice is migrating once: a migrated table has a version. */
  lemma MigrateIdempotent(state: Json)
    ensures Migrate(Migrate(state)) == Migrate(state)
  {
    var r := Migrate(state);
    if NeedsMigration(state) {
      assert Prop(r, "table") == Obj(MigratedTable(Prop(state, "table")));
      assert !NeedsMigration(r);
    }
  }

  /** Every member of an object table other than `version` and
      `hasImportedData` survives the migration with its value. */
  lemma MigratePreservesTable(state: Json, k: string)
    requires NeedsMigration(state) && Prop(state, "table").Obj?
    requires k != "version" && k != "hasImportedData"
    ensures Prop(Prop(Migrate(state), "table"), k) == Prop(Prop(state, "table"), k)
  {
    assert Prop(Migrate(state), "table") == Obj(MigratedTable(Prop(state, "table")));
  }

  /** A state that already has a versioned table, or no table, is kept. */
  lemma MigrateKeepsVersioned(state: Json)
    requires !Truthy(Prop(state, "table")) || Truthy(Prop(Prop(state, "table"), "version"))
    ensures Migrate(state) == state
  {
  }

  /** Other top-level keys are dropped and `hasImportedData` is overwritten
      even when it was true. */
  lemma MigrateExample()
    ensures var before := Obj([Member("table", Obj([Member("hasImportedData", Bool(true))])),
                               Member("app", Num(7))]);
            Migrate(before) == Obj([Member("table", Obj([Member("hasImportedData", Bool(false)),
                                                         Member("version", Num(1))]))])
  {
    var before := Obj([Member("table", Obj([Member("hasImportedData", Bool(true))])),
                       Member("app", Num(7))]);
    assert Prop(before, "table") == Obj([Member("hasImportedData", Bool(true))]);
    assert NeedsMigration(before);
    var t := [Member("hasImportedData", Bool(true))];
    assert Spread(Prop(before, "table")) == t;
    var t1 := SetMember(t, "version", Num(1));
    assert t1 == [t[0]] + SetMember([], "version", Num(1)) == [t[0], Member("version", Num(1))];
    var t2 := SetMember(t1, "hasImportedData", Bool(false));
    assert t2 == [Member("hasImportedData", Bool(false))] + t1[1..];
    assert t1[1..] == [Member("version", Num(1))];
    assert MigratedTable(Prop(before, "table")) == t2 == [Member("hasImportedData", Bool(false)), Member("version", Num(1))];
    assert Migrate(before) == Obj([Member("table", Obj(t2))]);
  }
}

=== FILE: rows.dfy ===
/** The table's entities: cell values, rows and columns.

    A row is a JavaScript object `{ id, [key]: value }`. It is modelled as the
    list of its own properties in insertion order (the order `Object.keys`
    reports for non-numeric keys), with pairwise distinct keys, as any object
    has. A missing property reads as `undefined`. */
module Rows {
  import opened JsText
  import opened Seqs

  /** A cell value: a string, an integer number, `null` or `undefined`. */
  datatype Value = Str(s: string) | Num(n: int) | Null | Undef

  /** `String(v)`. */
  function ToStr(v: Value): string {
    match v
    case Str(s) => s
    case Num(n) => IntToString(n)
    case Null => "null"
    case Undef => "undefined"
  }

  /** JavaScript truthiness: `''`, `0`, `null` and `undefined` are falsy. */
  predicate Truthy(v: Value) {
    match v
    case Str(s) => s != ""
    case Num(n) => n != 0
    case Null => false
    case Undef => false
  }

  /** `v || ''`. */
  function OrEmpty(v: Value): (r: Value)
    ensures Truthy(v) ==> r == v
    ensures !Truthy(v) ==> r == Str("")
  {
    if Truthy(v) then v else Str("")
  }

  datatype Field = Field(key: string, value: Value)

  function KeysOf(fs: seq<Field>): (ks: seq<string>)
    ensures |ks| == |fs|
    ensures forall i :: 0 <= i < |fs| ==> ks[i] == fs[i].key
  {
    if fs == [] then [] else [fs[0].key] + KeysOf(fs[1..])
  }

  predicate DistinctKeys(fs: seq<Field>) {
    forall i, j :: 0 <= i < j < |fs| ==> fs[i].key != fs[j].key
  }

  /** A JavaScript object: own properties in insertion order, keys distinct. */
  type Row = fs: seq<Field> | DistinctKeys(fs)

  /** `row[k]`: the value stored under `k`, or `undefined` when absent. */
  function Get(fs: seq<Field>, k: string): (v: Value)
    ensures k !in KeysOf(fs) ==> v == Undef
    ensures DistinctKeys(fs) ==> forall i :: 0 <= i < |fs| && fs[i].key == k ==> v == fs[i].value
  {
    if fs == [] then Undef
    else if fs[0].key == k then fs[0].value
    else
      assert KeysOf(fs) == [fs[0].key] + KeysOf(fs[1..]);
      Get(fs[1..], k)
  }

  lemma KeysMembership(fs: seq<Field>, k: string)
    ensures k in KeysOf(fs) <==> exists i :: 0 <= i < |fs| && fs[i].key == k
  {
    if k in KeysOf(fs) {
      var i :| 0 <= i < |KeysOf(fs)| && KeysOf(fs)[i] == k;
      assert fs[i].key == k;
    }
  }

  /** The position of the property `k`, if present. */
  function KeyIndex(fs: seq<Field>, k: string): (r: Wrappers.Option<nat>)
    ensures r.None? <==> k !in KeysOf(fs)
    ensures r.Some? ==> r.value < |fs| && fs[r.value].key == k
  {
    if fs == [] then Wrappers.None
    else if fs[0].key == k then Wrappers.Some(0)
    else
      assert KeysOf(fs) == [fs[0].key] + KeysOf(fs[1..]);
      match KeyIndex(fs[1..], k)
      case None => Wrappers.None
      case Some(i) => Wrappers.Some(i + 1)
  }

  /** `row[k] = v`: overwrites the property in place when present, otherwise
      adds it after the existing ones. */
  function Put(r: Row, k: string, v: Value): (r': Row)
    ensures Get(r', k) == v
    ensures forall k' :: k' != k ==> Get(r', k') == Get(r, k')
    ensures k in KeysOf(r) ==> KeysOf(r') == KeysOf(r)
    ensures k !in KeysOf(r) ==> KeysOf(r') == KeysOf(r) + [k]
  {
    match KeyIndex(r, k)
    case Some(i) =>
      PutInPlace(r, i, k, v);
      r[i := Field(k, v)]
    case None =>
      PutAppended(r, k, v);
      r + [Field(k, v)]
  }

  lemma PutInPlace(r: Row, i: nat, k: string, v: Value)
    requires i < |r| && r[i].key == k
    ensures DistinctKeys(r[i := Field(k, v)])
    ensures Get(r[i := Field(k, v)], k) == v
    ensures forall k' :: k' != k ==> Get(r[i := Field(k, v)], k') == Get(r, k')
    ensures KeysOf(r[i := Field(k, v)]) == KeysOf(r)
  {
    KeysOfUpdate(r, i, Field(k, v));
    forall k' | k' != k ensures Get(r[i := Field(k, v)], k') == Get(r, k') {
      GetUpdateOther(r, i, Field(k, v), k');
    }
  }

  lemma PutAppended(r: Row, k: string, v: Value)
    requires k !in KeysOf(r)
    ensures DistinctKeys(r + [Field(k, v)])
    ensures Get(r + [Field(k, v)], k) == v
    ensures forall k' :: k' != k ==> Get(r + [Field(k, v)], k') == Get(r, k')
    ensures KeysOf(r + [Field(k, v)]) == KeysOf(r) + [k]
  {
    KeysOfAppend(r, Field(k, v));
    GetAppendNew(r, Field(k, v));
    forall k' | k' != k ensures Get(r + [Field(k, v)], k') == Get(r, k') {
      GetAppendOther(r, Field(k, v), k');
    }
  }

  lemma KeysOfUpdate(r: seq<Field>, i: nat, f: Field)
    requires i < |r| && r[i].key == f.key
    ensures KeysOf(r[i := f]) == KeysOf(r)
  {
    assert forall j :: 0 <= j < |r| ==> r[i := f][j].key == r[j].key;
  }

  lemma KeysOfAppend(r: seq<Field>, f: Field)
    requires f.key !in KeysOf(r)
    ensures KeysOf(r + [f]) == KeysOf(r) + [f.key]
    ensures DistinctKeys(r) ==> DistinctKeys(r + [f])
  {
    var ks := KeysOf(r);
    assert forall j :: 0 <= j < |r| ==> (r + [f])[j] == r[j] && r[j].key == ks[j];
  }

  /** Overwriting a field whose key is not `k'` does not change `r[k']`. */
  lemma {:induction false} GetUpdateOther(r: seq<Field>, i: nat, f: Field, k': string)
    requires i < |r| && r[i].key != k' && f.key != k'
    ensures Get(r[i := f], k') == Get(r, k')
    decreases |r|
  {
    var r' := r[i := f];
    if i == 0 {
      assert r'[1..] == r[1..];
    } else if r[0].key != k' {
      assert r'[1..] == r[1..][i - 1 := f];
      GetUpdateOther(r[1..], i - 1, f, k');
    }
  }

  /** Appending a field whose key is not `k'` does not change `r[k']`. */
  lemma {:induction false} GetAppendOther(r: seq<Field>, f: Field, k': string)
    requires f.key != k'
    ensures Get(r + [f], k') == Get(r, k')
    decreases |r|
  {
    if r != [] && r[0].key != k' {
      assert (r + [f])[1..] == r[1..] + [f];
      GetAppendOther(r[1..], f, k');
    }
  }

  /** Appending a field under a new key makes it readable. */
  lemma {:induction false} GetAppendNew(r: seq<Field>, f: Field)
    requires f.key !in KeysOf(r)
    ensures Get(r + [f], f.key) == f.value
    decreases |r|
  {
    if r != [] {
      assert KeysOf(r) == [r[0].key] + KeysOf(r[1..]);
      assert (r + [f])[1..] == r[1..] + [f];
      GetAppendNew(r[1..], f);
    }
  }

  /** `const { [k]: _, ...rest } = row`: the row without the property `k`,
      every other property kept with its value and in its order. */
  function Delete(r: Row, k: string): (r': Row)
    ensures k !in KeysOf(r')
    ensures forall k' :: k' != k ==> Get(r', k') == Get(r, k')
    ensures forall k' :: k' in KeysOf(r') <==> k' in KeysOf(r) && k' != k
    ensures IsSubsequence(r', r)
  {
    if r == [] then []
    else
      var rest := Delete(r[1..], k);
      assert KeysOf(r) == [r[0].key] + KeysOf(r[1..]);
      if r[0].key == k then
        SubsequenceOfCons(rest, r[0], r[1..]);
        assert [r[0]] + r[1..] == r;
        rest
      else
        var r' := [r[0]] + rest;
        assert KeysOf(r') == [r[0].key] + KeysOf(rest);
        assert r'[1..] == rest;
        forall i | 0 <= i < |rest| ensures rest[i].key != r[0].key {
          assert rest[i].key in KeysOf(rest);
          KeysMembership(r[1..], rest[i].key);
        }
        r'
  }

  /** `{ ...r, ...patch }`: the patch's properties win, the row's other
      properties keep their values, and the row's keys keep their positions. */
  function Merge(r: Row, patch: Row): (r': Row)
    ensures forall k :: Get(r', k) == if k in KeysOf(patch) then Get(patch, k) else Get(r, k)
    ensures KeysOf(r) <= KeysOf(r')
    ensures forall k :: k in KeysOf(r') <==> k in KeysOf(r) || k in KeysOf(patch)
    decreases |patch|
  {
    if patch == [] then r
    else
      var rest: Row := patch[1..];
      var next := Put(r, patch[0].key, patch[0].value);
      assert KeysOf(patch) == [patch[0].key] + KeysOf(rest);
      assert patch[0].key !in KeysOf(rest) by {
        KeysMembership(rest, patch[0].key);
      }
      Merge(next, rest)
  }

  /** A column definition; `key` names the row property it shows and
      `caption` is the source's `label` (a reserved word in Dafny). */
  datatype Column = Column(key: string, caption: string, visible: bool, sortable: bool)

  function ColumnKeys(cols: seq<Column>): (ks: seq<string>)
    ensures |ks| == |cols|
    ensures forall i :: 0 <= i < |cols| ==> ks[i] == cols[i].key
  {
    if cols == [] then [] else [cols[0].key] + ColumnKeys(cols[1..])
  }

  lemma ColumnKeysConcat(a: seq<Column>, b: seq<Column>)
    ensures ColumnKeys(a + b) == ColumnKeys(a) + ColumnKeys(b)
  {
  }

  lemma ColumnKeysMembership(cols: seq<Column>, k: string)
    ensures k in ColumnKeys(cols) <==> exists i :: 0 <= i < |cols| && cols[i].key == k
  {
    if k in ColumnKeys(cols) {
      var i :| 0 <= i < |cols| && ColumnKeys(cols)[i] == k;
    }
  }

  /** Column keys are pairwise distinct. */
  predicate UniqueColumnKeys(cols: seq<Column>) {
    forall i, j :: 0 <= i < j < |cols| ==> cols[i].key != cols[j].key
  }

  predicate IsVisible(c: Column) {
    c.visible
  }

  /** `columns.filter(col => col.visible)`. */
  function VisibleColumns(cols: seq<Column>): (r: seq<Column>)
    ensures forall i :: 0 <= i < |r| ==> r[i].visible
    ensures |r| <= |cols|
  {
    Filter(cols, IsVisible)
  }

  predicate IsHidden(c: Column) {
    !c.visible
  }

  /** `columns.filter(col => !col.visible)`. */
  function HiddenColumns(cols: seq<Column>): (r: seq<Column>)
    ensures forall i :: 0 <= i < |r| ==> !r[i].visible
    ensures |r| <= |cols|
  {
    Filter(cols, IsHidden)
  }

  /** The visible and the hidden columns split the column list: each keeps
      its columns in order, and together they hold every column once. */
  lemma VisibleHiddenSplit(cols: seq<Column>)
    ensures forall c :: c in VisibleColumns(cols) <==> c in cols && c.visible
    ensures forall c :: c in HiddenColumns(cols) <==> c in cols && !c.visible
    ensures IsSubsequence(VisibleColumns(cols), cols) && IsSubsequence(HiddenColumns(cols), cols)
    ensures multiset(VisibleColumns(cols)) + multiset(HiddenColumns(cols)) == multiset(cols)
  {
    forall c ensures c in VisibleColumns(cols) <==> c in cols && c.visible {
      FilterMembership(cols, IsVisible, c);
    }
    forall c ensures c in HiddenColumns(cols) <==> c in cols && !c.visible {
      FilterMembership(cols, IsHidden, c);
    }
    FilterIsSubsequence(cols, IsVisible);
    FilterIsSubsequence(cols, IsHidden);
    FilterPartition(cols, IsVisible, IsHidden);
  }
}

=== FILE: seqs.dfy ===
/** Sequence helpers shared by the reducers and the view pipeline:
    `Array.prototype.filter`, order-preserving subsequences and the
    `Array.prototype.slice` index rules. */
module Seqs {

  /** `s.filter(p)`: the elements satisfying `p`, in their original order. */
  function Filter<T>(s: seq<T>, p: T -> bool): (r: seq<T>)
    ensures |r| <= |s|
    ensures forall i :: 0 <= i < |r| ==> p(r[i])
    ensures multiset(r) <= multiset(s)
  {
    if s == [] then []
    else
      var rest := Filter(s[1..], p);
      assert s == [s[0]] + s[1..];
      if p(s[0]) then [s[0]] + rest else rest
  }

  /** `a` can be obtained from `b` by deleting elements (order preserved). */
  predicate IsSubsequence<T(==)>(a: seq<T>, b: seq<T>)
    decreases |b|
  {
    if a == [] then true
    else if b == [] then false
    else if a[0] == b[0] then IsSubsequence(a[1..], b[1..])
    else IsSubsequence(a, b[1..])
  }

  /** Putting an element in front of `b` keeps every subsequence of `b`. */
  lemma {:induction false} SubsequenceOfCons<T>(a: seq<T>, x: T, b: seq<T>)
    requires IsSubsequence(a, b)
    ensures IsSubsequence(a, [x] + b)
    decreases |b|, 1
  {
    assert ([x] + b)[1..] == b;
    if a != [] && a[0] == x {
      SubsequenceDropHead(a, b);
    }
  }

  /** Dropping the head of a subsequence keeps it a subsequence. */
  lemma {:induction false} SubsequenceDropHead<T>(a: seq<T>, b: seq<T>)
    requires a != [] && IsSubsequence(a, b)
    ensures IsSubsequence(a[1..], b)
    decreases |b|, 0
  {
    assert b != [];
    assert b == [b[0]] + b[1..];
    if a[0] == b[0] {
      SubsequenceOfCons(a[1..], b[0], b[1..]);
    } else {
      SubsequenceDropHead(a, b[1..]);
      SubsequenceOfCons(a[1..], b[0], b[1..]);
    }
  }

  lemma {:induction false} FilterIsSubsequence<T>(s: seq<T>, p: T -> bool)
    ensures IsSubsequence(Filter(s, p), s)
  {
    if s != [] {
      FilterIsSubsequence(s[1..], p);
      var rest := Filter(s[1..], p);
      if p(s[0]) {
        assert Filter(s, p) == [s[0]] + rest;
        assert ([s[0]] + rest)[1..] == rest;
      } else {
        SubsequenceOfCons(rest, s[0], s[1..]);
        assert [s[0]] + s[1..] == s;
      }
    }
  }

  /** An element of `s` is kept exactly when it satisfies the predicate. */
  lemma {:induction false} FilterMembership<T>(s: seq<T>, p: T -> bool, x: T)
    ensures x in Filter(s, p) <==> x in s && p(x)
  {
    if s != [] {
      FilterMembership(s[1..], p, x);
      assert s == [s[0]] + s[1..];
    }
  }

  /** `filter` keeps every copy of an element that satisfies the predicate
      and no copy of one that does not. */
  lemma {:induction false} FilterCount<T>(s: seq<T>, p: T -> bool, x: T)
    ensures multiset(Filter(s, p))[x] == if p(x) then multiset(s)[x] else 0
  {
    if s != [] {
      FilterCount(s[1..], p, x);
      assert s == [s[0]] + s[1..];
      assert multiset(s) == multiset{s[0]} + multiset(s[1..]);
    }
  }

  lemma {:induction false} FilterConcat<T>(a: seq<T>, b: seq<T>, p: T -> bool)
    ensures Filter(a + b, p) == Filter(a, p) + Filter(b, p)
  {
    if a == [] {
      assert a + b == b;
    } else {
      assert (a + b)[0] == a[0];
      assert (a + b)[1..] == a[1..] + b;
      FilterConcat(a[1..], b, p);
    }
  }

  /** Filtering by a stronger predicate after a weaker one is the same as
      filtering by the stronger one alone. */
  lemma {:induction false} FilterFilter<T>(s: seq<T>, p: T -> bool, q: T -> bool)
    requires forall x :: q(x) ==> p(x)
    ensures Filter(Filter(s, p), q) == Filter(s, q)
  {
    if s != [] {
      FilterFilter(s[1..], p, q);
      var rest := Filter(s[1..], p);
      if p(s[0]) {
        assert ([s[0]] + rest)[1..] == rest;
      }
    }
  }

  /** Filtering twice is filtering by the conjunction `r`. */
  lemma {:induction false} FilterAnd<T>(s: seq<T>, p: T -> bool, q: T -> bool, r: T -> bool)
    requires forall x :: r(x) == (p(x) && q(x))
    ensures Filter(Filter(s, p), q) == Filter(s, r)
  {
    if s != [] {
      FilterAnd(s[1..], p, q, r);
      var rest := Filter(s[1..], p);
      if p(s[0]) {
        assert ([s[0]] + rest)[1..] == rest;
      }
    }
  }

  /** Predicates that agree on the elements of `s` filter it alike. */
  lemma {:induction false} FilterCongruent<T>(s: seq<T>, p: T -> bool, q: T -> bool)
    requires forall i :: 0 <= i < |s| ==> p(s[i]) == q(s[i])
    ensures Filter(s, p) == Filter(s, q)
  {
    if s != [] {
      assert forall i :: 0 <= i < |s[1..]| ==> s[1..][i] == s[i + 1];
      FilterCongruent(s[1..], p, q);
    }
  }

  /** When no element satisfies the predicate the filter is empty. */
  lemma {:induction false} FilterNone<T>(s: seq<T>, p: T -> bool)
    requires forall i :: 0 <= i < |s| ==> !p(s[i])
    ensures Filter(s, p) == []
  {
    if s != [] {
      FilterNone(s[1..], p);
    }
  }

  /** When every element satisfies the predicate the filter is the identity. */
  lemma {:induction false} FilterAll<T>(s: seq<T>, p: T -> bool)
    requires forall i :: 0 <= i < |s| ==> p(s[i])
    ensures Filter(s, p) == s
  {
    if s != [] {
      FilterAll(s[1..], p);
      assert s == [s[0]] + s[1..];
    }
  }

  /** Filters by complementary predicates split the multiset of `s`. */
  lemma {:induction false} FilterPartition<T>(s: seq<T>, p: T -> bool, q: T -> bool)
    requires forall x :: q(x) == !p(x)
    ensures multiset(Filter(s, p)) + multiset(Filter(s, q)) == multiset(s)
  {
    if s != [] {
      var t := s[1..];
      assert s == [s[0]] + t;
      assert multiset(s) == multiset{s[0]} + multiset(t);
      FilterPartition(t, p, q);
      if p(s[0]) {
        assert Filter(s, p) == [s[0]] + Filter(t, p);
        assert Filter(s, q) == Filter(t, q);
        assert multiset(Filter(s, p)) == multiset{s[0]} + multiset(Filter(t, p));
      } else {
        assert Filter(s, q) == [s[0]] + Filter(t, q);
        assert Filter(s, p) == Filter(t, p);
        assert multiset(Filter(s, q)) == multiset{s[0]} + multiset(Filter(t, q));
      }
    }
  }

  /** In a sequence without repeats the last element is not among the
      others. */
  lemma LastNotInInit<T>(s: seq<T>)
    requires s != []
    requires forall i, j :: 0 <= i < j < |s| ==> s[i] != s[j]
    ensures s[|s| - 1] !in s[..|s| - 1]
  {
    var init := s[..|s| - 1];
    forall j | 0 <= j < |init| ensures init[j] != s[|s| - 1] {
      assert init[j] == s[j];
    }
  }

  /** The index `Array.prototype.slice` uses for a relative position `i`
      into a sequence of length `n`. */
  function RelativeIndex(i: int, n: nat): (r: nat)
    ensures r <= n
    ensures 0 <= i <= n ==> r == i
    ensures i > n ==> r == n
    ensures i < 0 ==> r == if n + i < 0 then 0 else n + i
  {
    if i < 0 then (if n + i < 0 then 0 else n + i)
    else if i > n then n
    else i
  }

  /** `s.slice(start, end)`: negative positions count from the end, positions
      are clamped to the sequence, and an empty range gives `[]`. */
  function JsSlice<T>(s: seq<T>, start: int, end: int): (r: seq<T>)
    ensures |r| <= |s|
    ensures 0 <= start <= end <= |s| ==> r == s[start..end]
    ensures 0 <= start <= |s| <= end ==> r == s[start..]
    ensures 0 <= start && start >= |s| ==> r == []
    ensures 0 <= start && 0 <= end ==> |r| <= if end >= start then end - start else 0
    ensures forall x :: x in r ==> x in s
  {
    var a := RelativeIndex(start, |s|);
    var b := RelativeIndex(end, |s|);
    if a < b then s[a..b] else []
  }
}

=== FILE: stable_sort.dfy ===
/** A stable sort driven by a "must come before" relation, as
    `Array.prototype.sort(comparefn)` orders elements with `comparefn(x, y) < 0`.

    Section 23.1.3.30 of ECMA-262 (2024) requires the sort to be stable, and
    leaves the order implementation-defined when the comparator is not
    consistent. The model is a stable insertion sort: it always returns a
    permutation, and when the relation is a strict weak order on the elements
    it returns the sorted, stable order every conforming implementation must. */
module StableSort {
  import opened Seqs

  /** `lt` is a strict weak order on the elements of `u`: asymmetric, and
      "not before" is transitive. */
  ghost predicate StrictWeakOn<T>(u: seq<T>, lt: (T, T) -> bool) {
    && (forall a, b {:trigger Asymmetric(lt, a, b)} :: a in u && b in u ==> Asymmetric(lt, a, b))
    && (forall a, b, c {:trigger NotBeforeChains(lt, a, b, c)} ::
          a in u && b in u && c in u ==> NotBeforeChains(lt, a, b, c))
  }

  predicate Asymmetric<T>(lt: (T, T) -> bool, a: T, b: T) {
    lt(a, b) ==> !lt(b, a)
  }

  predicate NotBeforeChains<T>(lt: (T, T) -> bool, a: T, b: T, c: T) {
    !lt(a, b) && !lt(b, c) ==> !lt(a, c)
  }

  /** No element is placed before one that precedes it. */
  ghost predicate Sorted<T>(s: seq<T>, lt: (T, T) -> bool) {
    forall i, j :: 0 <= i < j < |s| ==> !lt(s[j], s[i])
  }

  /** Neither element must come before the other. */
  predicate Tied<T>(a: T, b: T, lt: (T, T) -> bool) {
    !lt(a, b) && !lt(b, a)
  }

  /** The elements tied with `e`, as a filter predicate. */
  function TiedWith<T>(e: T, lt: (T, T) -> bool): T -> bool {
    y => Tied(y, e, lt)
  }

  /** Inserts `x` after every element it need not precede. */
  function Insert<T>(x: T, s: seq<T>, lt: (T, T) -> bool): (r: seq<T>)
    ensures multiset(r) == multiset(s) + multiset{x}
    ensures |r| == |s| + 1
  {
    if s == [] then [x]
    else if lt(x, s[0]) then [x] + s
    else
      assert s == [s[0]] + s[1..];
      [s[0]] + Insert(x, s[1..], lt)
  }

  /** Inserts the elements one by one, in input order. */
  function Sort<T>(s: seq<T>, lt: (T, T) -> bool): (r: seq<T>)
    ensures multiset(r) == multiset(s)
    ensures |r| == |s|
  {
    if s == [] then []
    else
      assert s == s[..|s| - 1] + [s[|s| - 1]];
      Insert(s[|s| - 1], Sort(s[..|s| - 1], lt), lt)
  }

  lemma ElementsInMultiset<T>(a: seq<T>, b: seq<T>, u: seq<T>)
    requires multiset(a) <= multiset(b)
    requires forall y :: y in b ==> y in u
    ensures forall y :: y in a ==> y in u
  {
    forall y | y in a ensures y in u {
      assert y in multiset(a);
    }
  }

  lemma {:induction false} InsertSorted<T>(x: T, s: seq<T>, lt: (T, T) -> bool, u: seq<T>)
    requires StrictWeakOn(u, lt)
    requires x in u && forall y :: y in s ==> y in u
    requires Sorted(s, lt)
    ensures Sorted(Insert(x, s, lt), lt)
  {
    if s != [] {
      var r := Insert(x, s, lt);
      assert s[0] in u;
      if lt(x, s[0]) {
        BeforeAsymmetric(u, lt, x, s[0]);
        forall j | 0 <= j < |s| ensures !lt(s[j], x) {
          assert s[j] in s;
          if j > 0 {
            assert !lt(s[j], s[0]);
          } else {
            NotBeforeSelf(u, lt, s[0]);
          }
          NotBeforeTransitive(u, lt, s[j], s[0], x);
        }
        assert r == [x] + s;
      } else {
        var t := s[1..];
        assert forall y :: y in t ==> y in s;
        InsertSorted(x, t, lt, u);
        var r' := Insert(x, t, lt);
        assert r == [s[0]] + r';
        forall j | 0 <= j < |r'| ensures !lt(r'[j], s[0]) {
          assert r'[j] in multiset(r');
          assert r'[j] == x || r'[j] in t;
          if r'[j] != x {
            var k :| 0 <= k < |t| && t[k] == r'[j];
            assert s[k + 1] == r'[j];
          }
        }
      }
    }
  }

  lemma {:induction false} SortSortedIn<T>(s: seq<T>, lt: (T, T) -> bool, u: seq<T>)
    requires StrictWeakOn(u, lt)
    requires forall y :: y in s ==> y in u
    ensures Sorted(Sort(s, lt), lt)
  {
    if s != [] {
      var init := s[..|s| - 1];
      assert forall y :: y in init ==> y in s;
      SortSortedIn(init, lt, u);
      ElementsInMultiset(Sort(init, lt), init, u);
      assert s[|s| - 1] in s;
      InsertSorted(s[|s| - 1], Sort(init, lt), lt, u);
    }
  }

  lemma NotBeforeTransitive<T>(u: seq<T>, lt: (T, T) -> bool, a: T, b: T, c: T)
    requires StrictWeakOn(u, lt)
    requires a in u && b in u && c in u
    requires !lt(a, b) && !lt(b, c)
    ensures !lt(a, c)
  {
    assert NotBeforeChains(lt, a, b, c);
  }

  lemma NotBeforeSelf<T>(u: seq<T>, lt: (T, T) -> bool, a: T)
    requires StrictWeakOn(u, lt)
    requires a in u
    ensures !lt(a, a)
  {
    assert Asymmetric(lt, a, a);
  }

  lemma BeforeAsymmetric<T>(u: seq<T>, lt: (T, T) -> bool, a: T, b: T)
    requires StrictWeakOn(u, lt)
    requires a in u && b in u && lt(a, b)
    ensures !lt(b, a)
  {
    assert Asymmetric(lt, a, b);
  }

  /** Under a strict weak order, an element tied with `e` never precedes the
      head of a sorted list that `x`, also tied with `e`, precedes. */
  lemma TiedCannotFollow<T>(u: seq<T>, lt: (T, T) -> bool, x: T, e: T, y: T, h: T)
    requires StrictWeakOn(u, lt)
    requires x in u && e in u && y in u && h in u
    requires Tied(x, e, lt) && lt(x, h) && !lt(y, h)
    ensures !Tied(y, e, lt)
  {
    if Tied(y, e, lt) {
      NotBeforeTransitive(u, lt, x, e, y);
      NotBeforeTransitive(u, lt, x, y, h);
    }
  }

  /** When `x` goes in front of a sorted list, nothing in the list is tied
      with an `e` that `x` is tied with. */
  lemma InsertStableFront<T>(x: T, s: seq<T>, lt: (T, T) -> bool, u: seq<T>, e: T)
    requires StrictWeakOn(u, lt)
    requires x in u && e in u && forall y :: y in s ==> y in u
    requires Sorted(s, lt) && s != [] && lt(x, s[0])
    ensures Filter([x] + s, TiedWith(e, lt))
            == Filter(s, TiedWith(e, lt)) + (if Tied(x, e, lt) then [x] else [])
  {
    if Tied(x, e, lt) {
      forall j | 0 <= j < |s| ensures !TiedWith(e, lt)(s[j]) {
        FrontNotTied(x, s, lt, u, e, j);
      }
    }
    FrontFilter(x, s, TiedWith(e, lt));
  }

  /** Filtering `[x] + s` when nothing in `s` passes if `x` does. */
  lemma FrontFilter<T>(x: T, s: seq<T>, p: T -> bool)
    requires p(x) ==> forall j :: 0 <= j < |s| ==> !p(s[j])
    ensures Filter([x] + s, p) == Filter(s, p) + (if p(x) then [x] else [])
  {
    if p(x) {
      FilterNone(s, p);
    }
    FilterConcat([x], s, p);
    FilterSingleton(x, p);
  }

  lemma FrontNotTied<T>(x: T, s: seq<T>, lt: (T, T) -> bool, u: seq<T>, e: T, j: int)
    requires StrictWeakOn(u, lt)
    requires x in u && e in u && forall y :: y in s ==> y in u
    requires Sorted(s, lt) && 0 <= j < |s| && lt(x, s[0]) && Tied(x, e, lt)
    ensures !Tied(s[j], e, lt)
  {
    assert s[j] in s && s[0] in s;
    if j == 0 {
      NotBeforeSelf(u, lt, s[0]);
    } else {
      assert !lt(s[j], s[0]);
    }
    TiedCannotFollow(u, lt, x, e, s[j], s[0]);
  }

  lemma FilterSingleton<T>(x: T, p: T -> bool)
    ensures Filter([x], p) == if p(x) then [x] else []
  {
    assert [x][1..] == [];
  }

  lemma {:induction false} InsertStable<T>(x: T, s: seq<T>, lt: (T, T) -> bool, u: seq<T>, e: T)
    requires StrictWeakOn(u, lt)
    requires x in u && e in u && forall y :: y in s ==> y in u
    requires Sorted(s, lt)
    ensures Filter(Insert(x, s, lt), TiedWith(e, lt))
            == Filter(s, TiedWith(e, lt)) + (if Tied(x, e, lt) then [x] else [])
    decreases |s|, 1
  {
    if s == [] {
    } else if lt(x, s[0]) {
      assert Insert(x, s, lt) == [x] + s;
      InsertStableFront(x, s, lt, u, e);
    } else {
      InsertStableRest(x, s, lt, u, e);
    }
  }

  lemma {:induction false} InsertStableRest<T>(x: T, s: seq<T>, lt: (T, T) -> bool, u: seq<T>, e: T)
    requires StrictWeakOn(u, lt)
    requires x in u && e in u && forall y :: y in s ==> y in u
    requires Sorted(s, lt) && s != [] && !lt(x, s[0])
    ensures Filter(Insert(x, s, lt), TiedWith(e, lt))
            == Filter(s, TiedWith(e, lt)) + (if Tied(x, e, lt) then [x] else [])
    decreases |s|, 0
  {
    var t := s[1..];
    assert forall y :: y in t ==> y in s;
    assert Sorted(t, lt) by {
      forall i, j | 0 <= i < j < |t| ensures !lt(t[j], t[i]) {
        assert t[j] == s[j + 1] && t[i] == s[i + 1];
      }
    }
    InsertStable(x, t, lt, u, e);
    InsertRestFilter(x, s, lt, TiedWith(e, lt), if Tied(x, e, lt) then [x] else []);
  }

  /** The filter step behind `InsertStableRest`, as plain sequence algebra. */
  lemma InsertRestFilter<T>(x: T, s: seq<T>, lt: (T, T) -> bool, p: T -> bool, tail: seq<T>)
    requires s != [] && !lt(x, s[0])
    requires Filter(Insert(x, s[1..], lt), p) == Filter(s[1..], p) + tail
    ensures Filter(Insert(x, s, lt), p) == Filter(s, p) + tail
  {
    var t := s[1..];
    var i := Insert(x, t, lt);
    assert Insert(x, s, lt) == [s[0]] + i;
    assert s == [s[0]] + t;
    FilterConcat([s[0]], i, p);
    FilterConcat([s[0]], t, p);
    ConcatAssoc(Filter([s[0]], p), Filter(t, p), tail);
  }

  lemma ConcatAssoc<T>(a: seq<T>, b: seq<T>, c: seq<T>)
    ensures a + (b + c) == (a + b) + c
  {
  }

  lemma {:induction false} SortStableIn<T>(s: seq<T>, lt: (T, T) -> bool, u: seq<T>, e: T)
    requires StrictWeakOn(u, lt)
    requires e in u && forall y :: y in s ==> y in u
    ensures Filter(Sort(s, lt), TiedWith(e, lt)) == Filter(s, TiedWith(e, lt))
  {
    if s != [] {
      var p := TiedWith(e, lt);
      var init := s[..|s| - 1];
      var x := s[|s| - 1];
      var sortedInit := Sort(init, lt);
      var tail := if Tied(x, e, lt) then [x] else [];
      assert s == init + [x];
      assert forall y :: y in init ==> y in s;
      assert x in s;
      SortStableIn(init, lt, u, e);
      SortSortedIn(init, lt, u);
      ElementsInMultiset(sortedInit, init, u);
      InsertStable(x, sortedInit, lt, u, e);
      FilterConcat(init, [x], p);
      assert Filter([x], p) == tail;
      calc {
        Filter(Sort(s, lt), p);
        Filter(Insert(x, sortedInit, lt), p);
        Filter(sortedInit, p) + tail;
        Filter(init, p) + tail;
        Filter(s, p);
      }
    }
  }

  /** With a strict weak order, `Sort` returns a sorted permutation of its
      input in which every group of tied elements keeps its input order. */
  lemma SortCorrect<T>(s: seq<T>, lt: (T, T) -> bool)
    requires StrictWeakOn(s, lt)
    ensures multiset(Sort(s, lt)) == multiset(s)
    ensures Sorted(Sort(s, lt), lt)
    ensures forall e :: e in s ==> Filter(Sort(s, lt), TiedWith(e, lt)) == Filter(s, TiedWith(e, lt))
  {
    SortSortedIn(s, lt, s);
    forall e | e in s
      ensures Filter(Sort(s, lt), TiedWith(e, lt)) == Filter(s, TiedWith(e, lt))
    {
      SortStableIn(s, lt, s, e);
    }
  }
}

=== FILE: table_slice.dfy ===
/** The table store (`src/store/slices/tableSlice.ts`): the state record, the
    demo data set, one function per reducer, the `Action` union the UI
    dispatches and `Reduce`, which applies an action the way the slice does.

    Redux reducers are total and synchronous, so each reducer is a pure
    function from the old state (and its payload) to the new state. */
module TableSlice {
  import opened Wrappers
  import opened JsText
  import opened Seqs
  import opened Rows

  datatype SortOrder = Asc | Desc

  /** `importErrors` is `None` when an import action carried no `errors`
      field, which leaves `undefined` in the store. */
  datatype TableState = TableState(
    data: seq<Row>,
    columns: seq<Column>,
    sortBy: Option<string>,
    sortOrder: SortOrder,
    searchTerm: string,
    currentPage: int,
    rowsPerPage: int,
    importErrors: Option<seq<string>>,
    hasImportedData: bool)

  // ---------------------------------------------------------------- demo data

  /** The four seed columns, all visible and sortable. */
  const DefaultColumns: seq<Column> := [
    Column("name", "Name", true, true),
    Column("email", "Email", true, true),
    Column("age", "Age", true, true),
    Column("role", "Role", true, true)
  ]

  function DemoRow(id: int, name: string, email: string, age: int, role: string): Row {
    [Field("id", Num(id)), Field("name", Str(name)), Field("email", Str(email)),
     Field("age", Num(age)), Field("role", Str(role))]
  }

  /** The twelve sample rows shown before any import. */
  const SampleData: seq<Row> := [
    DemoRow(1, "John Doe", "john@example.com", 30, "Developer"),
    DemoRow(2, "Jane Smith", "jane@example.com", 25, "Designer"),
    DemoRow(3, "Bob Johnson", "bob@example.com", 35, "Manager"),
    DemoRow(4, "Alice Brown", "alice@example.com", 28, "Developer"),
    DemoRow(5, "Charlie Wilson", "charlie@example.com", 32, "Analyst"),
    DemoRow(6, "Diana Lee", "diana@example.com", 29, "Designer"),
    DemoRow(7, "Eva Martinez", "eva@example.com", 26, "Developer"),
    DemoRow(8, "Frank Chen", "frank@example.com", 31, "Manager"),
    DemoRow(9, "Grace Kim", "grace@example.com", 27, "Analyst"),
    DemoRow(10, "Henry Taylor", "henry@example.com", 33, "Developer"),
    DemoRow(11, "Ivy Thompson", "ivy@example.com", 24, "Designer"),
    DemoRow(12, "Jack Anderson", "jack@example.com", 36, "Manager")
  ]

  const InitialState: TableState := TableState(
    SampleData, DefaultColumns, None, Asc, "", 0, 10, Some([]), false)

  /** The view state every import and reset restores: first page, no search,
      no sort key, ascending. */
  predicate ViewReset(s: TableState) {
    s.currentPage == 0 && s.searchTerm == "" && s.sortBy == None && s.sortOrder == Asc
  }

  // ---------------------------------------------------------------- rows

  function RowId(r: Row): Value {
    Get(r, "id")
  }

  /** `i` is the index `data.findIndex(row => row.id === id)` returns. */
  predicate IsFirstWithId(data: seq<Row>, id: Value, i: int) {
    0 <= i < |data| && RowId(data[i]) == id && forall k :: 0 <= k < i ==> RowId(data[k]) != id
  }

  function FindRowIndex(data: seq<Row>, id: Value): (r: Option<nat>)
    ensures r.Some? ==> IsFirstWithId(data, id, r.value)
    ensures r.None? ==> forall k :: 0 <= k < |data| ==> RowId(data[k]) != id
  {
    if data == [] then None
    else if RowId(data[0]) == id then Some(0)
    else match FindRowIndex(data[1..], id)
      case None => None
      case Some(i) => Some(i + 1)
  }

  /** `updateRow`: the first row whose id is `id` gets the patch merged in;
      every other row is untouched, and nothing changes when no row matches. */
  function UpdateRowData(data: seq<Row>, id: Value, patch: Row): (r: seq<Row>)
    ensures |r| == |data|
    ensures forall j :: 0 <= j < |data| ==>
              r[j] == if IsFirstWithId(data, id, j) then Merge(data[j], patch) else data[j]
  {
    match FindRowIndex(data, id)
    case None => data
    case Some(i) => data[i := Merge(data[i], patch)]
  }

  function HasIdOtherThan(id: Value): Row -> bool {
    (row: Row) => RowId(row) != id
  }

  /** `deleteRow`: every row whose id is `id` is removed, the others are kept
      in their order. */
  function DeleteRowData(data: seq<Row>, id: Value): (r: seq<Row>)
    ensures forall j :: 0 <= j < |r| ==> RowId(r[j]) != id
    ensures forall row :: row in r <==> row in data && RowId(row) != id
    ensures IsSubsequence(r, data)
    ensures forall row :: multiset(r)[row] == if RowId(row) != id then multiset(data)[row] else 0
  {
    var p := HasIdOtherThan(id);
    FilterIsSubsequence(data, p);
    forall row ensures multiset(Filter(data, p))[row] == if RowId(row) != id then multiset(data)[row] else 0 {
      FilterCount(data, p, row);
    }
    forall row ensures row in Filter(data, p) <==> row in data && RowId(row) != id {
      FilterMembership(data, p, row);
    }
    Filter(data, p)
  }

  // ---------------------------------------------------------------- columns

  function FindColumnIndex(cols: seq<Column>, key: string): (r: Option<nat>)
    ensures r.Some? ==> r.value < |cols| && cols[r.value].key == key
                        && forall k :: 0 <= k < r.value ==> cols[k].key != key
    ensures r.None? ==> forall k :: 0 <= k < |cols| ==> cols[k].key != key
  {
    if cols == [] then None
    else if cols[0].key == key then Some(0)
    else match FindColumnIndex(cols[1..], key)
      case None => None
      case Some(i) => Some(i + 1)
  }

  /** `toggleColumnVisibility`: the first column with the key flips its
      visibility; all keys, captions and other columns stay as they were. */
  function ToggleColumn(cols: seq<Column>, key: string): (r: seq<Column>)
    ensures |r| == |cols|
    ensures forall j :: 0 <= j < |cols| ==>
              r[j].key == cols[j].key && r[j].caption == cols[j].caption
              && r[j].sortable == cols[j].sortable
    ensures forall j :: 0 <= j < |cols| ==>
              (r[j].visible != cols[j].visible
               <==> cols[j].key == key && forall k :: 0 <= k < j ==> cols[k].key != key)
  {
    match FindColumnIndex(cols, key)
    case None => cols
    case Some(i) => cols[i := cols[i].(visible := !cols[i].visible)]
  }

  /** Toggling the same column twice restores the column list. */
  lemma ToggleTwice(cols: seq<Column>, key: string)
    ensures ToggleColumn(ToggleColumn(cols, key), key) == cols
  {
    var once := ToggleColumn(cols, key);
    var twice := ToggleColumn(once, key);
    forall j | 0 <= j < |cols| ensures twice[j] == cols[j] {
    }
  }

  /** `addColumn`: a visible, sortable column is appended unless the key is
      already taken, so key uniqueness is kept. */
  function AddColumnTo(cols: seq<Column>, key: string, caption: string): (r: seq<Column>)
    ensures key in ColumnKeys(r)
    ensures key in ColumnKeys(cols) ==> r == cols
    ensures key !in ColumnKeys(cols) ==> r == cols + [Column(key, caption, true, true)]
    ensures UniqueColumnKeys(cols) ==> UniqueColumnKeys(r)
  {
    match FindColumnIndex(cols, key)
    case Some(i) =>
      assert ColumnKeys(cols)[i] == key;
      cols
    case None =>
      ColumnKeysMembership(cols, key);
      var r := cols + [Column(key, caption, true, true)];
      assert ColumnKeys(r)[|cols|] == key;
      r
  }

  function KeyIsNot(key: string): Column -> bool {
    (c: Column) => c.key != key
  }

  /** `removeColumn`: every column with the key goes, the other columns keep
      their order, and the property is deleted from every row. */
  function RemoveColumnFrom(s: TableState, key: string): (r: TableState)
    ensures key !in ColumnKeys(r.columns)
    ensures forall c :: c in r.columns <==> c in s.columns && c.key != key
    ensures IsSubsequence(r.columns, s.columns)
    ensures forall c :: multiset(r.columns)[c] == if c.key != key then multiset(s.columns)[c] else 0
    ensures |r.data| == |s.data|
    ensures forall i :: 0 <= i < |r.data| ==>
              key !in KeysOf(r.data[i])
              && forall k :: k != key ==> Get(r.data[i], k) == Get(s.data[i], k)
    ensures r == s.(columns := r.columns, data := r.data)
  {
    var cols := Filter(s.columns, KeyIsNot(key));
    FilterIsSubsequence(s.columns, KeyIsNot(key));
    forall c ensures c in cols <==> c in s.columns && c.key != key {
      FilterMembership(s.columns, KeyIsNot(key), c);
    }
    forall c ensures multiset(cols)[c] == if c.key != key then multiset(s.columns)[c] else 0 {
      FilterCount(s.columns, KeyIsNot(key), c);
    }
    ColumnKeysMembership(cols, key);
    var data := seq(|s.data|, i requires 0 <= i < |s.data| => Delete(s.data[i], key));
    s.(columns := cols, data := data)
  }

  // ---------------------------------------------------------------- import

  /** `key.charAt(0).toUpperCase() + key.slice(1).replace(/([A-Z])/g, ' $1')`. */
  function Humanize(key: string): (caption: string)
    ensures key == "" <==> caption == ""
    ensures key != "" ==> caption[0] == UpperChar(key[0])
  {
    if key == "" then "" else [UpperChar(key[0])] + SpaceBeforeCaps(key[1..])
  }

  /** Inserts a space before every ASCII capital. */
  function SpaceBeforeCaps(s: string): (r: string)
    ensures |r| >= |s|
  {
    if s == [] then []
    else (if IsUpperAscii(s[0]) then [' ', s[0]] else [s[0]]) + SpaceBeforeCaps(s[1..])
  }

  function RemoveSpaces(s: string): (r: string)
    ensures ' ' !in r
  {
    if s == [] then []
    else (if s[0] == ' ' then [] else [s[0]]) + RemoveSpaces(s[1..])
  }

  /** Removing the inserted spaces gives the text back when it had none. */
  lemma {:induction false} SpaceBeforeCapsRoundTrip(s: string)
    requires ' ' !in s
    ensures RemoveSpaces(SpaceBeforeCaps(s)) == s
  {
    if s != [] {
      SpaceBeforeCapsRoundTrip(s[1..]);
      var head := if IsUpperAscii(s[0]) then [' ', s[0]] else [s[0]];
      RemoveSpacesConcat(head, SpaceBeforeCaps(s[1..]));
      assert s == [s[0]] + s[1..];
    }
  }

  lemma {:induction false} RemoveSpacesConcat(a: string, b: string)
    ensures RemoveSpaces(a + b) == RemoveSpaces(a) + RemoveSpaces(b)
  {
    if a != [] {
      assert (a + b)[1..] == a[1..] + b;
      RemoveSpacesConcat(a[1..], b);
    } else {
      assert a + b == b;
    }
  }

  /** Every capital in the inserted text directly follows a space. */
  lemma {:induction false} SpaceBeforeCapsSpaced(s: string)
    ensures forall i :: 0 <= i < |SpaceBeforeCaps(s)| && IsUpperAscii(SpaceBeforeCaps(s)[i])
              ==> i > 0 && SpaceBeforeCaps(s)[i - 1] == ' '
  {
    if s != [] {
      SpaceBeforeCapsSpaced(s[1..]);
    }
  }

  /** A camel-case key whose first letter is lower-case is recovered from its
      label by lower-casing the first letter and dropping the spaces. */
  lemma HumanizeRoundTrip(key: string)
    requires key != "" && 'a' <= key[0] <= 'z' && ' ' !in key
    ensures [LowerChar(Humanize(key)[0])] + RemoveSpaces(Humanize(key)[1..]) == key
  {
    var t := key[1..];
    NoSpaceInTail(key);
    HumanizeParts(key);
    SpaceBeforeCapsRoundTrip(t);
    LowerUpper(key[0]);
    assert key == [key[0]] + t;
  }

  lemma NoSpaceInTail(key: string)
    requires key != "" && ' ' !in key
    ensures ' ' !in key[1..]
  {
    forall i | 0 <= i < |key| - 1 ensures key[1..][i] != ' ' {
      assert key[1..][i] == key[i + 1];
    }
  }

  lemma HumanizeParts(key: string)
    requires key != ""
    ensures Humanize(key)[0] == UpperChar(key[0])
    ensures Humanize(key)[1..] == SpaceBeforeCaps(key[1..])
  {
    var h := Humanize(key);
    assert h == [UpperChar(key[0])] + SpaceBeforeCaps(key[1..]);
  }

  lemma LowerUpper(c: char)
    requires 'a' <= c <= 'z'
    ensures LowerChar(UpperChar(c)) == c
  {
  }

  lemma HumanizeName()
    ensures Humanize("name") == "Name"
  {
  }

  lemma HumanizeFirstName()
    ensures Humanize("firstName") == "First Name"
  {
    assert "firstName"[1..] == "irst" + ("N" + "ame");
    assert "F" + ("irst" + (" N" + "ame")) == "First Name";
    SpaceBeforeCapsConcat("irst", "N" + "ame");
    SpaceBeforeCapsConcat("N", "ame");
    SpaceBeforeCapsLower("irst");
    SpaceBeforeCapsLower("ame");
    assert SpaceBeforeCaps("N") == " N";
  }

  lemma {:induction false} SpaceBeforeCapsConcat(a: string, b: string)
    ensures SpaceBeforeCaps(a + b) == SpaceBeforeCaps(a) + SpaceBeforeCaps(b)
  {
    if a == [] {
      assert a + b == b;
    } else {
      assert (a + b)[0] == a[0] && (a + b)[1..] == a[1..] + b;
      SpaceBeforeCapsConcat(a[1..], b);
    }
  }

  /** Text without capitals is left as it is. */
  lemma {:induction false} SpaceBeforeCapsLower(s: string)
    requires forall i :: 0 <= i < |s| ==> 'a' <= s[i] <= 'z'
    ensures SpaceBeforeCaps(s) == s
  {
    if s != [] {
      SpaceBeforeCapsLower(s[1..]);
      assert s == [s[0]] + s[1..];
    }
  }

  predicate NoDuplicates(ks: seq<string>) {
    forall i, j :: 0 <= i < j < |ks| ==> ks[i] != ks[j]
  }

  /** Adds the keys of `ks` that `acc` lacks, in order, as inserting them into
      a JavaScript `Set` does. */
  function AddNew(acc: seq<string>, ks: seq<string>): (r: seq<string>)
    ensures acc <= r
    ensures NoDuplicates(acc) ==> NoDuplicates(r)
    ensures forall k :: k in r <==> k in acc || k in ks
    decreases |ks|
  {
    if ks == [] then acc
    else
      var acc' := if ks[0] in acc then acc else acc + [ks[0]];
      assert forall k :: k in ks <==> k == ks[0] || k in ks[1..];
      AddNew(acc', ks[1..])
  }

  /** Some row of `rows` has the property `k`. */
  predicate KeyOfSomeRow(rows: seq<Row>, k: string) {
    exists i :: 0 <= i < |rows| && k in KeysOf(rows[i])
  }

  lemma KeyOfSomeRowSnoc(init: seq<Row>, last: Row, k: string)
    ensures KeyOfSomeRow(init + [last], k) <==> KeyOfSomeRow(init, k) || k in KeysOf(last)
  {
    var rows := init + [last];
    if KeyOfSomeRow(rows, k) {
      var i :| 0 <= i < |rows| && k in KeysOf(rows[i]);
      if i < |init| {
        assert init[i] == rows[i];
      }
    }
    if KeyOfSomeRow(init, k) {
      var i :| 0 <= i < |init| && k in KeysOf(init[i]);
      assert rows[i] == init[i];
    }
    if k in KeysOf(last) {
      assert rows[|init|] == last;
    }
  }

  /** `new Set` of every key of every row, in order of first appearance. */
  function AllKeys(rows: seq<Row>): (ks: seq<string>)
    ensures NoDuplicates(ks)
    ensures forall k :: k in ks <==> KeyOfSomeRow(rows, k)
  {
    if rows == [] then []
    else
      var init := rows[..|rows| - 1];
      var last := rows[|rows| - 1];
      assert rows == init + [last];
      forall k ensures KeyOfSomeRow(rows, k) <==> KeyOfSomeRow(init, k) || k in KeysOf(last) {
        KeyOfSomeRowSnoc(init, last, k);
      }
      AddNew(AllKeys(init), KeysOf(last))
  }

  /** Later rows only add keys after the ones already seen. */
  lemma {:induction false} AllKeysPrefix(rows: seq<Row>, more: seq<Row>)
    ensures AllKeys(rows) <= AllKeys(rows + more)
    decreases |more|
  {
    if more == [] {
      assert rows + more == rows;
    } else {
      var all := rows + more;
      var init := more[..|more| - 1];
      assert all[..|all| - 1] == rows + init;
      AllKeysPrefix(rows, init);
      assert AllKeys(all) == AddNew(AllKeys(rows + init), KeysOf(all[|all| - 1]));
    }
  }

  /** The column an import creates for a key. */
  function NewColumn(key: string): (c: Column)
    ensures c.key == key && c.visible && c.sortable
  {
    Column(key, Humanize(key), true, true)
  }

  function ColumnsFor(keys: seq<string>): (cols: seq<Column>)
    ensures |cols| == |keys|
    ensures ColumnKeys(cols) == keys
    ensures forall i :: 0 <= i < |keys| ==> cols[i] == NewColumn(keys[i])
  {
    seq(|keys|, i requires 0 <= i < |keys| => NewColumn(keys[i]))
  }

  function NotId(k: string): bool {
    k != "id"
  }

  /** The columns `importData` infers: one visible, sortable, humanised column
      per distinct non-`id` key, in order of first appearance. */
  function InferColumns(rows: seq<Row>): (cols: seq<Column>)
    ensures ColumnKeys(cols) == Filter(AllKeys(rows), NotId)
    ensures UniqueColumnKeys(cols)
    ensures forall k :: k in ColumnKeys(cols) <==>
              k != "id" && KeyOfSomeRow(rows, k)
    ensures forall i :: 0 <= i < |cols| ==>
              cols[i].visible && cols[i].sortable && cols[i].caption == Humanize(cols[i].key)
  {
    var keys := Filter(AllKeys(rows), NotId);
    forall k ensures k in keys <==> k in AllKeys(rows) && NotId(k) {
      FilterMembership(AllKeys(rows), NotId, k);
    }
    FilterNoDuplicates(AllKeys(rows), NotId);
    ColumnsFor(keys)
  }

  lemma {:induction false} FilterNoDuplicates(ks: seq<string>, p: string -> bool)
    requires NoDuplicates(ks)
    ensures NoDuplicates(Filter(ks, p))
  {
    if ks != [] {
      FilterNoDuplicates(ks[1..], p);
      FilterMembership(ks[1..], p, ks[0]);
      assert ks[0] !in ks[1..];
    }
  }

  function ColumnKeyNotIn(keys: seq<string>): Column -> bool {
    (c: Column) => c.key !in keys
  }

  /** `importData`: an empty payload only stores `errors`; otherwise the rows
      and inferred columns replace the table (when `replaceExisting`, which
      defaults to true, or when nothing was imported before) or are appended
      to it, adding only columns whose key is new; the view state is reset. */
  function ImportData(s: TableState, data: seq<Row>, errors: Option<seq<string>>,
                      replaceExisting: Option<bool>): (r: TableState)
    ensures r.importErrors == errors
    ensures data == [] ==> r == s.(importErrors := errors)
    ensures data != [] ==> ViewReset(r) && r.rowsPerPage == s.rowsPerPage
    ensures data != [] && (replaceExisting.GetOr(true) || !s.hasImportedData) ==>
              r.data == data && r.columns == InferColumns(data) && r.hasImportedData
    ensures data != [] && !(replaceExisting.GetOr(true) || !s.hasImportedData) ==>
              && r.data == s.data + data
              && r.columns == s.columns + Filter(InferColumns(data), ColumnKeyNotIn(ColumnKeys(s.columns)))
              && r.hasImportedData == s.hasImportedData
  {
    if |data| > 0 then
      var newColumns := InferColumns(data);
      var s' :=
        if replaceExisting.GetOr(true) || !s.hasImportedData then
          s.(data := data, columns := newColumns, hasImportedData := true)
        else
          var columnsToAdd := Filter(newColumns, ColumnKeyNotIn(ColumnKeys(s.columns)));
          s.(data := s.data + data, columns := s.columns + columnsToAdd);
      s'.(currentPage := 0, searchTerm := "", sortBy := None, sortOrder := Asc, importErrors := errors)
    else
      s.(importErrors := errors)
  }

  /** Appending keeps column keys unique: only keys not already present are
      added, and the inferred ones are unique among themselves. */
  lemma AppendedColumnsUnique(cols: seq<Column>, rows: seq<Row>)
    requires UniqueColumnKeys(cols)
    ensures UniqueColumnKeys(cols + Filter(InferColumns(rows), ColumnKeyNotIn(ColumnKeys(cols))))
  {
    var inferred := InferColumns(rows);
    var p := ColumnKeyNotIn(ColumnKeys(cols));
    var added := Filter(inferred, p);
    var all := cols + added;
    FilterUniqueColumns(inferred, p);
    forall i, j | 0 <= i < j < |all| ensures all[i].key != all[j].key {
      if j >= |cols| && i < |cols| {
        assert p(added[j - |cols|]);
        assert all[i].key in ColumnKeys(cols) by {
          assert ColumnKeys(cols)[i] == all[i].key;
        }
      }
    }
  }

  lemma {:induction false} FilterUniqueColumns(cols: seq<Column>, p: Column -> bool)
    requires UniqueColumnKeys(cols)
    ensures UniqueColumnKeys(Filter(cols, p))
  {
    if cols != [] {
      FilterUniqueColumns(cols[1..], p);
      var rest := Filter(cols[1..], p);
      if p(cols[0]) {
        forall j | 0 <= j < |rest| ensures rest[j].key != cols[0].key {
          assert rest[j] in multiset(rest);
          assert rest[j] in cols[1..];
        }
      }
    }
  }

  /** `appendData`'s column discovery for one row: a key gets a column when it
      is not `id`, no existing column has it and it was not added already. */
  function AppendRowColumns(existing: seq<string>, added: seq<Column>, ks: seq<string>): (r: seq<Column>)
    ensures added <= r
    decreases |ks|
  {
    if ks == [] then added
    else
      var k := ks[0];
      var added' :=
        if k != "id" && k !in existing && k !in ColumnKeys(added) then added + [NewColumn(k)]
        else added;
      AppendRowColumns(existing, added', ks[1..])
  }

  /** `appendData`'s column discovery over all rows, in order. */
  function AppendColumns(existing: seq<string>, rows: seq<Row>): seq<Column> {
    if rows == [] then []
    else AppendRowColumns(existing, AppendColumns(existing, rows[..|rows| - 1]), KeysOf(rows[|rows| - 1]))
  }

  /** `appendData`: always appends rows, adds columns for keys not seen yet,
      marks the data as imported and leaves the page, page size, search and
      sort as they were; an empty payload only stores `errors`. */
  function AppendData(s: TableState, data: seq<Row>, errors: seq<string>): (r: TableState)
    ensures r.importErrors == Some(errors)
    ensures data == [] ==> r == s.(importErrors := Some(errors))
    ensures data != [] ==> r.data == s.data + data && r.hasImportedData
    ensures data != [] ==> s.columns <= r.columns
    ensures r.currentPage == s.currentPage && r.searchTerm == s.searchTerm
    ensures r.sortBy == s.sortBy && r.sortOrder == s.sortOrder
    ensures r.rowsPerPage == s.rowsPerPage
    ensures data != [] ==>
              r == s.(data := s.data + data, columns := r.columns, hasImportedData := true,
                      importErrors := Some(errors))
  {
    if |data| > 0 then
      var newColumns := AppendColumns(ColumnKeys(s.columns), data);
      s.(data := s.data + data, columns := s.columns + newColumns, hasImportedData := true,
         importErrors := Some(errors))
    else
      s.(importErrors := Some(errors))
  }

  function NotIn(existing: seq<string>): string -> bool {
    k => k !in existing
  }

  function Keeps(existing: seq<string>): string -> bool {
    k => k != "id" && k !in existing
  }

  /** The step both discoveries take for one key `k`. */
  lemma AppendKeyStep(existing: seq<string>, seen: seq<string>, k: string)
    ensures var p := Keeps(existing);
            var added := ColumnsFor(Filter(seen, p));
            var seen' := if k in seen then seen else seen + [k];
            ColumnsFor(Filter(seen', p))
            == if k != "id" && k !in existing && k !in ColumnKeys(added) then added + [NewColumn(k)] else added
  {
    var p := Keeps(existing);
    var f := Filter(seen, p);
    assert ColumnKeys(ColumnsFor(f)) == f;
    FilterMembership(seen, p, k);
    if k !in seen {
      if p(k) {
        AppendKeyNew(seen, p, k);
      } else {
        assert Filter(seen + [k], p) == f by {
          FilterConcat(seen, [k], p);
        }
      }
    }
  }

  lemma AppendKeyNew(seen: seq<string>, p: string -> bool, k: string)
    requires p(k)
    ensures ColumnsFor(Filter(seen + [k], p)) == ColumnsFor(Filter(seen, p)) + [NewColumn(k)]
  {
    var f := Filter(seen, p);
    FilterConcat(seen, [k], p);
    assert Filter([k], p) == [k];
    ColumnsForSnoc(f, k);
  }

  lemma ColumnsForSnoc(keys: seq<string>, k: string)
    ensures ColumnsFor(keys + [k]) == ColumnsFor(keys) + [NewColumn(k)]
  {
    var a := ColumnsFor(keys + [k]);
    var b := ColumnsFor(keys) + [NewColumn(k)];
    assert |a| == |b|;
    forall i | 0 <= i < |a| ensures a[i] == b[i] {
      if i < |keys| {
        assert (keys + [k])[i] == keys[i];
      }
    }
  }

  /** One row of `appendData`'s discovery adds exactly the keys that the
      `Set` of `importData` gains from that row and that pass the filter. */
  lemma {:induction false} AppendRowColumnsAgree(existing: seq<string>, seen: seq<string>, ks: seq<string>)
    ensures AppendRowColumns(existing, ColumnsFor(Filter(seen, Keeps(existing))), ks)
            == ColumnsFor(Filter(AddNew(seen, ks), Keeps(existing)))
    decreases |ks|
  {
    if ks != [] {
      var k := ks[0];
      var seen' := if k in seen then seen else seen + [k];
      AppendKeyStep(existing, seen, k);
      AppendRowColumnsAgree(existing, seen', ks[1..]);
    }
  }

  /** `appendData` finds the same new columns, in the same order, as the
      append branch of `importData`. */
  lemma {:induction false} AppendColumnsAgree(existing: seq<string>, rows: seq<Row>)
    ensures AppendColumns(existing, rows) == ColumnsFor(Filter(AllKeys(rows), Keeps(existing)))
  {
    if rows != [] {
      var init := rows[..|rows| - 1];
      AppendColumnsAgree(existing, init);
      AppendRowColumnsAgree(existing, AllKeys(init), KeysOf(rows[|rows| - 1]));
    }
  }

  lemma {:induction false} FilterColumnsFor(keys: seq<string>, existing: seq<string>)
    ensures Filter(ColumnsFor(keys), ColumnKeyNotIn(existing)) == ColumnsFor(Filter(keys, NotIn(existing)))
  {
    if keys != [] {
      var p := ColumnKeyNotIn(existing);
      var q := NotIn(existing);
      var t := keys[1..];
      assert keys == [keys[0]] + t;
      ColumnsForCons(keys[0], t);
      var cols := ColumnsFor(keys);
      assert cols[0] == NewColumn(keys[0]) && cols[1..] == ColumnsFor(t);
      FilterColumnsFor(t, existing);
      assert Filter(cols, p) == (if p(cols[0]) then [cols[0]] else []) + Filter(ColumnsFor(t), p);
      assert Filter(keys, q) == (if q(keys[0]) then [keys[0]] else []) + Filter(t, q);
      if keys[0] !in existing {
        ColumnsForCons(keys[0], Filter(t, q));
      }
    }
  }

  lemma ColumnsForCons(k: string, rest: seq<string>)
    ensures ColumnsFor([k] + rest) == [NewColumn(k)] + ColumnsFor(rest)
  {
    var a := ColumnsFor([k] + rest);
    var b := [NewColumn(k)] + ColumnsFor(rest);
    assert |a| == |b|;
    forall i | 0 <= i < |a| ensures a[i] == b[i] {
      if i > 0 {
        assert ([k] + rest)[i] == rest[i - 1];
      }
    }
  }

  /** The columns `appendData` adds are those the append branch of
      `importData` adds. */
  lemma AppendDataMatchesImportAppend(s: TableState, data: seq<Row>, errors: seq<string>)
    requires data != []
    ensures AppendData(s, data, errors).columns
            == s.columns + Filter(InferColumns(data), ColumnKeyNotIn(ColumnKeys(s.columns)))
  {
    var existing := ColumnKeys(s.columns);
    var all := AllKeys(data);
    AppendColumnsAgree(existing, data);
    FilterColumnsFor(Filter(all, NotId), existing);
    FilterFilter2(all, existing);
  }

  lemma FilterFilter2(all: seq<string>, existing: seq<string>)
    ensures Filter(Filter(all, NotId), NotIn(existing)) == Filter(all, Keeps(existing))
  {
    if all != [] {
      FilterFilter2(all[1..], existing);
      var rest := Filter(all[1..], NotId);
      if NotId(all[0]) {
        assert ([all[0]] + rest)[1..] == rest;
      }
    }
  }

  // ---------------------------------------------------------------- resets

  /** `clearAllData`: no rows, no columns, view reset, not imported;
      `importErrors` and `rowsPerPage` are kept. */
  function ClearAllData(s: TableState): (r: TableState)
    ensures r.data == [] && r.columns == [] && !r.hasImportedData && ViewReset(r)
    ensures r.importErrors == s.importErrors && r.rowsPerPage == s.rowsPerPage
  {
    s.(data := [], columns := [], currentPage := 0, searchTerm := "", sortBy := None,
       sortOrder := Asc, hasImportedData := false)
  }

  /** `resetToDemo`: the twelve sample rows and four seed columns, view reset,
      not imported, no import errors; `rowsPerPage` is kept. */
  function ResetToDemo(s: TableState): (r: TableState)
    ensures r.data == SampleData && r.columns == DefaultColumns
    ensures !r.hasImportedData && ViewReset(r) && r.importErrors == Some([])
    ensures r.rowsPerPage == s.rowsPerPage
  {
    s.(data := SampleData, columns := DefaultColumns, currentPage := 0, searchTerm := "",
       sortBy := None, sortOrder := Asc, hasImportedData := false, importErrors := Some([]))
  }

  // ---------------------------------------------------------------- actions

  datatype Action =
    | SetData(rows: seq<Row>)
    | AddRow(row: Row)
    | UpdateRow(id: Value, patch: Row)
    | DeleteRow(rowId: Value)
    | ToggleColumnVisibility(toggleKey: string)
    | AddColumn(key: string, caption: string)
    | RemoveColumn(removeKey: string)
    | ReorderColumns(columns: seq<Column>)
    | SetSortBy(sortKey: string)
    | SetSortOrder(order: SortOrder)
    | SetSearchTerm(term: string)
    | SetPage(page: int)
    | SetRowsPerPage(perPage: int)
    | ImportDataAction(importRows: seq<Row>, errors: Option<seq<string>>, replaceExisting: Option<bool>)
    | AppendDataAction(appendRows: seq<Row>, appendErrors: seq<string>)
    | ClearImportErrors
    | ClearAll
    | ResetDemo

  /** The slice reducer: applies one action. */
  function Reduce(s: TableState, a: Action): TableState {
    match a
    case SetData(rows) => s.(data := rows)
    case AddRow(row) => s.(data := s.data + [row])
    case UpdateRow(id, patch) => s.(data := UpdateRowData(s.data, id, patch))
    case DeleteRow(id) => s.(data := DeleteRowData(s.data, id))
    case ToggleColumnVisibility(key) => s.(columns := ToggleColumn(s.columns, key))
    case AddColumn(key, caption) => s.(columns := AddColumnTo(s.columns, key, caption))
    case RemoveColumn(key) => RemoveColumnFrom(s, key)
    case ReorderColumns(cols) => s.(columns := cols)
    case SetSortBy(key) => s.(sortBy := Some(key))
    case SetSortOrder(order) => s.(sortOrder := order)
    case SetSearchTerm(term) => s.(searchTerm := term)
    case SetPage(page) => s.(currentPage := page)
    case SetRowsPerPage(n) => s.(rowsPerPage := n, currentPage := 0)
    case ImportDataAction(rows, errors, replace) => ImportData(s, rows, errors, replace)
    case AppendDataAction(rows, errors) => AppendData(s, rows, errors)
    case ClearImportErrors => s.(importErrors := Some([]))
    case ClearAll => ClearAllData(s)
    case ResetDemo => ResetToDemo(s)
  }

  /** The view actions set exactly their own field (`setRowsPerPage` also
      returns to the first page), and `addRow` appends the row. */
  lemma ReduceSimpleActions(s: TableState, a: Action)
    ensures var r := Reduce(s, a);
            && (a.SetRowsPerPage? ==> r == s.(rowsPerPage := a.perPage, currentPage := 0))
            && (a.SetPage? ==> r == s.(currentPage := a.page))
            && (a.SetSortBy? ==> r == s.(sortBy := Some(a.sortKey)))
            && (a.SetSortOrder? ==> r == s.(sortOrder := a.order))
            && (a.SetSearchTerm? ==> r == s.(searchTerm := a.term))
            && (a.AddRow? ==> r == s.(data := s.data + [a.row]))
  {
    match a
    case SetRowsPerPage(_) =>
    case SetPage(_) =>
    case SetSortBy(_) =>
    case SetSortOrder(_) =>
    case SetSearchTerm(_) =>
    case AddRow(_) =>
    case _ =>
  }

  /** The column actions: `addColumn`, `removeColumn` and
      `toggleColumnVisibility` change only what their helpers change. */
  lemma ReduceColumnActions(s: TableState, a: Action)
    ensures var r := Reduce(s, a);
            && (a.AddColumn? ==> r == s.(columns := AddColumnTo(s.columns, a.key, a.caption)))
            && (a.RemoveColumn? ==> r == RemoveColumnFrom(s, a.removeKey))
            && (a.ToggleColumnVisibility? ==> r == s.(columns := ToggleColumn(s.columns, a.toggleKey)))
  {
    match a
    case AddColumn(_, _) =>
    case RemoveColumn(_) =>
    case ToggleColumnVisibility(_) =>
    case _ =>
  }

  /** Dispatches the actions in order. */
  function ReduceAll(s: TableState, actions: seq<Action>): TableState
    decreases |actions|
  {
    if actions == [] then s else ReduceAll(Reduce(s, actions[0]), actions[1..])
  }

  lemma ReduceAllOne(a: Action)
    ensures forall s :: ReduceAll(s, [a]) == Reduce(s, a)
  {
    forall s ensures ReduceAll(s, [a]) == Reduce(s, a) {
      assert [a][1..] == [];
    }
  }

  lemma ReduceAllPair(a: Action, b: Action)
    ensures forall s :: ReduceAll(s, [a, b]) == Reduce(Reduce(s, a), b)
  {
    forall s ensures ReduceAll(s, [a, b]) == Reduce(Reduce(s, a), b) {
      assert [a, b][1..] == [b];
      ReduceAllOne(b);
    }
  }

  // ---------------------------------------------------------------- invariants

  lemma DefaultColumnsUnique()
    ensures UniqueColumnKeys(DefaultColumns)
  {
  }

  /** No reducer introduces a duplicate column key, provided a
      reordering payload has none itself. */
  lemma ReducePreservesUniqueColumns(s: TableState, a: Action)
    requires UniqueColumnKeys(s.columns)
    requires a.ReorderColumns? ==> UniqueColumnKeys(a.columns)
    ensures UniqueColumnKeys(Reduce(s, a).columns)
  {
    if a.ToggleColumnVisibility? || a.AddColumn? || a.RemoveColumn? {
      ColumnActionsKeepUnique(s, a);
    } else if a.ImportDataAction? || a.AppendDataAction? {
      ImportActionsKeepUnique(s, a);
    } else {
      OtherActionsKeepUnique(s, a);
    }
  }

  lemma ColumnActionsKeepUnique(s: TableState, a: Action)
    requires UniqueColumnKeys(s.columns)
    requires a.ToggleColumnVisibility? || a.AddColumn? || a.RemoveColumn?
    ensures UniqueColumnKeys(Reduce(s, a).columns)
  {
    ReduceColumnActions(s, a);
    match a
    case ToggleColumnVisibility(key) =>
      var r := ToggleColumn(s.columns, key);
      assert forall j :: 0 <= j < |r| ==> r[j].key == s.columns[j].key;
    case RemoveColumn(key) =>
      FilterUniqueColumns(s.columns, KeyIsNot(key));
    case AddColumn(_, _) =>
  }

  lemma ImportActionsKeepUnique(s: TableState, a: Action)
    requires UniqueColumnKeys(s.columns)
    requires a.ImportDataAction? || a.AppendDataAction?
    ensures UniqueColumnKeys(Reduce(s, a).columns)
  {
    match a
    case ImportDataAction(rows, errors, replace) =>
      assert Reduce(s, a) == ImportData(s, rows, errors, replace);
      if rows != [] && !(replace.GetOr(true) || !s.hasImportedData) {
        AppendedColumnsUnique(s.columns, rows);
      }
    case AppendDataAction(rows, errors) =>
      assert Reduce(s, a) == AppendData(s, rows, errors);
      if rows != [] {
        AppendDataMatchesImportAppend(s, rows, errors);
        AppendedColumnsUnique(s.columns, rows);
      }
  }

  lemma OtherActionsKeepUnique(s: TableState, a: Action)
    requires UniqueColumnKeys(s.columns)
    requires a.ReorderColumns? ==> UniqueColumnKeys(a.columns)
    requires !(a.ToggleColumnVisibility? || a.AddColumn? || a.RemoveColumn?)
    requires !(a.ImportDataAction? || a.AppendDataAction?)
    ensures UniqueColumnKeys(Reduce(s, a).columns)
  {
    if a.ResetDemo? {
      assert Reduce(s, a).columns == DefaultColumns;
      DefaultColumnsUnique();
    } else if !(a.ClearAll? || a.ReorderColumns?) {
      ReduceKeepsColumns(s, a);
    }
  }

  /** Only the column, import and reset actions touch the columns. */
  lemma ReduceKeepsColumns(s: TableState, a: Action)
    requires !(a.ToggleColumnVisibility? || a.AddColumn? || a.RemoveColumn? || a.ReorderColumns?)
    requires !(a.ImportDataAction? || a.AppendDataAction? || a.ClearAll? || a.ResetDemo?)
    ensures Reduce(s, a).columns == s.columns
  {
  }

  /** After any non-empty import that replaces the table, the column keys are
      exactly the non-`id` keys occurring in the rows. */
  lemma ImportReplaceColumnsMatchRows(s: TableState, data: seq<Row>, errors: Option<seq<string>>,
                                      replaceExisting: Option<bool>)
    requires data != [] && (replaceExisting.GetOr(true) || !s.hasImportedData)
    ensures var r := ImportData(s, data, errors, replaceExisting);
            forall k :: k in ColumnKeys(r.columns) <==>
              k != "id" && KeyOfSomeRow(r.data, k)
  {
  }

  /** A key of the appended rows has a column after the append branch. */
  lemma AppendedColumnsCoverKey(cols: seq<Column>, data: seq<Row>, k: string)
    requires k != "id" && KeyOfSomeRow(data, k)
    ensures k in ColumnKeys(cols + Filter(InferColumns(data), ColumnKeyNotIn(ColumnKeys(cols))))
  {
    var inferred := InferColumns(data);
    var p := ColumnKeyNotIn(ColumnKeys(cols));
    var added := Filter(inferred, p);
    ColumnKeysConcat(cols, added);
    if k !in ColumnKeys(cols) {
      ColumnKeysMembership(inferred, k);
      var c :| 0 <= c < |inferred| && inferred[c].key == k;
      FilterMembership(inferred, p, inferred[c]);
      ColumnKeysMembership(added, k);
    }
  }

  /** After an append, every non-`id` key of every row has a column, provided
      that held before. */
  lemma ImportAppendColumnsCoverRows(s: TableState, data: seq<Row>, errors: Option<seq<string>>,
                                     replaceExisting: Option<bool>)
    requires data != []
    requires forall i, k :: 0 <= i < |s.data| && k in KeysOf(s.data[i]) && k != "id" ==> k in ColumnKeys(s.columns)
    ensures var r := ImportData(s, data, errors, replaceExisting);
            forall i, k :: 0 <= i < |r.data| && k in KeysOf(r.data[i]) && k != "id" ==> k in ColumnKeys(r.columns)
  {
    var r := ImportData(s, data, errors, replaceExisting);
    forall i, k | 0 <= i < |r.data| && k in KeysOf(r.data[i]) && k != "id"
      ensures k in ColumnKeys(r.columns)
    {
      ImportCoversKey(s, data, errors, replaceExisting, i, k);
    }
  }

  lemma ImportCoversKey(s: TableState, data: seq<Row>, errors: Option<seq<string>>,
                        replaceExisting: Option<bool>, i: int, k: string)
    requires data != []
    requires forall i, k :: 0 <= i < |s.data| && k in KeysOf(s.data[i]) && k != "id" ==> k in ColumnKeys(s.columns)
    requires var r := ImportData(s, data, errors, replaceExisting);
             0 <= i < |r.data| && k in KeysOf(r.data[i]) && k != "id"
    ensures k in ColumnKeys(ImportData(s, data, errors, replaceExisting).columns)
  {
    if replaceExisting.GetOr(true) || !s.hasImportedData {
      ReplaceCoversKey(data, i, k);
    } else {
      AppendCoversKey(s.columns, s.data, data, i, k);
    }
  }

  lemma ReplaceCoversKey(data: seq<Row>, i: int, k: string)
    requires 0 <= i < |data| && k in KeysOf(data[i]) && k != "id"
    ensures k in ColumnKeys(InferColumns(data))
  {
    assert KeyOfSomeRow(data, k);
  }

  lemma AppendCoversKey(cols: seq<Column>, before: seq<Row>, data: seq<Row>, i: int, k: string)
    requires 0 <= i < |before + data| && k in KeysOf((before + data)[i]) && k != "id"
    requires i < |before| ==> k in ColumnKeys(cols)
    ensures k in ColumnKeys(cols + Filter(InferColumns(data), ColumnKeyNotIn(ColumnKeys(cols))))
  {
    var added := Filter(InferColumns(data), ColumnKeyNotIn(ColumnKeys(cols)));
    ColumnKeysConcat(cols, added);
    if i >= |before| {
      assert (before + data)[i] == data[i - |before|];
      assert KeyOfSomeRow(data, k);
      AppendedColumnsCoverKey(cols, data, k);
    }
  }

  /** Importing two `name` rows over the demo table in replace mode leaves
      exactly those rows, one `Name` column and the imported flag. */
  lemma ImportReplaceExample()
    ensures var rows: seq<Row> := [[Field("name", Str("A"))], [Field("name", Str("B"))]];
            var r := ImportData(InitialState, rows, None, Some(true));
            && r.data == rows && r.columns == [Column("name", "Name", true, true)]
            && r.hasImportedData
  {
    var rows: seq<Row> := [[Field("name", Str("A"))], [Field("name", Str("B"))]];
    InferNameColumn(rows);
    HumanizeName();
  }

  lemma InferNameColumn(rows: seq<Row>)
    requires rows == [[Field("name", Str("A"))], [Field("name", Str("B"))]]
    ensures InferColumns(rows) == [NewColumn("name")]
  {
    NameKeys(rows);
    assert Filter(["name"], NotId) == ["name"];
    ColumnsForCons("name", []);
  }

  lemma NameKeys(rows: seq<Row>)
    requires rows == [[Field("name", Str("A"))], [Field("name", Str("B"))]]
    ensures AllKeys(rows) == ["name"]
  {
    assert KeysOf(rows[0]) == ["name"];
    assert KeysOf(rows[1]) == ["name"];
    assert rows[..1] == [rows[0]];
    assert rows[..1][..0] == [];
    assert AddNew([], ["name"]) == ["name"];
    assert AddNew(["name"], ["name"]) == ["name"];
    assert AllKeys(rows[..1]) == ["name"];
  }

  /** `addRow` does not check ids: two rows may end up sharing one. */
  lemma AddRowAllowsDuplicateIds()
    ensures var row: Row := [Field("id", Num(1))];
            var r := Reduce(InitialState, AddRow(row));
            RowId(r.data[0]) == RowId(r.data[|r.data| - 1])
  {
  }

  /** `removeColumn("id")` strips the id from every row. */
  lemma RemoveIdColumnStripsIds(s: TableState)
    ensures forall i :: 0 <= i < |s.data| ==> RowId(Reduce(s, RemoveColumn("id")).data[i]) == Undef
  {
    ReduceColumnActions(s, RemoveColumn("id"));
    var r := RemoveColumnFrom(s, "id");
    forall i | 0 <= i < |s.data| ensures RowId(r.data[i]) == Undef {
      assert "id" !in KeysOf(r.data[i]);
    }
  }
}

=== FILE: wrappers.dfy ===
/** Option and Result values, used wherever the application returns "nothing",
    `undefined`, `NaN` or an error notification instead of a value. */
module Wrappers {

  datatype Option<+T> = None | Some(value: T) {
    function GetOr(default: T): T {
      match this
      case Some(v) => v
      case None => default
    }
  }

  /** Either a value, or the message the application would show instead. */
  datatype Result<+R> = Success(value: R) | Failure(error: string)
}
